=== FILE: README.md ===
# Choir dues ledger — a Dafny model

A choir's treasurer records monthly dues of 100 Kč for the ten months of a
school year, September to June. A payment of any amount is spread over the
member's unpaid months in school-year order, and what does not make a whole
month is kept as a surplus record. From the resulting ledger the application
shows:

- each member's month grid;
- a quick-pay button for the month due;
- choir-wide statistics;
- a CSV export and printable payment slips.

Members and payments can also be imported from pasted text.

This project models that logic: the calendar helpers, the payment hooks, the
statistics hook and the four components that compute from the ledger. Every
operation is a pure function, or a method where the source loops, over an
immutable ledger (`seq<Payment>`, `seq<Surplus>`, `seq<Member>`). Each one
has a contract, and lemmas relate the operations to each other:

- the allocation conserves money and never pays a month twice;
- the statistics partition the members;
- the status view agrees with the statistics;
- exported rows read back to what was written;
- imported text reads back to the members it was written from.

Modules follow the source files:

| module | file | what it holds |
|---|---|---|
| `Wrappers`, `Strings` | — | `Option`; JavaScript string operations (`trim`, `split`, `join`, `toLowerCase`, `includes`, number printing) |
| `SchoolYear` | `src/lib/schoolYearUtils.ts` | the month order, the fee, month names, the school-year label, `calculatePaymentStatus` |
| `GenderUtils` | `src/lib/genderUtils.ts` | `detectGender` and the gendered labels |
| `Ledger` | `src/hooks/usePayments.ts` records | `Member`, `Payment`, `Surplus` and the queries over them |
| `Payments` | `src/hooks/usePayments.ts` | `useCreatePayment` (the allocation), `usePaySingleMonth`, `useUnpaidMembers`, the success toast |
| `Statistics` | `src/hooks/useChoirStats.ts` | `useChoirStats` |
| `Status` | `src/components/PaymentStatus.tsx` | the member's status card and month grid |
| `Actions` | `src/components/PaymentActions.tsx` | quick pay, the unpaid-month line, the amount dialog |
| `Import` | `src/components/ImportDialog.tsx` | the member and payment text parsers and the two import buttons |
| `Export` | `src/components/ExportActions.tsx` | the CSV export, its file name, and the payment slips |

The clock is a parameter: the calendar year and month, or the school-year
label, are passed in. Each database query becomes a function over the
ledger. A database write becomes a `Write` value, or a ledger extended with
the new records.

Three points where the code behaves differently from what one might expect
of such a ledger, each modelled as the code has it:

- **Amounts.** `useCreatePayment` does not reject a zero or negative amount.
  Such an amount allocates nothing and writes nothing
  (`Payments.NegativeAmountRecordsNothing`).
- **Duplicate months.** The code has no error of its own for a month paid
  twice; it relies on the database. The model states instead when a write
  keeps the one-payment-per-month rule (`Ledger.UniqueMonths`).
- **Classification.** `useChoirStats` calls a member fully paid when the
  number of distinct months paid is at least 10, and partially paid when it is
  between 1 and 9. This means "every school month" only when just school
  months are recorded, which is what `Statistics.FullyPaidMeansEveryMonth`
  assumes.

Where the code is evidently wrong (see "## Findings"), the model holds both
the code as written and the corrected reading. Rows of "## Model" for a
corrected member begin their third column with "Corrected", and the
as-written partner of each corrected member has a row of its own, marked
"As written".

## Model

| member | source | states |
|---|---|---|
| SchoolYear.SchoolYearMonthsShape | src/lib/schoolYearUtils.ts:2 | The school year is ten months from September to June, in school order, with July and August outside it |
| SchoolYear.IsSchoolMonth | src/lib/schoolYearUtils.ts:59-61 | A month is in the school year exactly when it is 1 to 6 or 9 to 12 |
| SchoolYear.TotalYearlyFee | src/lib/schoolYearUtils.ts:67-69 | The yearly fee is ten monthly fees, 1000 Kč |
| SchoolYear.SchoolYearLabelFormat | src/lib/schoolYearUtils.ts:5-17 | The label is the start year, a slash, and the following year's last two digits, zero-padded; the start year is this year from September on and last year before |
| SchoolYear.SchoolYearLabelDecodes | src/lib/schoolYearUtils.ts:12-16 | Split at its slash, the label gives back the start year and the following year modulo 100 as digit strings |
| SchoolYear.SchoolYearSpansSeptemberToAugust | src/lib/schoolYearUtils.ts:12-16 | An autumn month of one calendar year and a spring month of the next carry the same label |
| SchoolYear.MonthName | src/lib/schoolYearUtils.ts:23-39 | The Czech month name is empty exactly for numbers outside 1 to 12 |
| SchoolYear.MonthNameShort | src/lib/schoolYearUtils.ts:41-57 | The abbreviation has three letters for 1 to 12 and is empty otherwise |
| SchoolYear.ShortNameIsPrefix | src/lib/schoolYearUtils.ts:23-57 | Each abbreviation is the first three letters of the full name, except July's "Čvc" |
| SchoolYear.UnpaidMonths | src/lib/schoolYearUtils.ts:77-78 | The unpaid list holds exactly the school months not paid, in school-year order |
| SchoolYear.PaidUnpaidPartition | src/lib/schoolYearUtils.ts:77-78 | Paid and unpaid school months number ten together; the unpaid list is empty exactly when every school month is paid |
| SchoolYear.CalculatePaymentStatus | src/lib/schoolYearUtils.ts:71-87 | Whether the current month is paid, the unpaid school months in order, the paid count as given, and 10 months in all |
| SchoolYear.PaymentSummaryAddsUp | src/lib/schoolYearUtils.ts:78-85 | For distinct school months, paid count plus unpaid count is the total |
| SchoolYear.PaymentSummaryCountsRepeats | src/lib/schoolYearUtils.ts:84 | A month listed twice is counted twice by the paid count, so the two counts then exceed the total |
| GenderUtils.DetectGender | src/lib/genderUtils.ts:21-43 | A listed female name gives female; otherwise a listed male exception gives male; female needs a non-empty name; male without an exception means the name does not end in "a" |
| GenderUtils.DetectGenderIgnoresCase | src/lib/genderUtils.ts:25-37 | Lower-casing the name does not change the result |
| GenderUtils.DetectGenderIgnoresPadding | src/lib/genderUtils.ts:22 | Surrounding white space does not change the result |
| GenderUtils.FemaleEndingDecides | src/lib/genderUtils.ts:35-42 | For names on neither list, the result is female exactly when a female ending matches, and any name ending in "a" is female |
| GenderUtils.EmptyNameIsMale | src/lib/genderUtils.ts:42 | A blank name is male |
| GenderUtils.LabelsByGender | src/lib/genderUtils.ts:45-63 | The member and payment labels differ by gender; the paid and unpaid labels are the same for both |
| Ledger.PaymentsOfYear | src/hooks/usePayments.ts:231-234 | The year's payments are exactly the ledger's payments of that school year |
| Ledger.ActiveMembers | src/hooks/useChoirStats.ts:25-28 | The members counted are exactly the active ones |
| Ledger.MonthsByMember | src/hooks/useChoirStats.ts:43-52 | The grouping has a key for every member with a payment, holding the set of months that member paid |
| Payments.Allocate | src/hooks/usePayments.ts:109-163 | Payments plus remainder equal the amount; the payments are the leading unpaid months in school order at the monthly fee; the walk stops only when months or money run out; a surplus is written exactly when something remains, before the payments |
| Payments.CreatePayment | src/hooks/usePayments.ts:109-163 | The loop over the unpaid months produces the allocation |
| Payments.AllocationCount | src/hooks/usePayments.ts:127-139 | A non-negative amount pays the smaller of the unpaid month count and the whole fees it holds |
| Payments.AllocationKeepsMonthsUnique | src/hooks/usePayments.ts:120-139 | An allocation adds only new months, so the ledger keeps one payment per member, year and month |
| Payments.ApplyAllocationWrites | src/hooks/usePayments.ts:141-161 | The writes add the payments and, when the remainder is positive, one surplus record noting the amount |
| Payments.AllocationConservesMoney | src/hooks/usePayments.ts:123-163 | After the writes, recorded payments plus surplus grow by exactly the amount paid |
| Payments.NegativeAmountRecordsNothing | src/hooks/usePayments.ts:123-161 | A negative amount pays nothing and writes nothing |
| Payments.AllocationOfWholeFees | src/hooks/usePayments.ts:127-139 | k whole fees pay the first k unpaid months with no surplus |
| Payments.AllocationOfAllUnpaid | src/hooks/usePayments.ts:127-139 | The fee times the unpaid count pays every unpaid month and leaves no surplus |
| Payments.AllocationExampleThreeMonths | src/hooks/usePayments.ts:120-139 | With September paid, 300 Kč pays October, November and December |
| Payments.AllocationExampleWholeYear | src/hooks/usePayments.ts:120-139 | With nothing paid, 1000 Kč pays all ten months with no surplus |
| Payments.AllocationExampleBelowFee | src/hooks/usePayments.ts:123-152 | 50 Kč pays no month and writes one surplus of 50 Kč |
| Payments.AllocationExampleAllPaid | src/hooks/usePayments.ts:120-142 | With every month paid, 250 Kč all becomes surplus |
| Payments.PaySingleMonthAddsMonth | src/hooks/usePayments.ts:182-205 | Paying one month keeps months unique exactly when it was unpaid, adds that month and adds one fee |
| Payments.UnpaidMembers | src/hooks/usePayments.ts:63-96 | Outside the school months nobody is listed; otherwise exactly the active members without a payment for the month |
| Payments.PayingLeavesUnpaidList | src/hooks/usePayments.ts:79-93 | Paying the month for a member removes that member from the unpaid list and nobody else |
| Payments.MonthWordEnding | src/hooks/usePayments.ts:170 | Corrected: the Czech ending is "" exactly for one, "e" exactly for two to four, "ů" for zero and five or more |
| Payments.MonthWordEndingAsWritten | src/hooks/usePayments.ts:170 | As written: the source's ending is "" exactly for one, "e" exactly for other counts below five, zero and negatives included, "ů" exactly from five on |
| Payments.MonthWordEndingAtZero | src/hooks/usePayments.ts:170 | As written, the source's ending agrees with the corrected one for every positive count and differs at zero |
| Payments.SuccessMessage | src/hooks/usePayments.ts:170-174 | As written: the toast is "Zaplaceno", the months paid and "měsíc" with the source's ending; ", přebytek {surplus} Kč" at the end exactly when the surplus is positive, otherwise the month word ends it |
| Payments.CorrectedSuccessMessage | src/hooks/usePayments.ts:170-174 | Corrected: the same toast with the corrected ending |
| Payments.SuccessMessagesAgree | src/hooks/usePayments.ts:170 | The two toasts are equal for every positive month count and differ at zero |
| Payments.SuccessMessageOfAllocation | src/hooks/usePayments.ts:127-174 | The toast after an allocation counts the payments it made and ends in the surplus exactly when money remains |
| Payments.BelowFeeToast | src/hooks/usePayments.ts:150-174 | After 50 Kč the toast as written begins "Zaplaceno 0 měsíce", the corrected one "Zaplaceno 0 měsíců", both ending ", přebytek 50 Kč" |
| Statistics.Classify | src/hooks/useChoirStats.ts:59-67 | A member is unpaid exactly when no month, or an empty set, is recorded for them |
| Statistics.ClassifyByMap | src/hooks/useChoirStats.ts:43-67 | Classifying through the grouped map is classifying the member's own paid months |
| Statistics.CountsAddUp | src/hooks/useChoirStats.ts:55-68 | Fully, partially and unpaid members together are all members |
| Statistics.GroupByMember | src/hooks/useChoirStats.ts:43-52 | The loop builds the month sets of every member and the sum of all amounts |
| Statistics.CountOfIsMultiplicity | src/hooks/useChoirStats.ts:55-68 | The count of a class is the number of members the classification puts in it |
| Statistics.Tally | src/hooks/useChoirStats.ts:55-68 | The loop counts the members of each class |
| Statistics.PercentCollected | src/hooks/useChoirStats.ts:72 | The percentage is collected over expected times 100, and 0 when nothing is expected; it lies in 0 to 100 when collection does not exceed expectation |
| Statistics.Summarise | src/hooks/useChoirStats.ts:70-83 | The expected sum is members times ten fees; the remainder is the shortfall clamped at zero |
| Statistics.ComputeChoirStats | src/hooks/useChoirStats.ts:16-86 | Active members, the year's collected sum, the expected sum, the clamped remainder, the exact percentage, and the three class counts, which add up to the member count |
| Statistics.FullyPaidMeansEveryMonth | src/hooks/useChoirStats.ts:63 | With school months only, "fully paid" means every school month is paid |
| Statistics.AllocationRaisesCollected | src/hooks/useChoirStats.ts:34-52 | An allocation raises the year's collected sum by one fee per month it pays |
| Statistics.OtherYearsDoNotCount | src/hooks/useChoirStats.ts:35-38 | A payment of another school year leaves the collected sum unchanged |
| Status.MemberPayments | src/hooks/usePayments.ts:24-43 | The member's payments are exactly the ledger's payments for that member and year |
| Status.MemberPaymentsMonths | src/components/PaymentStatus.tsx:39 | The months of those payments are the member's paid months |
| Status.SurplusOf | src/hooks/usePayments.ts:45-61 | The member's surplus records are exactly the records of that member |
| Status.FirstPaymentFor | src/components/PaymentStatus.tsx:55-57 | The first payment for a month, when one exists, comes before any other for that month; none exactly when no payment has that month |
| Status.Grid | src/components/PaymentStatus.tsx:110-141 | Ten cells in school order with short names, paid exactly when a payment exists, offering undo exactly when paid and undoing a payment of that month |
| Status.PaymentStatus | src/components/PaymentStatus.tsx:38-57 | Paid count is the distinct months paid, total 10, paid sum is count times fee, surplus sums the member's records, "all paid" exactly at ten, exact progress, the grid as above, and the surplus box shown exactly when surplus is positive |
| Status.TenOfTheSchoolMonths | src/components/PaymentStatus.tsx:45 | A set of school months has ten elements exactly when none is unpaid |
| Status.PaidAllIffNothingUnpaid | src/components/PaymentStatus.tsx:45 | The "whole year paid" badge shows exactly when no school month is unpaid |
| Status.PaidAllAgreesWithStatistics | src/components/PaymentStatus.tsx:45 | The status card says all paid exactly when the statistics count the member as fully paid |
| Status.DistinctMonthsCount | src/components/PaymentStatus.tsx:39-40 | Under the uniqueness rule a member's payments have as many distinct months as records |
| Status.TotalPaidIsRecorded | src/components/PaymentStatus.tsx:42 | Under the uniqueness rule, with fee-sized payments, count times fee is the sum of the member's recorded payments |
| Status.UndoIsTheMonthsPayment | src/components/PaymentStatus.tsx:132-137 | The undo button of a paid month removes that month's one payment |
| Actions.QuickPayOffers | src/components/PaymentActions.tsx:32-59 | The unpaid list is exact and ordered; the current month is offered exactly when it is an unpaid school month, else the earliest unpaid one; nothing is offered exactly when everything is paid |
| Actions.QuickPayLabel | src/components/PaymentActions.tsx:82-88 | The button reads "Zaplatit" and the offered month in lower case, or "Vše zaplaceno" |
| Actions.RemainingLine | src/components/PaymentActions.tsx:103-107 | The still-to-pay line appears exactly while something is unpaid |
| Actions.DialogNoteSettlesAll | src/components/PaymentActions.tsx:136 | The sum the dialog quotes, paid as one amount, pays exactly the unpaid months with no surplus |
| Actions.QuickPayAddsOneMonth | src/components/PaymentActions.tsx:47-51 | Quick pay keeps months unique, changes nothing exactly when all is paid, and otherwise leaves one month fewer unpaid |
| Actions.QuickPayRepeatedPaysAll | src/components/PaymentActions.tsx:47-51 | Pressing quick pay once per unpaid month pays the whole year without a duplicate |
| Actions.UnpaidShrinksByOne | src/components/PaymentActions.tsx:35 | Paying an unpaid school month shortens the unpaid list by one |
| Import.NonBlankLines | src/components/ImportDialog.tsx:32 | The lines kept are exactly the lines of the text that are not blank, and none holds a line break |
| Import.LinesOfJoin | src/components/ImportDialog.tsx:32 | Non-blank lines joined with line breaks split back into the same lines |
| Import.FieldAt | src/components/ImportDialog.tsx:48-49 | An optional field is present exactly when it exists and is not blank, and then it is trimmed |
| Import.ReadMemberFields | src/components/ImportDialog.tsx:37-43 | A line gives a member exactly when its part before the first comma has at least two words |
| Import.ParseMemberLine | src/components/ImportDialog.tsx:37-51 | A line gives a member exactly when its fields read; the member has those fields, the gender its first name suggests, and is active |
| Import.ParseMembers | src/components/ImportDialog.tsx:31-56 | At most one member per non-blank line; a member is parsed exactly when some non-blank line gives it; each is active with a first and a last name |
| Import.FieldsRoundTrip | src/components/ImportDialog.tsx:37-49 | A member line written as "first last, email, phone" reads back to the same fields |
| Import.MemberLineRoundTrip | src/components/ImportDialog.tsx:37-51 | A member written out as one line is imported as the same active member with the detected gender |
| Import.MemberListRoundTrip | src/components/ImportDialog.tsx:31-56 | A list of members written one per line imports as the same list |
| Import.ImportMembers | src/components/ImportDialog.tsx:124-140 | The import shows the "no members" error exactly when nothing parses, otherwise submits exactly the parsed members |
| Import.ImportMembersRoundTrip | src/components/ImportDialog.tsx:124-140 | Written members are submitted unchanged |
| Import.MonthKeysAreSchoolMonths | src/components/ImportDialog.tsx:62-73 | Every month word stands for a school month |
| Import.SeparatorIndex | src/components/ImportDialog.tsx:77-79 | The line splits at the first colon when that is not the first character, else at the first dash, else nowhere |
| Import.FindMemberAsWritten | src/components/ImportDialog.tsx:86-91 | As written: the first member whose lower-cased full name contains the search, none exactly when nobody's does |
| Import.BlankNameFindsFirstMember | src/components/ImportDialog.tsx:86-91 | As written, a blank name finds the first member |
| Import.FindMember | src/components/ImportDialog.tsx:86-91 | Corrected search: a blank name finds nobody; otherwise the same member as written |
| Import.BlankNameFindsNobody | src/components/ImportDialog.tsx:86-91 | Corrected: a blank name matches every member but the corrected search finds nobody |
| Import.ListedMonthsAsWritten | src/components/ImportDialog.tsx:94-115 | As written: all ten months for the whole-year words, otherwise one entry per month word contained anywhere in the text |
| Import.TenAlsoPaysJanuaryAsWritten | src/components/ImportDialog.tsx:106-115 | As written, "10" pays January too, because it contains "1" |
| Import.SeptemberPaidTwiceAsWritten | src/components/ImportDialog.tsx:106-115 | As written, "září" pays September twice, because it contains "zář" |
| Import.ListedMonths | src/components/ImportDialog.tsx:94-115 | Corrected: the listed months are the school months named by a whole word, or all ten for the whole-year words, once each in school order |
| Import.TenPaysOctober | src/components/ImportDialog.tsx:106-115 | Corrected, "10" pays October only |
| Import.SeptemberPaidOnce | src/components/ImportDialog.tsx:106-115 | Corrected, "září" pays September once |
| Import.PayListedAsWritten | src/components/ImportDialog.tsx:94-115 | As written: fees of the member for school months; every school month for a whole-year word, otherwise exactly the months of the keys the text contains |
| Import.ParsePaymentLineAsWritten | src/components/ImportDialog.tsx:75-118 | As written: monthly fees of the school year for existing members; nothing when the line has no separator past its start or its name finds nobody; otherwise the found member's payments for the months part, as `Import.PayListedAsWritten` states them |
| Import.ParsePaymentsAsWritten | src/components/ImportDialog.tsx:58-122 | As written: a payment is in the result exactly when some non-blank line of the text yields it under the as-written line parser; every such payment is a monthly fee of the school year for a school month, for an existing member |
| Import.ImportPaymentsAsWritten | src/components/ImportDialog.tsx:142-158 | As written: the "no payments" error exactly when nothing parses, otherwise exactly the parsed payments are submitted |
| Import.PaymentLineRoundTripAsWritten | src/components/ImportDialog.tsx:75-118 | As written, "Name: w1, w2, …" pays the found member for every key the list contains, so every listed month word gets its month paid |
| Import.BlankNameLine | src/components/ImportDialog.tsx:77-103 | As written, " : vše" pays the first member the whole year; corrected, it pays nothing |
| Import.BlankNameImport | src/components/ImportDialog.tsx:142-158 | As written, importing " : vše" submits the whole year for the first member; corrected, it shows the "no payments" error |
| Import.SeptemberLine | src/components/ImportDialog.tsx:106-115 | As written, "Name: září" pays September twice, breaking the one-payment-per-month rule; corrected, it pays September once |
| Import.PayListed | src/components/ImportDialog.tsx:94-115 | Corrected: one fee per listed month for the member, with unique months |
| Import.ParsePaymentLine | src/components/ImportDialog.tsx:75-118 | Corrected: only fees of the school year, for school months and existing members, with unique months; nothing when the line has no separator past its start |
| Import.ParsePayments | src/components/ImportDialog.tsx:58-122 | Corrected: a payment is in the result exactly when some non-blank line of the text yields it under the corrected line parser; every such payment is a monthly fee of the school year for a school month, for an existing member |
| Import.PaymentLineRoundTrip | src/components/ImportDialog.tsx:75-118 | Corrected, "Name: w1, w2, …" for a found member pays one fee per month its words name, once each in school order, or all ten for a whole-year word |
| Import.WholeYearLine | src/components/ImportDialog.tsx:94-103 | "Name: vše" pays all ten months of the member the name finds |
| Import.ListedWithinAsWritten | src/components/ImportDialog.tsx:94-115 | Every month the corrected reading lists, the code as written lists too |
| Import.LineWithinAsWritten | src/components/ImportDialog.tsx:75-118 | Every payment the corrected reading takes from a line, the code as written takes too |
| Import.PaymentsWithinAsWritten | src/components/ImportDialog.tsx:58-122 | Every payment the corrected reading takes from a text, the code as written takes too |
| Import.ImportPayments | src/components/ImportDialog.tsx:142-158 | Corrected: the "no payments" error exactly when nothing parses, otherwise exactly the parsed payments are submitted |
| Import.ImportWithinAsWritten | src/components/ImportDialog.tsx:142-158 | When the corrected import submits, the code as written submits too, with every corrected payment in its batch |
| Import.ImportWholeYearLine | src/components/ImportDialog.tsx:142-158 | Importing "Name: vše" submits the whole year for that member |
| Import.NoMembersNoPayments | src/components/ImportDialog.tsx:142-149 | With no members, any text gives the "no payments" error |
| Export.PaidSetIsMemberMonths | src/components/ExportActions.tsx:16-23 | The grouped set of a member is exactly the months that member paid |
| Export.SurplusByMember | src/components/ExportActions.tsx:25-28 | A member has a surplus entry exactly when some surplus record is theirs |
| Export.SurplusByMemberSums | src/components/ExportActions.tsx:25-28 | The per-member surplus total is the sum of that member's records |
| Export.MoneyTextReads | src/components/ExportActions.tsx:44 | A money cell is the digits of the amount followed by " Kč" |
| Export.RowFields | src/components/ExportActions.tsx:39-46 | A row has the fifteen fields of the header, with the ten month cells in the middle |
| Export.Rows | src/components/ExportActions.tsx:34-48 | One row per member, in member order |
| Export.CsvLines | src/components/ExportActions.tsx:30-50 | The header line and one line per member |
| Export.HeaderRoundTrip | src/components/ExportActions.tsx:31-32 | The header splits into fifteen fields: names, gender, the ten month names in school order, total and surplus |
| Export.HeaderSafe | src/components/ExportActions.tsx:31-32 | The header carries no line break |
| Export.RowRoundTrip | src/components/ExportActions.tsx:39-47 | A row splits back into its fields: the names, a tick exactly in the paid school months, and an empty surplus cell exactly when there is no surplus |
| Export.TicksArePaidMonths | src/components/ExportActions.tsx:43 | The ticked month cells are exactly the paid school months |
| Export.TotalMatchesTicks | src/components/ExportActions.tsx:37-44 | The total cell is one fee per ticked month |
| Export.CsvRoundTrip | src/components/ExportActions.tsx:30-50 | The CSV splits into the header and one line per member, each splitting into that member's row |
| Export.ReplaceFirst | src/components/ExportActions.tsx:55 | Only the first occurrence of the character is replaced |
| Export.CsvFileName | src/components/ExportActions.tsx:55 | The file name is "prispevky_", the school year with its first slash turned into a dash and every other character kept, then ".csv" |
| Export.CsvFileNameHasNoSlash | src/components/ExportActions.tsx:55 | The file name of a school-year label holds no slash |
| Export.MakeSlip | src/components/ExportActions.tsx:143-157 | A slip names the member and the year, charges one fee per distinct month paid, and paid plus remaining is the yearly fee |
| Export.Slips | src/components/ExportActions.tsx:143-159 | One slip per member, in member order, each made from the months that member paid |
| Export.SlipAbbreviationIsShortName | src/components/ExportActions.tsx:145-146 | A slip's three-letter month is the calendar's short name for every school month |
| Export.SlipAbbreviationsDistinct | src/components/ExportActions.tsx:145-146 | Different school months get different slip abbreviations |
| Export.SlipShows | src/components/ExportActions.tsx:143-156 | A dash stands for an empty paid or unpaid list exactly when there is none; paid plus remaining is the yearly fee |
| Export.NotADash | src/components/ExportActions.tsx:154-155 | A list of months is never mistaken for the dash |

## Left out

- Supabase reads and writes, React state, the display of toasts and query invalidation are not modelled; the texts the toasts show are. Queries are functions over the ledger. Writes are `Write` values or extended ledgers. A failed write, which the source rethrows, is not modelled.
- The wall clock (`new Date()`) is not modelled. The calendar year and month, or the school-year label, are parameters.
- JavaScript numbers are IEEE doubles. Amounts are unbounded integers here, and the percentages are exact reals.
- `toLowerCase` is modelled for ASCII and the Czech letters only. Other Unicode case mapping is left out.
- Query ordering (`order("month")`, `order("last_name")`, `order("created_at")`) is taken as the order of the ledger sequence given.
- Undo and delete (`useDeletePayment`) and the import writes (`useImportMembers`, `useImportPayments`) are not part of this model. Their code is not among the files modelled. The model stops at the batch each import button submits.
- The printable HTML table and the slip markup are not modelled. The slips are modelled as their texts and sums.
- `useMembers`, member editing and the `parse-document` function are not part of this model.
- Database uniqueness constraints and concurrent writes are not modelled. The one-payment-per-month rule is a predicate that lemmas show each write keeps.
- SchoolYear.SchoolYearLabelFormat: stated for years from 10 on. Below that, `slice(-2)` of a one-digit year gives one digit, and the lemma does not cover it.
- Export.CsvRoundTrip: stated for member names without ';' or line breaks. The source does not quote fields, so other names do not read back.
- Export.RowRoundTrip: stated for member names without ';' or line breaks, for the same reason.
- Import.MemberListRoundTrip: stated for members with a one-word first name, a last name of words joined by single spaces, and e-mail and phone that are trimmed and free of commas and line breaks. The source splits at commas and white space, so other members do not read back.
- Import.ParsePayments: the corrected reading, not the code; the code as written is `Import.ParsePaymentsAsWritten`. It states exactly which payments the text yields, but not their order or how often a payment repeats.
- Import.PayListed: the corrected reading, not the code. It lists each month named by a whole word once; the code as written is `Import.PayListedAsWritten`.
- Import.ParsePaymentLine: the corrected reading, not the code. A blank name finds nobody and months are read by whole words; the code as written is `Import.ParsePaymentLineAsWritten`.
- Import.ImportPayments: the corrected reading, not the code; the code as written is `Import.ImportPaymentsAsWritten`.
- Import.ParsePaymentsAsWritten: states exactly which payments the text yields, but not their order or how often a payment repeats.

## Findings

| source | as written | input that shows it | evidently intended | confidence | as-written member | corrected member |
|---|---|---|---|---|---|---|
| src/hooks/usePayments.ts:170 | the ending is "" for 1, "e" below 5, "ů" otherwise | a payment below the fee pays 0 months, and the toast says "Zaplaceno 0 měsíce" | zero takes the genitive plural: "0 měsíců" | not executed | Payments.MonthWordEndingAtZero | Payments.MonthWordEnding |
| src/components/ImportDialog.tsx:106-115 | a month is paid when its key occurs anywhere in the text, once per matching key | "Jana Nováková: 10" also pays January, since "10" contains "1"; "září" pays September twice, via "září" and "zář" | each month named by a whole word is paid once | not executed | Import.TenAlsoPaysJanuaryAsWritten | Import.TenPaysOctober |
| src/components/ImportDialog.tsx:86-91 | a member matches when the full name contains the search name | the line " : vše" has its colon past the first character and an empty name part, which every member's name contains, so the first member is credited the whole year | a blank name finds nobody | not executed | Import.BlankNameFindsFirstMember | Import.BlankNameFindsNobody |

The corrected definitions are `Payments.MonthWordEnding`,
`Import.ListedMonths` and `Import.FindMember`; the as-written ones are
`Payments.MonthWordEndingAsWritten`, `Import.ListedMonthsAsWritten` and
`Import.FindMemberAsWritten`. Each pair is related by the lemmas named in the
table. Both readings are carried up to the toast and the import button:
`Payments.SuccessMessage` and `Import.ImportPaymentsAsWritten` model the code,
`Payments.CorrectedSuccessMessage` and `Import.ImportPayments` the corrected
behaviour. The examples at the top level are `Payments.BelowFeeToast` for the
first row, `Import.SeptemberLine` (with `Import.SeptemberPaidTwiceAsWritten`
and `Import.SeptemberPaidOnce`) for the second, and `Import.BlankNameLine` and
`Import.BlankNameImport` for the third. `Import.PaymentsWithinAsWritten` shows
that the corrected import takes no payment the code as written would not.

=== FILE: choir_stats.dfy ===
/** The choir-wide statistics of one school year (`useChoirStats`): money
    collected against money expected, and how many active members have paid
    everything, something or nothing. The two table reads become the
    `members` and `ledger` parameters. */
module Statistics {
  import opened SchoolYear
  import opened Ledger
  import opened Payments

  /** How far a member has got with the year's dues. */
  datatype PaidClass = FullyPaid | PartiallyPaid | Unpaid

  datatype ChoirStats = ChoirStats(
    totalMembers: int,
    totalCollected: int,
    totalRemaining: int,
    totalExpected: int,
    percentCollected: real,
    fullyPaidMembers: int,
    partiallyPaidMembers: int,
    unpaidMembers: int)

  /** The class of a member with the given distinct paid months: nothing paid,
      at least as many months as the school year has, or something between. */
  function ClassOf(months: set<int>): PaidClass {
    if months == {} then Unpaid
    else if |months| >= |SchoolYearMonths| then FullyPaid
    else PartiallyPaid
  }

  /** The classification as the statistics compute it, from the grouped map:
      a member missing from the map or with an empty set is unpaid. */
  function Classify(byMember: map<MemberId, set<int>>, id: MemberId): (c: PaidClass)
    ensures (id !in byMember || byMember[id] == {}) <==> c == Unpaid
  {
    if id !in byMember || |byMember[id]| == 0 then Unpaid
    else if |byMember[id]| >= |SchoolYearMonths| then FullyPaid
    else PartiallyPaid
  }

  /** Classifying from the grouped map agrees with classifying the member's
      own months. */
  lemma ClassifyByMap(payments: seq<Payment>, id: MemberId)
    ensures Classify(MonthsByMember(payments), id) == ClassOf(MemberMonths(payments, id))
  {
    var byMember := MonthsByMember(payments);
    if id !in byMember {
      assert MemberMonths(payments, id) == {};
    }
  }

  /** The class of each member, in member order. */
  function ClassesOf(members: seq<Member>, payments: seq<Payment>): (r: seq<PaidClass>)
    ensures |r| == |members|
  {
    seq(|members|, i requires 0 <= i < |members| => ClassOf(MemberMonths(payments, members[i].id)))
  }

  /**
   * The number of `members` of class `c` given the payments. That this is
   * the multiplicity of `c` among the members' classes is stated by
   * `CountOfIsMultiplicity` below, kept apart so callers do not carry it.
   */
  function CountOf(members: seq<Member>, payments: seq<Payment>, c: PaidClass): (n: nat)
    ensures n <= |members|
  {
    if members == [] then 0
    else
      var last := members[|members| - 1];
      CountOf(members[..|members| - 1], payments, c)
        + (if ClassOf(MemberMonths(payments, last.id)) == c then 1 else 0)
  }

  /** The count of a class is how often it occurs among the members' classes. */
  lemma {:induction false} CountOfIsMultiplicity(members: seq<Member>, payments: seq<Payment>, c: PaidClass)
    ensures CountOf(members, payments, c) == multiset(ClassesOf(members, payments))[c]
    decreases |members|
  {
    if members != [] {
      CountOfIsMultiplicity(members[..|members| - 1], payments, c);
      ClassesStep(members, payments);
    }
  }

  /** The classes of a list are those of all but its last member, then the
      last member's class. */
  lemma ClassesStep(members: seq<Member>, payments: seq<Payment>)
    requires members != []
    ensures var k := |members| - 1;
      multiset(ClassesOf(members, payments))
        == multiset(ClassesOf(members[..k], payments)) + multiset{ClassOf(MemberMonths(payments, members[k].id))}
  {
    var k := |members| - 1;
    assert ClassesOf(members, payments)
      == ClassesOf(members[..k], payments) + [ClassOf(MemberMonths(payments, members[k].id))];
  }

  /** Every member falls in exactly one class. */
  lemma {:induction false} CountsAddUp(members: seq<Member>, payments: seq<Payment>)
    ensures CountOf(members, payments, FullyPaid) + CountOf(members, payments, PartiallyPaid)
      + CountOf(members, payments, Unpaid) == |members|
    decreases |members|
  {
    if members != [] {
      CountsAddUp(members[..|members| - 1], payments);
    }
  }

  /** Grouping one more payment adds its month to its member's set. */
  lemma GroupingStep(payments: seq<Payment>, p: Payment)
    ensures var m := MonthsByMember(payments);
      MonthsByMember(payments + [p])
        == m[p.memberId := (if p.memberId in m then m[p.memberId] else {}) + {p.month}]
  {
    assert (payments + [p])[..|payments|] == payments;
  }

  /** One more payment of the list grouped and summed. */
  lemma GroupingPrefixStep(payments: seq<Payment>, i: nat)
    requires i < |payments|
    ensures var m := MonthsByMember(payments[..i]);
      var p := payments[i];
      MonthsByMember(payments[..i + 1])
        == m[p.memberId := (if p.memberId in m then m[p.memberId] else {}) + {p.month}]
    ensures TotalAmount(payments[..i + 1]) == TotalAmount(payments[..i]) + payments[i].amount
  {
    var p := payments[i];
    assert payments[..i + 1] == payments[..i] + [p];
    TotalAmountAppend(payments[..i], [p]);
    GroupingStep(payments[..i], p);
  }

  /** The `forEach` over the year's payments: each month goes into its
      member's set and each amount into the running total. */
  method GroupByMember(payments: seq<Payment>) returns (byMember: map<MemberId, set<int>>, total: int)
    ensures byMember == MonthsByMember(payments)
    ensures total == TotalAmount(payments)
  {
    byMember := map[];
    total := 0;
    var i := 0;
    while i < |payments|
      invariant 0 <= i <= |payments|
      invariant byMember == MonthsByMember(payments[..i])
      invariant total == TotalAmount(payments[..i])
    {
      var p := payments[i];
      GroupingPrefixStep(payments, i);
      var before := if p.memberId in byMember then byMember[p.memberId] else {};
      byMember := byMember[p.memberId := before + {p.month}];
      total := total + p.amount;
      i := i + 1;
    }
    assert payments[..i] == payments;
  }

  /** The `forEach` over the active members, counting each class. */
  method Tally(active: seq<Member>, payments: seq<Payment>, byMember: map<MemberId, set<int>>)
    returns (fully: int, partially: int, unpaid: int)
    requires byMember == MonthsByMember(payments)
    ensures fully == CountOf(active, payments, FullyPaid)
    ensures partially == CountOf(active, payments, PartiallyPaid)
    ensures unpaid == CountOf(active, payments, Unpaid)
  {
    fully, partially, unpaid := 0, 0, 0;
    var j := 0;
    while j < |active|
      invariant 0 <= j <= |active|
      invariant fully == CountOf(active[..j], payments, FullyPaid)
      invariant partially == CountOf(active[..j], payments, PartiallyPaid)
      invariant unpaid == CountOf(active[..j], payments, Unpaid)
    {
      var member := active[j];
      assert active[..j + 1][..j] == active[..j];
      ClassifyByMap(payments, member.id);
      match Classify(byMember, member.id) {
        case Unpaid => unpaid := unpaid + 1;
        case FullyPaid => fully := fully + 1;
        case PartiallyPaid => partially := partially + 1;
      }
      j := j + 1;
    }
    assert active[..j] == active;
  }

  /** `percent` is `collected` as a percentage of `expected`, taken as zero
      when nothing is expected. */
  predicate IsPercentOf(percent: real, collected: int, expected: int) {
    if expected > 0 then percent * (expected as real) == (collected as real) * 100.0
    else percent == 0.0
  }

  /** The share of the expected money collected, in percent; zero when
      nothing is expected. */
  function PercentCollected(collected: int, expected: int): (r: real)
    ensures IsPercentOf(r, collected, expected)
    ensures expected > 0 && 0 <= collected <= expected ==> 0.0 <= r <= 100.0
  {
    if expected > 0 then (collected as real / expected as real) * 100.0 else 0.0
  }

  /** The record returned by the statistics query, from the member count,
      the money collected and the three class counts. */
  function Summarise(totalMembers: int, collected: int, fully: int, partially: int, unpaid: int)
    : (r: ChoirStats)
    ensures r.totalMembers == totalMembers && r.totalCollected == collected
    ensures r.totalExpected == totalMembers * |SchoolYearMonths| * MonthlyFee
    ensures r.totalRemaining >= 0 && r.totalRemaining >= r.totalExpected - r.totalCollected
    ensures r.totalRemaining == 0 || r.totalRemaining == r.totalExpected - r.totalCollected
    ensures IsPercentOf(r.percentCollected, r.totalCollected, r.totalExpected)
    ensures r.fullyPaidMembers == fully && r.partiallyPaidMembers == partially && r.unpaidMembers == unpaid
  {
    var totalExpected := totalMembers * |SchoolYearMonths| * MonthlyFee;
    var totalRemaining := totalExpected - collected;
    ChoirStats(totalMembers, collected, if totalRemaining > 0 then totalRemaining else 0,
      totalExpected, PercentCollected(collected, totalExpected), fully, partially, unpaid)
  }

  /** The query for the statistics: groups the year's payments by member while
      summing their amounts, then classifies every active member. */
  method ComputeChoirStats(members: seq<Member>, ledger: seq<Payment>, schoolYear: string)
    returns (r: ChoirStats)
    ensures r.totalMembers == |ActiveMembers(members)|
    ensures r.totalCollected == TotalAmount(PaymentsOfYear(ledger, schoolYear))
    ensures r.totalExpected == r.totalMembers * |SchoolYearMonths| * MonthlyFee
    // the remaining amount is the shortfall, never negative
    ensures r.totalRemaining >= 0 && r.totalRemaining >= r.totalExpected - r.totalCollected
    ensures r.totalRemaining == 0 || r.totalRemaining == r.totalExpected - r.totalCollected
    // the percentage, kept exact
    ensures IsPercentOf(r.percentCollected, r.totalCollected, r.totalExpected)
    // the classes count the active members by their paid months this year
    ensures r.fullyPaidMembers
      == CountOf(ActiveMembers(members), PaymentsOfYear(ledger, schoolYear), FullyPaid)
    ensures r.partiallyPaidMembers
      == CountOf(ActiveMembers(members), PaymentsOfYear(ledger, schoolYear), PartiallyPaid)
    ensures r.unpaidMembers
      == CountOf(ActiveMembers(members), PaymentsOfYear(ledger, schoolYear), Unpaid)
    ensures r.fullyPaidMembers + r.partiallyPaidMembers + r.unpaidMembers == r.totalMembers
  {
    var active := ActiveMembers(members);
    var payments := PaymentsOfYear(ledger, schoolYear);
    var totalMembers := |active|;

    var byMember, totalCollected := GroupByMember(payments);
    var fully, partially, unpaid := Tally(active, payments, byMember);

    CountsAddUp(active, payments);
    r := Summarise(totalMembers, totalCollected, fully, partially, unpaid);
  }

  /** When every payment of a member this year is for a school month, being
      counted as fully paid means having paid all ten school months. */
  lemma FullyPaidMeansEveryMonth(payments: seq<Payment>, id: MemberId)
    requires forall p :: p in payments && p.memberId == id ==> IsSchoolMonth(p.month)
    ensures ClassOf(MemberMonths(payments, id)) == FullyPaid <==> SchoolMonthSet <= MemberMonths(payments, id)
  {
    var months := MemberMonths(payments, id);
    assert months <= SchoolMonthSet;
    assert SchoolMonthSet * months == months;
    PaidUnpaidPartition(months);
    SchoolYearMonthCount();
  }

  lemma SchoolYearMonthCount()
    ensures |SchoolYearMonths| == 10
  {
  }

  lemma {:induction false} PaymentsOfYearAppend(a: seq<Payment>, b: seq<Payment>, schoolYear: string)
    ensures PaymentsOfYear(a + b, schoolYear) == PaymentsOfYear(a, schoolYear) + PaymentsOfYear(b, schoolYear)
    decreases |a|
  {
    if a == [] {
      assert a + b == b;
    } else {
      assert (a + b)[1..] == a[1..] + b;
      PaymentsOfYearAppend(a[1..], b, schoolYear);
    }
  }

  lemma {:induction false} PaymentsOfYearKeepsYear(payments: seq<Payment>, schoolYear: string)
    requires forall p :: p in payments ==> p.schoolYear == schoolYear
    ensures PaymentsOfYear(payments, schoolYear) == payments
    decreases |payments|
  {
    if payments != [] {
      PaymentsOfYearKeepsYear(payments[1..], schoolYear);
    }
  }

  /** An allocation for this school year raises the year's collected total by
      exactly the fees it paid; the surplus is not counted as collected. */
  lemma AllocationRaisesCollected(ledger: seq<Payment>, memberId: MemberId, schoolYear: string, amount: int)
    ensures var a := Allocate(memberId, schoolYear, amount, PaidMonths(ledger, memberId, schoolYear));
      TotalAmount(PaymentsOfYear(ledger + a.payments, schoolYear))
        == TotalAmount(PaymentsOfYear(ledger, schoolYear)) + |a.payments| * MonthlyFee
  {
    var a := Allocate(memberId, schoolYear, amount, PaidMonths(ledger, memberId, schoolYear));
    PaymentsOfYearAppend(ledger, a.payments, schoolYear);
    PaymentsOfYearKeepsYear(a.payments, schoolYear);
    TotalAmountAppend(PaymentsOfYear(ledger, schoolYear), a.payments);
    TotalOfEqualAmounts(a.payments, MonthlyFee);
  }

  /** Payments of another school year do not move this year's total. */
  lemma OtherYearsDoNotCount(ledger: seq<Payment>, p: Payment, schoolYear: string)
    requires p.schoolYear != schoolYear
    ensures TotalAmount(PaymentsOfYear(ledger + [p], schoolYear)) == TotalAmount(PaymentsOfYear(ledger, schoolYear))
  {
    PaymentsOfYearAppend(ledger, [p], schoolYear);
    assert PaymentsOfYear(ledger, schoolYear) + [] == PaymentsOfYear(ledger, schoolYear);
  }
}

=== FILE: export_actions.dfy ===
/** The exports of the school year in progress (`ExportActions`): the CSV
    table with one row per active member, and the printable slips with each
    member's paid and unpaid months. The three table reads of the export
    query become the `members`, `payments` and `surplus` parameters; the
    browser download and print windows are not modelled. */
module Export {
  import opened Strings
  import opened SchoolYear
  import opened GenderUtils
  import opened Ledger

  /* ---------------------------------------------------------------------- */
  /* Grouping                                                               */
  /* ---------------------------------------------------------------------- */

  /** `paymentsByMember.get(id) || new Set()`. */
  function PaidSet(byMember: map<MemberId, set<int>>, id: MemberId): set<int> {
    if id in byMember then byMember[id] else {}
  }

  /** Looking a member up in the grouped payments gives the member's months. */
  lemma PaidSetIsMemberMonths(payments: seq<Payment>, id: MemberId)
    ensures PaidSet(MonthsByMember(payments), id) == MemberMonths(payments, id)
  {
    if id !in MonthsByMember(payments) {
      assert MemberMonths(payments, id) == {};
    }
  }

  /** Looking any member up in the grouped payments gives that member's months. */
  lemma EveryPaidSetIsMemberMonths(payments: seq<Payment>)
    ensures forall id :: PaidSet(MonthsByMember(payments), id) == MemberMonths(payments, id)
  {
    forall id {
      PaidSetIsMemberMonths(payments, id);
    }
  }

  /** The surplus of `id`: the amounts of its records, summed. */
  function SurplusSum(surplus: seq<Surplus>, id: MemberId): int
    decreases |surplus|
  {
    if surplus == [] then 0
    else
      var last := surplus[|surplus| - 1];
      SurplusSum(surplus[..|surplus| - 1], id) + (if last.memberId == id then last.amount else 0)
  }

  /** The `forEach` over the surplus records: each amount is added to its
      member's running sum. */
  function SurplusByMember(surplus: seq<Surplus>): (r: map<MemberId, int>)
    ensures forall id :: id in r <==> exists s :: s in surplus && s.memberId == id
    decreases |surplus|
  {
    if surplus == [] then map[]
    else
      var init := surplus[..|surplus| - 1];
      var s := surplus[|surplus| - 1];
      var m := SurplusByMember(init);
      assert surplus == init + [s];
      m[s.memberId := (if s.memberId in m then m[s.memberId] else 0) + s.amount]
  }

  /** `surplusByMember.get(id) || 0`. */
  function SurplusGet(bySurplus: map<MemberId, int>, id: MemberId): int {
    if id in bySurplus then bySurplus[id] else 0
  }

  /** The grouped surplus holds each member's summed surplus. */
  lemma {:induction false} SurplusByMemberSums(surplus: seq<Surplus>, id: MemberId)
    ensures SurplusGet(SurplusByMember(surplus), id) == SurplusSum(surplus, id)
    decreases |surplus|
  {
    if surplus != [] {
      var init := surplus[..|surplus| - 1];
      SurplusByMemberSums(init, id);
      if id !in SurplusByMember(init) {
        NoRecordsNoSurplus(init, id);
      }
    }
  }

  /** A member without surplus records has no surplus. */
  lemma {:induction false} NoRecordsNoSurplus(surplus: seq<Surplus>, id: MemberId)
    requires forall s :: s in surplus ==> s.memberId != id
    ensures SurplusSum(surplus, id) == 0
    decreases |surplus|
  {
    if surplus != [] {
      var init := surplus[..|surplus| - 1];
      assert forall s :: s in init ==> s in surplus;
      NoRecordsNoSurplus(init, id);
    }
  }

  /* ---------------------------------------------------------------------- */
  /* The CSV table                                                          */
  /* ---------------------------------------------------------------------- */

  /** The mark of a paid month. */
  const Tick: string := "✓"

  /** "{n} Kč". */
  function MoneyText(n: int): string {
    IntToString(n) + " Kč"
  }

  /** An amount written by `MoneyText` reads back: the text ends in " Kč" and
      the digits before it are the amount. */
  lemma MoneyTextReads(n: nat)
    ensures var t := MoneyText(n);
      && |t| > 3 && t[|t| - 3..] == " Kč"
      && AllDigits(t[..|t| - 3]) && DigitsValue(t[..|t| - 3]) == n
  {
    var t := MoneyText(n);
    assert t[..|t| - 3] == NatToString(n);
    NatToStringValue(n);
  }

  /** The names of some months. */
  function MonthNames(months: seq<int>): (r: seq<string>)
    ensures |r| == |months|
  {
    seq(|months|, i requires 0 <= i < |months| => MonthName(months[i]))
  }

  /** The header: name, surname, the member noun, the ten month names in
      school-year order, total and surplus. */
  function HeaderFields(): seq<string> {
    ["Jméno", "Příjmení", "Pohlaví"] + MonthNames(SchoolYearMonths) + ["Celkem", "Přebytek"]
  }

  /** The header line. */
  function HeaderLine(): string {
    Join(HeaderFields(), ";")
  }

  /** A member's month cell: the mark when the month is paid. */
  function TickCell(paid: set<int>, month: int): string {
    if month in paid then Tick else ""
  }

  /** The month cells of a row, one per school month in school-year order. */
  function MonthCells(paid: set<int>): (r: seq<string>)
    ensures |r| == 10
  {
    seq(|SchoolYearMonths|, k requires 0 <= k < |SchoolYearMonths| => TickCell(paid, SchoolYearMonths[k]))
  }

  /** The fields of a member's row: names, the member noun, a cell per school
      month, the paid total (every distinct month paid times the fee) and the
      surplus when it is positive. */
  function RowFields(member: Member, paid: set<int>, surplus: int): (r: seq<string>)
    ensures |r| == |HeaderFields()| == 15
    ensures r[3..13] == MonthCells(paid)
  {
    [member.firstName, member.lastName, MemberLabel(member.gender)] + MonthCells(paid)
      + [MoneyText(|paid| * MonthlyFee), if surplus > 0 then MoneyText(surplus) else ""]
  }

  /** The row of one member, fields joined by semicolons. */
  function Row(member: Member, byMember: map<MemberId, set<int>>, bySurplus: map<MemberId, int>): string {
    Join(RowFields(member, PaidSet(byMember, member.id), SurplusGet(bySurplus, member.id)), ";")
  }

  /** `generateCSV`: the header line and one row per member, joined by line
      breaks. */
  function Csv(members: seq<Member>, payments: seq<Payment>, surplus: seq<Surplus>): string {
    Join(CsvLines(members, payments, surplus), "\n")
  }

  /** The lines of the table: the header, then each member's row. */
  function CsvLines(members: seq<Member>, payments: seq<Payment>, surplus: seq<Surplus>): (r: seq<string>)
    ensures |r| == |members| + 1
  {
    [HeaderLine()] + Rows(members, MonthsByMember(payments), SurplusByMember(surplus))
  }

  /** Each member's row, in member order. */
  function Rows(members: seq<Member>, byMember: map<MemberId, set<int>>, bySurplus: map<MemberId, int>)
    : (r: seq<string>)
    ensures |r| == |members|
    ensures forall i :: 0 <= i < |members| ==> r[i] == Row(members[i], byMember, bySurplus)
  {
    seq(|members|, i requires 0 <= i < |members| => Row(members[i], byMember, bySurplus))
  }

  /** The downloaded file: a byte-order mark, then the table. */
  function CsvFile(members: seq<Member>, payments: seq<Payment>, surplus: seq<Surplus>): string {
    "\U{FEFF}" + Csv(members, payments, surplus)
  }

  /** `s.replace(from, to)` with a one-character pattern: only the first
      occurrence is replaced. */
  function ReplaceFirst(s: string, from: char, to: char): (r: string)
    ensures |r| == |s|
    ensures IndexOf(s, from) < 0 ==> r == s
    ensures IndexOf(s, from) >= 0 ==> r == s[IndexOf(s, from) := to]
  {
    var k := IndexOf(s, from);
    if k < 0 then s else s[k := to]
  }

  /** The downloaded file's name: "prispevky_" and the school year with its
      slash turned into a dash. */
  function CsvFileName(schoolYear: string): (r: string)
    ensures |r| == |schoolYear| + 14
    ensures r[..10] == "prispevky_" && r[|r| - 4..] == ".csv"
    ensures forall i :: 0 <= i < |schoolYear| ==>
      r[10 + i] == (if i == IndexOf(schoolYear, '/') then '-' else schoolYear[i])
  {
    "prispevky_" + ReplaceFirst(schoolYear, '/', '-') + ".csv"
  }

  /** The file name of a school-year label carries no slash: the label has
      exactly one. */
  lemma CsvFileNameHasNoSlash(year: int, month: int)
    requires year >= 10
    ensures '/' !in CsvFileName(SchoolYearLabel(year, month))
  {
    var start := StartYear(year, month);
    SchoolYearLabelFormat(year, month);
    var a := NatToString(start);
    var b := TwoDigits((start + 1) % 100);
    DigitsHaveNoSlash(a);
    DigitsHaveNoSlash(b);
    ReplaceTheSlash(a, b);
  }

  /** Replacing the only slash of `a/b` gives `a-b`. */
  lemma ReplaceTheSlash(a: string, b: string)
    requires '/' !in a && '/' !in b
    ensures ReplaceFirst(a + "/" + b, '/', '-') == a + "-" + b
    ensures '/' !in "prispevky_" + (a + "-" + b) + ".csv"
  {
    var s := a + "/" + b;
    assert s[..|a|] == a && s[|a|] == '/';
    assert IndexOf(s, '/') == |a|;
  }

  /** A field the table can carry: no semicolon, no line break. */
  predicate CsvSafe(s: string) {
    ';' !in s && '\n' !in s
  }

  /** The months a spreadsheet reads as paid from a row's ten month cells. */
  function TickedMonths(cells: seq<string>): set<int>
    requires |cells| == 10
  {
    set k | 0 <= k < 10 && cells[k] == Tick :: SchoolYearMonths[k]
  }

  /** Every field of a row is table-safe when the names are. */
  lemma RowFieldsSafe(member: Member, paid: set<int>, surplus: int)
    requires CsvSafe(member.firstName) && CsvSafe(member.lastName)
    ensures forall i :: 0 <= i < 15 ==> CsvSafe(RowFields(member, paid, surplus)[i])
  {
    var r := RowFields(member, paid, surplus);
    MoneyTextSafe(|paid| * MonthlyFee);
    MoneyTextSafe(surplus);
    assert CsvSafe(MemberLabel(member.gender));
    var cells := MonthCells(paid);
    assert forall k :: 0 <= k < 10 ==> CsvSafe(cells[k]);
    forall i | 3 <= i < 13
      ensures CsvSafe(r[i])
    {
      assert r[i] == cells[i - 3];
    }
  }

  lemma MoneyTextSafe(n: int)
    ensures CsvSafe(MoneyText(n))
  {
    var d := if n < 0 then NatToString(-n) else NatToString(n);
    assert forall i :: 0 <= i < |d| ==> IsDigit(d[i]);
  }

  /** A row read back: split at its semicolons it gives the fifteen fields;
      the names come back, the ticked cells are exactly the school months
      paid, and the surplus cell is empty exactly when there is no surplus. */
  lemma RowRoundTrip(member: Member, paid: set<int>, surplus: int)
    requires CsvSafe(member.firstName) && CsvSafe(member.lastName)
    ensures var fields := Split(Join(RowFields(member, paid, surplus), ";"), ';');
      && fields == RowFields(member, paid, surplus)
      && fields[0] == member.firstName && fields[1] == member.lastName
      && TickedMonths(fields[3..13]) == paid * SchoolMonthSet
      && (fields[14] == "" <==> surplus <= 0)
  {
    var r := RowFields(member, paid, surplus);
    RowFieldsSafe(member, paid, surplus);
    SplitJoin(r, ';');
    TicksArePaidMonths(paid);
    if surplus > 0 {
      assert |MoneyText(surplus)| > 0;
    }
  }

  /** The ticked cells are the school months paid. */
  lemma TicksArePaidMonths(paid: set<int>)
    ensures TickedMonths(MonthCells(paid)) == paid * SchoolMonthSet
  {
    var cells := MonthCells(paid);
    SchoolMonthsAsSet();
    forall m | m in paid * SchoolMonthSet
      ensures m in TickedMonths(cells)
    {
      var k :| 0 <= k < 10 && SchoolYearMonths[k] == m;
      assert cells[k] == Tick;
    }
  }

  /** The total of a row agrees with its ticks when every paid month is a
      school month. */
  lemma TotalMatchesTicks(member: Member, paid: set<int>, surplus: int)
    requires paid <= SchoolMonthSet
    ensures RowFields(member, paid, surplus)[13] == MoneyText(|TickedMonths(MonthCells(paid))| * MonthlyFee)
  {
    TicksArePaidMonths(paid);
    assert paid * SchoolMonthSet == paid;
  }

  /** The table read back: split at its line breaks it gives the header and
      one row per member, in member order, each row that member's fields. */
  lemma CsvRoundTrip(members: seq<Member>, payments: seq<Payment>, surplus: seq<Surplus>)
    requires forall i :: 0 <= i < |members| ==> CsvSafe(members[i].firstName) && CsvSafe(members[i].lastName)
    ensures var lines := Split(Csv(members, payments, surplus), '\n');
      && |lines| == |members| + 1
      && lines[0] == HeaderLine()
      && forall i :: 0 <= i < |members| ==>
           Split(lines[i + 1], ';') == RowFields(members[i], MemberMonths(payments, members[i].id),
                                                 SurplusSum(surplus, members[i].id))
  {
    var lines := CsvLines(members, payments, surplus);
    CsvLinesSafe(members, payments, surplus);
    SplitJoin(lines, '\n');
    forall i | 0 <= i < |members|
      ensures Split(lines[i + 1], ';') == RowFields(members[i], MemberMonths(payments, members[i].id),
                                                    SurplusSum(surplus, members[i].id))
    {
      RowOfMember(members, payments, surplus, i);
    }
  }

  /** The row of the `i`-th member splits into that member's fields. */
  lemma RowOfMember(members: seq<Member>, payments: seq<Payment>, surplus: seq<Surplus>, i: nat)
    requires i < |members|
    requires CsvSafe(members[i].firstName) && CsvSafe(members[i].lastName)
    ensures Split(CsvLines(members, payments, surplus)[i + 1], ';')
      == RowFields(members[i], MemberMonths(payments, members[i].id), SurplusSum(surplus, members[i].id))
  {
    var m := members[i];
    PaidSetIsMemberMonths(payments, m.id);
    SurplusByMemberSums(surplus, m.id);
    RowRoundTrip(m, MemberMonths(payments, m.id), SurplusSum(surplus, m.id));
  }

  /** No line of the table holds a line break when no name does. */
  lemma CsvLinesSafe(members: seq<Member>, payments: seq<Payment>, surplus: seq<Surplus>)
    requires forall i :: 0 <= i < |members| ==> CsvSafe(members[i].firstName) && CsvSafe(members[i].lastName)
    ensures forall i :: 0 <= i < |members| + 1 ==> '\n' !in CsvLines(members, payments, surplus)[i]
  {
    var byMember := MonthsByMember(payments);
    var bySurplus := SurplusByMember(surplus);
    var rows := Rows(members, byMember, bySurplus);
    var lines := CsvLines(members, payments, surplus);
    assert lines == [HeaderLine()] + rows;
    HeaderSafe();
    RowsSafe(members, byMember, bySurplus);
    forall i | 0 <= i < |lines|
      ensures '\n' !in lines[i]
    {
      if i > 0 {
        assert lines[i] == rows[i - 1];
      }
    }
  }

  lemma RowsSafe(members: seq<Member>, byMember: map<MemberId, set<int>>, bySurplus: map<MemberId, int>)
    requires forall i :: 0 <= i < |members| ==> CsvSafe(members[i].firstName) && CsvSafe(members[i].lastName)
    ensures forall i :: 0 <= i < |members| ==> '\n' !in Rows(members, byMember, bySurplus)[i]
  {
    forall i | 0 <= i < |members|
      ensures '\n' !in Rows(members, byMember, bySurplus)[i]
    {
      RowSafe(members[i], byMember, bySurplus);
    }
  }

  lemma RowSafe(member: Member, byMember: map<MemberId, set<int>>, bySurplus: map<MemberId, int>)
    requires CsvSafe(member.firstName) && CsvSafe(member.lastName)
    ensures '\n' !in Row(member, byMember, bySurplus)
  {
    var paid := PaidSet(byMember, member.id);
    var extra := SurplusGet(bySurplus, member.id);
    RowFieldsSafe(member, paid, extra);
    JoinKeepsOut(RowFields(member, paid, extra), ";", '\n');
  }

  /** The header carries no line break. */
  lemma HeaderSafe()
    ensures '\n' !in HeaderLine()
  {
    HeaderFieldsAvoid('\n');
    JoinKeepsOut(HeaderFields(), ";", '\n');
  }

  /** The header read back: split at its semicolons it gives the fifteen
      header fields, the ten month names among them in school-year order. */
  lemma HeaderRoundTrip()
    ensures var fields := Split(HeaderLine(), ';');
      && |fields| == 15
      && fields[..3] == ["Jméno", "Příjmení", "Pohlaví"]
      && (forall k :: 0 <= k < 10 ==> fields[k + 3] == MonthName(SchoolYearMonths[k]))
      && fields[13..] == ["Celkem", "Přebytek"]
  {
    HeaderSplits();
    HeaderShape();
  }

  /** The header line splits back into the header fields. */
  lemma HeaderSplits()
    ensures Split(HeaderLine(), ';') == HeaderFields()
  {
    var h := HeaderFields();
    HeaderShape();
    HeaderFieldsAvoid(';');
    assert forall i :: 0 <= i < |h| ==> ';' !in h[i];
    assert HeaderLine() == Join(h, [';']);
    SplitJoin(h, ';');
  }

  lemma HeaderShape()
    ensures var h := HeaderFields();
      && |h| == 15
      && h[..3] == ["Jméno", "Příjmení", "Pohlaví"]
      && (forall k :: 0 <= k < 10 ==> h[k + 3] == MonthName(SchoolYearMonths[k]))
      && h[13..] == ["Celkem", "Přebytek"]
  {
    var front: seq<string> := ["Jméno", "Příjmení", "Pohlaví"];
    var back: seq<string> := ["Celkem", "Přebytek"];
    var names := MonthNames(SchoolYearMonths);
    var h := HeaderFields();
    assert h == front + names + back;
    assert h[..3] == front;
    assert h[13..] == back;
    forall k | 0 <= k < 10
      ensures h[k + 3] == MonthName(SchoolYearMonths[k])
    {
      assert h[k + 3] == names[k];
    }
  }

  /** No header field holds a semicolon or a line break. */
  lemma HeaderFieldsAvoid(c: char)
    requires c == ';' || c == '\n'
    ensures NoneHas(HeaderFields(), c)
  {
    var front: seq<string> := ["Jméno", "Příjmení", "Pohlaví"];
    var back: seq<string> := ["Celkem", "Přebytek"];
    var names := MonthNames(SchoolYearMonths);
    MonthNamesAvoid(c);
    assert NoneHas(names, c);
    assert NoneHas(front, c);
    assert NoneHas(back, c);
    NoneHasConcat(front, names, c);
    NoneHasConcat(front + names, back, c);
  }

  /** No field of `xs` holds `c`. */
  predicate NoneHas(xs: seq<string>, c: char) {
    forall i :: 0 <= i < |xs| ==> c !in xs[i]
  }

  lemma NoneHasConcat(xs: seq<string>, ys: seq<string>, c: char)
    ensures NoneHas(xs, c) && NoneHas(ys, c) ==> NoneHas(xs + ys, c)
  {
    if NoneHas(xs, c) && NoneHas(ys, c) {
      forall i | 0 <= i < |xs + ys|
        ensures c !in (xs + ys)[i]
      {
        if i >= |xs| {
          assert (xs + ys)[i] == ys[i - |xs|];
        }
      }
    }
  }

  lemma MonthNamesAvoid(c: char)
    requires c == ';' || c == '\n'
    ensures forall m :: c !in MonthName(m)
  {
  }

  /* ---------------------------------------------------------------------- */
  /* Slips                                                                  */
  /* ---------------------------------------------------------------------- */

  /** One member's slip: name, school year, the paid and unpaid month lists
      as shown (a dash for an empty list), and the money paid and left. */
  datatype Slip = Slip(
    name: string,
    schoolYear: string,
    paidText: string,
    unpaidText: string,
    total: int,
    remaining: int)

  /** `getMonthName(m).slice(0, 3)`. */
  function SlipAbbreviation(m: int): string {
    var name := MonthName(m);
    if |name| <= 3 then name else name[..3]
  }

  /** The abbreviations of some months joined by ", ". */
  function MonthList(months: seq<int>): string {
    Join(seq(|months|, i requires 0 <= i < |months| => SlipAbbreviation(months[i])), ", ")
  }

  /** `list || "–"`. */
  function OrDash(list: string): string {
    if list == "" then "–" else list
  }

  /** The slip of a member whose distinct months paid this year are `paid`. */
  function MakeSlip(member: Member, paid: set<int>, schoolYear: string): (r: Slip)
    ensures r.name == member.firstName + " " + member.lastName && r.schoolYear == schoolYear
    ensures r.total == |paid| * MonthlyFee
    ensures r.total + r.remaining == TotalYearlyFee()
  {
    Slip(member.firstName + " " + member.lastName, schoolYear,
      OrDash(MonthList(PaidMonthsInOrder(paid))), OrDash(MonthList(UnpaidMonths(paid))),
      |paid| * MonthlyFee, (|SchoolYearMonths| - |paid|) * MonthlyFee)
  }

  /** `generateSlips`: one slip per member, in member order. */
  function Slips(members: seq<Member>, payments: seq<Payment>, schoolYear: string): (r: seq<Slip>)
    ensures |r| == |members|
    ensures forall i :: 0 <= i < |r| ==> r[i] == MakeSlip(members[i], MemberMonths(payments, members[i].id), schoolYear)
  {
    var byMember := MonthsByMember(payments);
    EveryPaidSetIsMemberMonths(payments);
    seq(|members|, i requires 0 <= i < |members| => MakeSlip(members[i], PaidSet(byMember, members[i].id), schoolYear))
  }

  /** A slip uses the short month names of the calendar, except for July,
      which is never listed. */
  lemma SlipAbbreviationIsShortName(m: int)
    requires IsSchoolMonth(m)
    ensures SlipAbbreviation(m) == MonthNameShort(m)
  {
    ShortNameIsPrefix(m);
  }

  /** Different school months are abbreviated differently, so a slip's lists
      name their months unambiguously. */
  lemma SlipAbbreviationsDistinct(m: int, n: int)
    requires IsSchoolMonth(m) && IsSchoolMonth(n) && m != n
    ensures SlipAbbreviation(m) != SlipAbbreviation(n)
  {
    SlipAbbreviationIsShortName(m);
    SlipAbbreviationIsShortName(n);
    ShortNameReadsBack(m);
    ShortNameReadsBack(n);
  }

  /** The month a three-letter abbreviation stands for, 0 for none. */
  function MonthOfShortName(s: string): int {
    if s == "Led" then 1 else if s == "Úno" then 2 else if s == "Bře" then 3
    else if s == "Dub" then 4 else if s == "Kvě" then 5 else if s == "Čer" then 6
    else if s == "Čvc" then 7 else if s == "Srp" then 8 else if s == "Zář" then 9
    else if s == "Říj" then 10 else if s == "Lis" then 11 else if s == "Pro" then 12
    else 0
  }

  /** Every abbreviation reads back as its month. */
  lemma ShortNameReadsBack(m: int)
    requires 1 <= m <= 12
    ensures MonthOfShortName(MonthNameShort(m)) == m
  {
  }

  /** A list of school months is shown empty exactly when it has no month. */
  lemma MonthListEmpty(months: seq<int>)
    requires forall i :: 0 <= i < |months| ==> IsSchoolMonth(months[i])
    ensures MonthList(months) == "" <==> months == []
  {
    if months != [] {
      var names := seq(|months|, i requires 0 <= i < |months| => SlipAbbreviation(months[i]));
      SlipAbbreviationIsShortName(months[0]);
      assert |names[0]| == 3;
      JoinStartsWithFirst(names, ", ");
    }
  }

  /** What a slip shows: the paid and unpaid lists split the school months
      between them, a dash stands for an empty list, and the money paid and
      left add up to the yearly fee. When every paid month is a school month,
      the money left is the fee of each month on the unpaid list. */
  lemma SlipShows(member: Member, paid: set<int>, schoolYear: string)
    ensures var s := MakeSlip(member, paid, schoolYear);
      && (s.paidText == "–" <==> PaidMonthsInOrder(paid) == [])
      && (s.unpaidText == "–" <==> SchoolMonthSet <= paid)
      && s.total + s.remaining == TotalYearlyFee()
      && (paid <= SchoolMonthSet ==>
            s.remaining == |UnpaidMonths(paid)| * MonthlyFee && s.total == |PaidMonthsInOrder(paid)| * MonthlyFee)
  {
    var p := PaidMonthsInOrder(paid);
    var u := UnpaidMonths(paid);
    MonthListEmpty(p);
    MonthListEmpty(u);
    NotADash(p);
    NotADash(u);
    PaidUnpaidPartition(paid);
    if paid <= SchoolMonthSet {
      assert SchoolMonthSet * paid == paid;
    }
  }

  /** A non-empty list of school months is never shown as a lone dash. */
  lemma NotADash(months: seq<int>)
    requires forall i :: 0 <= i < |months| ==> IsSchoolMonth(months[i])
    ensures MonthList(months) != "–"
  {
    if months != [] {
      var names := seq(|months|, i requires 0 <= i < |months| => SlipAbbreviation(months[i]));
      SlipAbbreviationIsShortName(months[0]);
      assert |names[0]| == 3;
      JoinStartsWithFirst(names, ", ");
    }
  }
}

=== FILE: gender.dfy ===
/** The grammatical-gender heuristic for Czech first names (`genderUtils`)
    and the gendered labels built on it. */
module GenderUtils {
  import opened Strings

  datatype Gender = Male | Female

  /** Name endings that mark a female first name. */
  const FemaleEndings: seq<string> :=
    ["a", "ie", "ová", "ka", "na", "da", "ta", "la", "ra", "sa", "za", "ce", "še", "ře", "ně", "le"]

  /** Male first names that nevertheless end in 'a'. */
  const MaleExceptions: seq<string> :=
    ["Nikola", "Míša", "Saša", "Jirka", "Honza", "Láďa", "Péťa", "Víťa", "Míra", "Standa",
     "Franta", "Tonda", "Jenda", "Vašek", "Jára", "Béďa", "Kuba", "Radka"]

  /** Female first names recognised outright. */
  const FemaleNames: seq<string> :=
    ["Marie", "Jana", "Eva", "Anna", "Hana", "Lenka", "Petra", "Lucie", "Kateřina", "Věra",
     "Alena", "Jaroslava", "Ivana", "Zdeňka", "Michaela", "Martina", "Jitka", "Helena",
     "Ludmila", "Zuzana", "Barbora", "Tereza", "Markéta", "Vlasta", "Božena", "Růžena",
     "Jiřina", "Marta", "Dagmar", "Dana", "Monika", "Simona", "Renata", "Gabriela",
     "Kristýna", "Veronika", "Pavla", "Daniela", "Šárka", "Olga", "Andrea", "Eliška"]

  /** Some entry of `list` equals `name` once both are lower-cased. */
  predicate ListedIgnoringCase(list: seq<string>, name: string) {
    exists i :: 0 <= i < |list| && ToLower(list[i]) == ToLower(name)
  }

  /** The lower-cased name ends with one of the female endings. */
  predicate HasFemaleEnding(lowerName: string) {
    exists i :: 0 <= i < |FemaleEndings| && EndsWith(lowerName, ToLower(FemaleEndings[i]))
  }

  /** `detectGender`: after trimming, a listed female name is female, a listed
      male exception is male, and otherwise a female ending decides; anything
      else, the empty name included, is male. */
  function DetectGender(firstName: string): (g: Gender)
    ensures ListedIgnoringCase(FemaleNames, Trim(firstName)) ==> g == Female
    ensures (!ListedIgnoringCase(FemaleNames, Trim(firstName))
             && ListedIgnoringCase(MaleExceptions, Trim(firstName))) ==> g == Male
    ensures g == Female ==> Trim(firstName) != []
    ensures (g == Male && !ListedIgnoringCase(MaleExceptions, Trim(firstName)))
            ==> !EndsWith(ToLower(Trim(firstName)), "a")
  {
    var name := Trim(firstName);
    if ListedIgnoringCase(FemaleNames, name) then
      FemaleNamesNonEmpty();
      NothingListedIsEmpty(FemaleNames, name);
      Female
    else if ListedIgnoringCase(MaleExceptions, name) then Male
    else
      var lowerName := ToLower(name);
      if HasFemaleEnding(lowerName) then
        EndingsAreNonEmpty(lowerName);
        Female
      else
        FirstEndingIsA();
        Male
  }

  lemma FemaleNamesNonEmpty()
    ensures forall i :: 0 <= i < |FemaleNames| ==> FemaleNames[i] != []
  {
  }

  lemma FirstEndingIsA()
    ensures ToLower(FemaleEndings[0]) == "a"
  {
  }

  lemma EndingsAreNonEmpty(lowerName: string)
    requires HasFemaleEnding(lowerName)
    ensures lowerName != []
  {
    var i :| 0 <= i < |FemaleEndings| && EndsWith(lowerName, ToLower(FemaleEndings[i]));
    assert |FemaleEndings[i]| >= 1;
  }

  lemma NothingListedIsEmpty(list: seq<string>, name: string)
    requires forall i :: 0 <= i < |list| ==> list[i] != []
    requires ListedIgnoringCase(list, name)
    ensures name != []
  {
  }

  lemma {:induction false} TrimStartLower(s: string)
    ensures TrimStart(ToLower(s)) == ToLower(TrimStart(s))
    decreases |s|
  {
    if s != [] {
      LowerCharFacts(s[0]);
      assert ToLower(s)[1..] == ToLower(s[1..]);
      if IsSpace(s[0]) {
        TrimStartLower(s[1..]);
      }
    }
  }

  lemma {:induction false} TrimEndLower(s: string)
    ensures TrimEnd(ToLower(s)) == ToLower(TrimEnd(s))
    decreases |s|
  {
    if s != [] {
      LowerCharFacts(s[|s| - 1]);
      assert ToLower(s)[..|s| - 1] == ToLower(s[..|s| - 1]);
      if IsSpace(s[|s| - 1]) {
        TrimEndLower(s[..|s| - 1]);
      }
    }
  }

  /** Lower-casing never touches white space, so it commutes with trimming. */
  lemma TrimLower(s: string)
    ensures Trim(ToLower(s)) == ToLower(Trim(s))
  {
    TrimStartLower(s);
    TrimEndLower(TrimStart(s));
  }

  /** The classification ignores letter case. */
  lemma DetectGenderIgnoresCase(s: string)
    ensures DetectGender(ToLower(s)) == DetectGender(s)
  {
    TrimLower(s);
    ToLowerIdempotent(Trim(s));
  }

  /** The classification ignores white space around the name. */
  lemma DetectGenderIgnoresPadding(p: string, s: string, q: string)
    requires AllSpace(p) && AllSpace(q)
    ensures DetectGender(p + s + q) == DetectGender(s)
  {
    PaddingIsTrimmed(p, s, q);
  }

  /** A name that is neither listed female nor a male exception is female
      exactly when it ends with a female ending; in particular every such
      name ending in 'a' is female. */
  lemma FemaleEndingDecides(s: string)
    requires !ListedIgnoringCase(FemaleNames, Trim(s))
    requires !ListedIgnoringCase(MaleExceptions, Trim(s))
    ensures DetectGender(s) == Female <==> HasFemaleEnding(ToLower(Trim(s)))
    ensures EndsWith(ToLower(Trim(s)), "a") ==> DetectGender(s) == Female
  {
    FirstEndingIsA();
  }

  /** The empty name, and a name of white space only, are male. */
  lemma EmptyNameIsMale(s: string)
    requires AllSpace(s)
    ensures DetectGender(s) == Male
  {
  }

  /** `getMemberLabel` and friends: Czech nouns and phrases for a member. */
  function MemberLabel(g: Gender): string {
    if g == Female then "členka" else "člen"
  }

  function MemberLabelGenitive(g: Gender): string {
    if g == Female then "členky" else "člena"
  }

  function PaymentLabel(g: Gender): string {
    if g == Female then "Platby členky" else "Platby člena"
  }

  function PaidLabel(g: Gender): string {
    if g == Female then "Zaplaceno" else "Zaplaceno"
  }

  function UnpaidLabel(g: Gender): string {
    if g == Female then "Nezaplaceno" else "Nezaplaceno"
  }

  /** The member nouns differ by gender; the paid and unpaid labels do not. */
  lemma LabelsByGender()
    ensures MemberLabel(Female) == "členka" && MemberLabel(Male) == "člen"
    ensures MemberLabelGenitive(Female) != MemberLabelGenitive(Male)
    ensures PaymentLabel(Female) != PaymentLabel(Male)
    ensures PaidLabel(Female) == PaidLabel(Male) == "Zaplaceno"
    ensures UnpaidLabel(Female) == UnpaidLabel(Male) == "Nezaplaceno"
  {
  }
}

=== FILE: import_dialog.dfy ===
/** The text import (`ImportDialog`): one member per line as
    "First Last, email, phone", and one member's paid months per line as
    "First Last: září, říjen" or "First Last - vše". The member table read for
    name matching and the school year in progress are parameters. */
module Import {
  import opened Wrappers
  import opened Strings
  import opened SchoolYear
  import opened GenderUtils
  import opened Ledger
  import Payments

  /* ---------------------------------------------------------------------- */
  /* Lines                                                                  */
  /* ---------------------------------------------------------------------- */

  /** The lines of `lines` that are not white space only, in order: those
      whose `trim()` is not empty. */
  function KeepNonBlank(lines: seq<string>): (r: seq<string>)
    ensures |r| <= |lines|
    ensures forall i :: 0 <= i < |r| ==> !AllSpace(r[i])
    ensures forall l :: l in r <==> l in lines && !AllSpace(l)
  {
    if lines == [] then []
    else (if !AllSpace(lines[0]) then [lines[0]] else []) + KeepNonBlank(lines[1..])
  }

  /** `text.split('\n').filter(line => line.trim())`. */
  function NonBlankLines(text: string): (r: seq<string>)
    ensures forall i :: 0 <= i < |r| ==> !AllSpace(r[i]) && '\n' !in r[i]
    ensures forall l :: l in r <==> l in Split(text, '\n') && !AllSpace(l)
  {
    var lines := Split(text, '\n');
    assert forall l :: l in lines ==> '\n' !in l;
    KeepNonBlank(lines)
  }

  /** Lines that are all non-blank are all kept. */
  lemma {:induction false} KeepNonBlankKeepsAll(lines: seq<string>)
    requires forall i :: 0 <= i < |lines| ==> !AllSpace(lines[i])
    ensures KeepNonBlank(lines) == lines
    decreases |lines|
  {
    if lines != [] {
      KeepNonBlankKeepsAll(lines[1..]);
    }
  }

  /** Lines joined with line breaks are split back into the same lines, when
      none of them is blank or holds a line break. */
  lemma LinesOfJoin(lines: seq<string>)
    requires |lines| >= 1
    requires forall i :: 0 <= i < |lines| ==> !AllSpace(lines[i]) && '\n' !in lines[i]
    ensures NonBlankLines(Join(lines, "\n")) == lines
  {
    JoinedLinesSplit(lines);
    KeepNonBlankKeepsAll(lines);
  }

  lemma JoinedLinesSplit(lines: seq<string>)
    requires |lines| >= 1
    requires forall i :: 0 <= i < |lines| ==> '\n' !in lines[i]
    ensures Split(Join(lines, "\n"), '\n') == lines
  {
    assert "\n" == ['\n'];
    SplitJoin(lines, '\n');
  }

  /* ---------------------------------------------------------------------- */
  /* Members                                                                */
  /* ---------------------------------------------------------------------- */

  /** A member read from the import text, before the database assigns an id. */
  datatype NewMember = NewMember(
    firstName: string,
    lastName: string,
    gender: Gender,
    email: Option<string>,
    phone: Option<string>,
    isActive: bool)

  /** `parts[i] || null` after `parts` were trimmed: a missing or blank part
      is no value, any other part is its trimmed text. */
  function FieldAt(parts: seq<string>, i: nat): (r: Option<string>)
    ensures r.Some? <==> i < |parts| && !AllSpace(parts[i])
    ensures r.Some? ==> r.value == Trim(parts[i]) && r.value != []
  {
    if i < |parts| && Trim(parts[i]) != [] then Some(Trim(parts[i])) else None
  }

  /** The fields of one member line: the name split into first and last name,
      and the optional e-mail and phone. */
  datatype MemberFields = MemberFields(
    firstName: string,
    lastName: string,
    email: Option<string>,
    phone: Option<string>)

  /** The fields of one line of the member list: the comma-separated parts,
      trimmed; the words of the first part give the first name and, joined by
      single spaces, the last name. A line with fewer than two name words
      gives nothing. */
  function ReadMemberFields(line: string): (r: Option<MemberFields>)
    ensures r.Some? <==> |Words(Trim(Split(line, ',')[0]))| >= 2
    ensures r.Some? ==> r.value.firstName != [] && NoSpace(r.value.firstName) && r.value.lastName != []
  {
    var parts := Split(line, ',');
    var nameParts := Words(Trim(parts[0]));
    if |nameParts| >= 2 then
      Some(MemberFields(nameParts[0], Join(nameParts[1..], " "), FieldAt(parts, 1), FieldAt(parts, 2)))
    else None
  }

  /** One line of the member list as a new member: the fields, the gender the
      first name suggests, and active. */
  function ParseMemberLine(line: string): (r: Option<NewMember>)
    ensures r.Some? <==> ReadMemberFields(line).Some?
    ensures r.Some? ==> r.value.isActive && r.value.firstName != [] && r.value.lastName != []
    ensures r.Some? ==> (FieldsOf(r.value) == ReadMemberFields(line).value
                          && r.value.gender == DetectGender(r.value.firstName))
  {
    match ReadMemberFields(line)
    case None => None
    case Some(f) => Some(NewMember(f.firstName, f.lastName, DetectGender(f.firstName), f.email, f.phone, true))
  }

  /** A string starts and ends with a non-space character, or is empty: what
      `trim` leaves. */
  predicate Trimmed(s: string) {
    s == [] || (!IsSpace(s[0]) && !IsSpace(s[|s| - 1]))
  }

  lemma TrimOfTrimmed(s: string)
    requires Trimmed(s)
    ensures Trim(s) == s
  {
  }

  /** `parseMembersFromText`: the members of the non-blank lines that have a
      first and a last name, in line order, all active. */
  function ParseMembers(text: string): (r: seq<NewMember>)
    ensures |r| <= |NonBlankLines(text)|
    ensures forall m :: m in r ==> m.isActive && m.firstName != [] && m.lastName != []
    ensures forall m :: m in r <==>
      exists i :: 0 <= i < |NonBlankLines(text)| && ParseMemberLine(NonBlankLines(text)[i]) == Some(m)
  {
    var lines := NonBlankLines(text);
    EachLineGives(lines);
    Somes(ParseEachLine(lines))
  }

  /** A member is among the lines read one by one exactly when some line
      gives it. */
  lemma EachLineGives(lines: seq<string>)
    ensures forall m :: Some(m) in ParseEachLine(lines) <==>
      exists i :: 0 <= i < |lines| && ParseMemberLine(lines[i]) == Some(m)
  {
    var each := ParseEachLine(lines);
    forall m | Some(m) in each
      ensures exists i :: 0 <= i < |lines| && ParseMemberLine(lines[i]) == Some(m)
    {
      var i :| 0 <= i < |each| && each[i] == Some(m);
    }
  }

  /** Every line read as a member, or as nothing. */
  function ParseEachLine(lines: seq<string>): (r: seq<Option<NewMember>>)
    ensures |r| == |lines|
    ensures forall i :: 0 <= i < |r| ==> r[i] == ParseMemberLine(lines[i])
  {
    seq(|lines|, i requires 0 <= i < |lines| => ParseMemberLine(lines[i]))
  }

  /** A name word the member list can hold: non-empty, without white space
      or commas. */
  predicate PlainWord(w: string) {
    w != [] && NoSpace(w) && ',' !in w
  }

  /** An e-mail or phone the member list can hold: non-empty, trimmed, and
      free of commas and line breaks. */
  predicate PlainField(s: string) {
    s != [] && Trimmed(s) && ',' !in s && '\n' !in s
  }

  /** Fields that a member line can express: a one-word first name, a last
      name made of the words `lastWords` joined by single spaces, and plain
      e-mail and phone when present. */
  predicate Writable(f: MemberFields, lastWords: seq<string>) {
    && PlainWord(f.firstName)
    && |lastWords| >= 1 && (forall i :: 0 <= i < |lastWords| ==> PlainWord(lastWords[i]))
    && f.lastName == Join(lastWords, " ")
    && (f.email.Some? ==> PlainField(f.email.value))
    && (f.phone.Some? ==> PlainField(f.phone.value))
  }

  /** The line the member list holds for some fields: "First Last, email,
      phone", with an empty part for a missing value. */
  function FieldsLine(f: MemberFields): string {
    f.firstName + " " + f.lastName + ", " + f.email.GetOr("") + ", " + f.phone.GetOr("")
  }

  /** Reading back the line written for writable fields gives those fields. */
  lemma FieldsRoundTrip(f: MemberFields, lastWords: seq<string>)
    requires Writable(f, lastWords)
    ensures ReadMemberFields(FieldsLine(f)) == Some(f)
  {
    FieldsLineParts(f, lastWords);
    ReadParts(FieldsLine(f), WrittenParts(f), lastWords, f);
  }

  /** The three comma-separated parts of the line written for some fields. */
  function WrittenParts(f: MemberFields): seq<string> {
    [f.firstName + " " + f.lastName, " " + f.email.GetOr(""), " " + f.phone.GetOr("")]
  }

  /** What the reader sees in the line written for writable fields. */
  lemma FieldsLineParts(f: MemberFields, lastWords: seq<string>)
    requires Writable(f, lastWords)
    ensures Split(FieldsLine(f), ',') == WrittenParts(f)
    ensures Words(Trim(WrittenParts(f)[0])) == [f.firstName] + lastWords
    ensures FieldAt(WrittenParts(f), 1) == f.email && FieldAt(WrittenParts(f), 2) == f.phone
  {
    LineParts(f, lastWords);
    NameParts(f, lastWords);
    PaddedFields(f, lastWords);
  }

  /** The e-mail and phone parts of the line written for writable fields read
      back as the e-mail and phone. */
  lemma PaddedFields(f: MemberFields, lastWords: seq<string>)
    ensures Writable(f, lastWords) ==>
      FieldAt(WrittenParts(f), 1) == f.email && FieldAt(WrittenParts(f), 2) == f.phone
  {
    if Writable(f, lastWords) {
      PaddedField(WrittenParts(f), 1, f.email);
      PaddedField(WrittenParts(f), 2, f.phone);
    }
  }

  /** How the reader assembles the fields from the parts of a line. */
  lemma ReadParts(line: string, parts: seq<string>, lastWords: seq<string>, f: MemberFields)
    requires Split(line, ',') == parts && |parts| >= 1
    requires Words(Trim(parts[0])) == [f.firstName] + lastWords && |lastWords| >= 1
    requires Join(lastWords, " ") == f.lastName
    requires FieldAt(parts, 1) == f.email && FieldAt(parts, 2) == f.phone
    ensures ReadMemberFields(line) == Some(f)
  {
    assert ([f.firstName] + lastWords)[1..] == lastWords;
  }

  /** The comma-separated parts of the line written for writable fields. */
  lemma LineParts(f: MemberFields, lastWords: seq<string>)
    ensures Writable(f, lastWords) ==> Split(FieldsLine(f), ',') == WrittenParts(f)
  {
    if !Writable(f, lastWords) {
      return;
    }
    var name := f.firstName + " " + f.lastName;
    var e := f.email.GetOr("");
    var p := f.phone.GetOr("");
    assert FieldsLine(f) == name + "," + (" " + e) + "," + (" " + p);
    assert ',' !in name by {
      JoinKeepsOut(lastWords, " ", ',');
    }
    SplitThree(name, " " + e, " " + p);
  }

  /** The name part of the line written for writable fields reads back as the
      first name followed by the last name's words. */
  lemma NameParts(f: MemberFields, lastWords: seq<string>)
    ensures Writable(f, lastWords) ==> Words(Trim(f.firstName + " " + f.lastName)) == [f.firstName] + lastWords
  {
    if !Writable(f, lastWords) {
      return;
    }
    var name := f.firstName + " " + f.lastName;
    var nameParts := [f.firstName] + lastWords;
    assert nameParts[1..] == lastWords;
    assert Join(nameParts, " ") == name;
    WordsOfJoin(nameParts);
    LastOfJoinIsWord(nameParts);
    TrimOfTrimmed(name);
  }

  /** Three comma-free pieces joined by commas split back into those pieces. */
  lemma SplitThree(a: string, b: string, c: string)
    requires ',' !in a && ',' !in b && ',' !in c
    ensures Split(a + "," + b + "," + c, ',') == [a, b, c]
  {
    var pieces := [a, b, c];
    assert Join(pieces[2..], [',']) == c;
    assert Join(pieces[1..], [',']) == b + [','] + c;
    assert Join(pieces, [',']) == a + "," + b + "," + c;
    SplitJoin(pieces, ',');
  }

  /** An optional field written after the separator's space reads back as
      itself. */
  lemma PaddedField(parts: seq<string>, i: nat, v: Option<string>)
    requires i < |parts| && parts[i] == " " + v.GetOr("")
    requires v.Some? ==> PlainField(v.value)
    ensures FieldAt(parts, i) == v
  {
    var e := v.GetOr("");
    PaddedFieldIsTrimmed(e);
  }

  /** A join of non-empty space-free words by single spaces ends in a non-space. */
  lemma {:induction false} LastOfJoinIsWord(ws: seq<string>)
    requires |ws| >= 1
    requires forall i :: 0 <= i < |ws| ==> ws[i] != [] && NoSpace(ws[i])
    ensures var s := Join(ws, " "); s != [] && !IsSpace(s[|s| - 1])
    decreases |ws|
  {
    if |ws| > 1 {
      LastOfJoinIsWord(ws[1..]);
    }
  }

  /** A trimmed field after the separator's space trims back to itself. */
  lemma PaddedFieldIsTrimmed(e: string)
    requires Trimmed(e)
    ensures Trim(" " + e) == e
  {
    assert " " + e + [] == " " + e;
    PaddingIsTrimmed(" ", e, []);
    TrimOfTrimmed(e);
  }

  /** The fields of a new member. */
  function FieldsOf(m: NewMember): MemberFields {
    MemberFields(m.firstName, m.lastName, m.email, m.phone)
  }

  /** A member that the member list can express: writable fields, the gender
      the first name suggests, and active. */
  predicate Importable(m: NewMember, lastWords: seq<string>) {
    Writable(FieldsOf(m), lastWords) && m.gender == DetectGender(m.firstName) && m.isActive
  }

  /** Reading back the line written for an importable member gives that member. */
  lemma MemberLineRoundTrip(m: NewMember, lastWords: seq<string>)
    requires Importable(m, lastWords)
    ensures ParseMemberLine(FieldsLine(FieldsOf(m))) == Some(m)
  {
    FieldsRoundTrip(FieldsOf(m), lastWords);
  }

  /** The line of writable fields is not blank and has no line break. */
  lemma FieldsLineIsOneLine(f: MemberFields, lastWords: seq<string>)
    requires Writable(f, lastWords)
    ensures !AllSpace(FieldsLine(f)) && '\n' !in FieldsLine(f)
  {
    var line := FieldsLine(f);
    assert line[0] == f.firstName[0];
    assert '\n' !in f.lastName by {
      JoinKeepsOut(lastWords, " ", '\n');
    }
  }

  /** The member list written for `ms`, one line per member. */
  function MemberLines(ms: seq<NewMember>): (r: seq<string>)
    ensures |r| == |ms|
    ensures forall i :: 0 <= i < |r| ==> r[i] == FieldsLine(FieldsOf(ms[i]))
  {
    seq(|ms|, i requires 0 <= i < |ms| => FieldsLine(FieldsOf(ms[i])))
  }

  lemma ReadMemberLines(ms: seq<NewMember>, lastWords: seq<seq<string>>)
    requires |lastWords| == |ms|
    requires forall i :: 0 <= i < |ms| ==> Importable(ms[i], lastWords[i])
    ensures Somes(ParseEachLine(MemberLines(ms))) == ms
  {
    var parsed := ParseEachLine(MemberLines(ms));
    forall i | 0 <= i < |ms|
      ensures parsed[i] == Some(ms[i])
    {
      MemberLineRoundTrip(ms[i], lastWords[i]);
    }
    SomesOfPresent(parsed, ms);
  }

  /** Reading back the member list written for importable members, one line
      each, gives those members in order. */
  lemma MemberListRoundTrip(ms: seq<NewMember>, lastWords: seq<seq<string>>)
    requires |ms| >= 1 && |lastWords| == |ms|
    requires forall i :: 0 <= i < |ms| ==> Importable(ms[i], lastWords[i])
    ensures ParseMembers(Join(MemberLines(ms), "\n")) == ms
  {
    var lines := MemberLines(ms);
    forall i | 0 <= i < |lines|
      ensures !AllSpace(lines[i]) && '\n' !in lines[i]
    {
      FieldsLineIsOneLine(FieldsOf(ms[i]), lastWords[i]);
    }
    LinesOfJoin(lines);
    ReadMemberLines(ms, lastWords);
  }

  /* ---------------------------------------------------------------------- */
  /* Payments                                                               */
  /* ---------------------------------------------------------------------- */

  /** The month words of the payment import and their months, in the order
      `Object.entries` lists them: the integer-like keys first, ascending,
      then the other keys in the order they are written. */
  const MonthKeys: seq<(string, int)> := [
    ("1", 1), ("2", 2), ("3", 3), ("4", 4), ("5", 5), ("6", 6), ("9", 9), ("10", 10), ("11", 11), ("12", 12),
    ("září", 9), ("zář", 9), ("říjen", 10), ("říj", 10), ("listopad", 11), ("lis", 11),
    ("prosinec", 12), ("pro", 12), ("leden", 1), ("led", 1), ("únor", 2), ("úno", 2),
    ("březen", 3), ("bře", 3), ("duben", 4), ("dub", 4), ("květen", 5), ("kvě", 5),
    ("červen", 6), ("čer", 6)]

  /** Every month word stands for a school month. */
  lemma MonthKeysAreSchoolMonths()
    ensures forall i :: 0 <= i < |MonthKeys| ==> IsSchoolMonth(MonthKeys[i].1)
  {
  }

  /** The months part says the whole year is paid: it contains "vše",
      "celý rok" or "komplet". */
  predicate MentionsWholeYear(monthsPart: string) {
    Contains(monthsPart, "vše") || Contains(monthsPart, "celý rok") || Contains(monthsPart, "komplet")
  }

  /** Where a payment line splits into name and months: at the first colon
      when it is not the first character, otherwise at the first dash; -1
      when neither applies. */
  function SeparatorIndex(line: string): (r: int)
    ensures -1 <= r < |line|
    ensures r >= 0 ==> line[r] == ':' || line[r] == '-'
    ensures r >= 0 ==> line[r] !in line[..r]
    ensures r >= 0 && line[r] == '-' ==> ':' !in line || line[0] == ':'
    ensures r == -1 <==> (':' !in line || line[0] == ':') && '-' !in line
  {
    var colonIndex := IndexOf(line, ':');
    var dashIndex := IndexOf(line, '-');
    if colonIndex > 0 then colonIndex else dashIndex
  }

  /** The name test of the payment import: the member's lower-cased full
      name equals or contains the searched name. */
  predicate NameMatches(m: Member, search: string) {
    var fullName := ToLower(m.firstName + " " + m.lastName);
    fullName == search || Contains(fullName, search)
  }

  /** `existingMembers.find(...)` as written: the first member whose name
      matches; an empty search matches everybody. */
  function FindMemberAsWritten(members: seq<Member>, search: string): (r: Option<Member>)
    ensures r.None? <==> forall i :: 0 <= i < |members| ==> !NameMatches(members[i], search)
    ensures r.Some? ==> r.value in members
    ensures r.Some? ==> exists i :: 0 <= i < |members| && members[i] == r.value && NameMatches(r.value, search)
                                    && (forall j :: 0 <= j < i ==> !NameMatches(members[j], search))
  {
    var k := FirstMatch(members, search);
    if k < 0 then None else Some(members[k])
  }

  /** The position of the first member whose name matches, or -1. */
  function FirstMatch(members: seq<Member>, search: string): (k: int)
    ensures -1 <= k < |members|
    ensures k >= 0 ==> NameMatches(members[k], search)
    ensures forall j :: 0 <= j < |members| && (k < 0 || j < k) ==> !NameMatches(members[j], search)
    decreases |members|
  {
    if members == [] then -1
    else if NameMatches(members[0], search) then 0
    else
      var k := FirstMatch(members[1..], search);
      assert forall j :: 1 <= j < |members| ==> members[j] == members[1..][j - 1];
      if k < 0 then -1 else k + 1
  }

  /** A line whose name part is blank is credited to the first member. */
  lemma BlankNameFindsFirstMember(members: seq<Member>)
    requires members != []
    ensures FindMemberAsWritten(members, "") == Some(members[0])
  {
    ContainsEmpty(ToLower(members[0].firstName + " " + members[0].lastName));
  }

  /** The member a payment line is for: the first whose name matches a
      non-empty search; a blank name is for nobody. */
  function FindMember(members: seq<Member>, search: string): (r: Option<Member>)
    ensures search == [] ==> r.None?
    ensures search != [] ==> r == FindMemberAsWritten(members, search)
    ensures r.Some? ==> r.value in members
  {
    if search == [] then None else FindMemberAsWritten(members, search)
  }

  /** Every member's name matches when the search is blank, and no member is
      then found. */
  lemma BlankNameFindsNobody(members: seq<Member>)
    ensures FindMember(members, "") == None
    ensures forall i :: 0 <= i < |members| ==> NameMatches(members[i], "")
  {
    forall i | 0 <= i < |members|
      ensures NameMatches(members[i], "")
    {
      ContainsEmpty(ToLower(members[i].firstName + " " + members[i].lastName));
    }
  }

  /** The months the code as written pushes for a months part: for each entry
      of the table in order, its month when the entry's word occurs anywhere
      in the text, repeats included. */
  function MonthsAsWritten(keys: seq<(string, int)>, monthsPart: string): (r: seq<int>)
    ensures |r| <= |keys|
  {
    if keys == [] then []
    else (if Contains(monthsPart, keys[0].0) then [keys[0].1] else []) + MonthsAsWritten(keys[1..], monthsPart)
  }

  /** A month is pushed exactly when some entry for it has its word in the
      text. */
  lemma {:induction false} MonthsAsWrittenHits(keys: seq<(string, int)>, monthsPart: string)
    ensures forall m :: m in MonthsAsWritten(keys, monthsPart) <==>
      exists i :: 0 <= i < |keys| && keys[i].1 == m && Contains(monthsPart, keys[i].0)
    decreases |keys|
  {
    if keys != [] {
      MonthsAsWrittenHits(keys[1..], monthsPart);
      assert forall i :: 1 <= i < |keys| ==> keys[i] == keys[1..][i - 1];
    }
  }

  /** The months of a months part as the code as written reads them. */
  function ListedMonthsAsWritten(monthsPart: string): (r: seq<int>)
    ensures MentionsWholeYear(monthsPart) ==> r == SchoolYearMonths
    ensures !MentionsWholeYear(monthsPart) ==>
      forall m :: m in r <==> exists i :: 0 <= i < |MonthKeys| && MonthKeys[i].1 == m && Contains(monthsPart, MonthKeys[i].0)
  {
    MonthsAsWrittenHits(MonthKeys, monthsPart);
    if MentionsWholeYear(monthsPart) then SchoolYearMonths else MonthsAsWritten(MonthKeys, monthsPart)
  }

  /** The text with every comma read as a space. */
  function CommasToSpaces(s: string): (r: string)
    ensures |r| == |s|
    ensures forall i :: 0 <= i < |s| ==> r[i] == if s[i] == ',' then ' ' else s[i]
  {
    seq(|s|, i requires 0 <= i < |s| => if s[i] == ',' then ' ' else s[i])
  }

  /** The words of a months part, taking commas as white space. */
  function Tokens(monthsPart: string): (r: seq<string>)
    ensures forall i :: 0 <= i < |r| ==> r[i] != [] && NoSpace(r[i])
  {
    Words(CommasToSpaces(monthsPart))
  }

  /** The months the table's words among `words` stand for. */
  function WordMonths(words: seq<string>): set<int> {
    set i | 0 <= i < |MonthKeys| && MonthKeys[i].0 in words :: MonthKeys[i].1
  }

  /** The months named by a whole word of the months part. */
  function NamedMonths(monthsPart: string): set<int> {
    WordMonths(Tokens(monthsPart))
  }

  /** The months a months part pays: all ten for the whole-year words,
      otherwise each month named by a whole word, once, in school-year order. */
  function ListedMonths(monthsPart: string): (r: seq<int>)
    ensures InSchoolOrder(r)
    ensures forall m :: m in r <==> IsSchoolMonth(m) && (MentionsWholeYear(monthsPart) || m in NamedMonths(monthsPart))
  {
    SchoolYearMonthsShape();
    if MentionsWholeYear(monthsPart) then SchoolYearMonths else PaidMonthsInOrder(NamedMonths(monthsPart))
  }

  /** Payments for months in school-year order break no uniqueness rule. */
  lemma PaymentsForUnique(memberId: MemberId, schoolYear: string, months: seq<int>)
    requires InSchoolOrder(months)
    ensures UniqueMonths(Payments.PaymentsFor(memberId, schoolYear, months))
  {
    InSchoolOrderDistinct(months);
  }

  /** The trimmed name before the separator, as searched for: its words
      joined by single spaces, lower-cased. */
  function SearchName(line: string, sep: int): string
    requires 0 <= sep < |line|
  {
    ToLower(Join(Words(Trim(line[..sep])), " "))
  }

  /** The trimmed, lower-cased text after the separator. */
  function MonthsPart(line: string, sep: int): string
    requires 0 <= sep < |line|
  {
    ToLower(Trim(line[sep + 1..]))
  }

  /** One monthly fee of `memberId` for each month a months part lists. */
  function PayListed(memberId: MemberId, schoolYear: string, monthsPart: string): (r: seq<Payment>)
    ensures forall i :: 0 <= i < |r| ==>
      r[i].memberId == memberId && r[i].schoolYear == schoolYear
      && r[i].amount == MonthlyFee && IsSchoolMonth(r[i].month)
    ensures forall m :: m in MonthSet(r) <==> m in ListedMonths(monthsPart)
    ensures UniqueMonths(r)
  {
    var months := ListedMonths(monthsPart);
    PaymentsForUnique(memberId, schoolYear, months);
    var r := Payments.PaymentsFor(memberId, schoolYear, months);
    assert forall i :: 0 <= i < |r| ==> r[i].month == months[i];
    r
  }

  /** The payments of a line whose name part reads as `search` and whose
      months part reads as `monthsPart`: those of the member found, if any. */
  function PaymentsOfLine(members: seq<Member>, schoolYear: string, search: string, monthsPart: string)
    : (r: seq<Payment>)
    ensures forall i :: 0 <= i < |r| ==>
      r[i].schoolYear == schoolYear && r[i].amount == MonthlyFee && IsSchoolMonth(r[i].month)
    ensures forall i :: 0 <= i < |r| ==> exists m :: m in members && m.id == r[i].memberId
    ensures UniqueMonths(r)
    ensures FindMember(members, search).None? ==> r == []
  {
    var found := FindMember(members, search);
    if found.None? then [] else PayListed(found.value.id, schoolYear, monthsPart)
  }

  /** One line of the payment import: the member the name part finds, paying
      one monthly fee for each month the months part lists, in the school
      year in progress; nothing for a line without separator or without a
      matching member. */
  function ParsePaymentLine(members: seq<Member>, schoolYear: string, line: string): (r: seq<Payment>)
    ensures forall i :: 0 <= i < |r| ==>
      r[i].schoolYear == schoolYear && r[i].amount == MonthlyFee && IsSchoolMonth(r[i].month)
    ensures forall i :: 0 <= i < |r| ==> exists m :: m in members && m.id == r[i].memberId
    ensures UniqueMonths(r)
    ensures SeparatorIndex(line) <= 0 ==> r == []
  {
    var sep := SeparatorIndex(line);
    if sep <= 0 then []
    else PaymentsOfLine(members, schoolYear, SearchName(line, sep), MonthsPart(line, sep))
  }

  /** The lists of `xss` one after another. */
  function Concat(xss: seq<seq<Payment>>): (r: seq<Payment>)
    ensures forall p :: p in r <==> exists i :: 0 <= i < |xss| && p in xss[i]
  {
    if xss == [] then []
    else
      var rest := Concat(xss[1..]);
      assert forall i :: 1 <= i < |xss| ==> xss[i] == xss[1..][i - 1];
      xss[0] + rest
  }

  /** The payments of each line, line by line. */
  function PayEachLine(members: seq<Member>, schoolYear: string, lines: seq<string>): (r: seq<seq<Payment>>)
    ensures |r| == |lines|
    ensures forall i :: 0 <= i < |r| ==> r[i] == ParsePaymentLine(members, schoolYear, lines[i])
  {
    seq(|lines|, i requires 0 <= i < |lines| => ParsePaymentLine(members, schoolYear, lines[i]))
  }

  /** As written, the payments of each line, line by line. */
  function PayEachLineAsWritten(members: seq<Member>, schoolYear: string, lines: seq<string>): (r: seq<seq<Payment>>)
    ensures |r| == |lines|
    ensures forall i :: 0 <= i < |r| ==> r[i] == ParsePaymentLineAsWritten(members, schoolYear, lines[i])
  {
    seq(|lines|, i requires 0 <= i < |lines| => ParsePaymentLineAsWritten(members, schoolYear, lines[i]))
  }

  /** `parsePaymentsFromText`: the payments of every non-blank line, in line
      order, all monthly fees of the school year in progress for existing
      members. */
  function ParsePayments(members: seq<Member>, schoolYear: string, text: string): (r: seq<Payment>)
    ensures forall p :: p in r ==> p.schoolYear == schoolYear && p.amount == MonthlyFee && IsSchoolMonth(p.month)
    ensures forall p :: p in r ==> exists m :: m in members && m.id == p.memberId
    ensures forall p :: p in r <==>
      exists i :: 0 <= i < |NonBlankLines(text)| && p in ParsePaymentLine(members, schoolYear, NonBlankLines(text)[i])
  {
    var lines := NonBlankLines(text);
    var perLine := PayEachLine(members, schoolYear, lines);
    assert forall i :: 0 <= i < |perLine| ==> FeesOfMembers(members, schoolYear, perLine[i]);
    ConcatKeepsFees(members, schoolYear, perLine);
    Concat(perLine)
  }

  /** Every payment of `ps` is a monthly fee of `schoolYear` for a school
      month, owed by one of `members`. */
  predicate FeesOfMembers(members: seq<Member>, schoolYear: string, ps: seq<Payment>) {
    forall p :: p in ps ==>
      && p.schoolYear == schoolYear && p.amount == MonthlyFee && IsSchoolMonth(p.month)
      && exists m :: m in members && m.id == p.memberId
  }

  lemma ConcatKeepsFees(members: seq<Member>, schoolYear: string, xss: seq<seq<Payment>>)
    requires forall i :: 0 <= i < |xss| ==> FeesOfMembers(members, schoolYear, xss[i])
    ensures FeesOfMembers(members, schoolYear, Concat(xss))
  {
    forall p | p in Concat(xss)
      ensures p.schoolYear == schoolYear && p.amount == MonthlyFee && IsSchoolMonth(p.month)
      ensures exists m :: m in members && m.id == p.memberId
    {
      var i :| 0 <= i < |xss| && p in xss[i];
      assert FeesOfMembers(members, schoolYear, xss[i]);
    }
  }

  /* ---------------------------------------------------------------------- */
  /* Payment lines as written                                               */
  /* ---------------------------------------------------------------------- */

  /** The months of `months`, as payment months. */
  lemma PaymentsForMonthSet(memberId: MemberId, schoolYear: string, months: seq<int>)
    ensures forall m :: m in MonthSet(Payments.PaymentsFor(memberId, schoolYear, months)) <==> m in months
  {
    var r := Payments.PaymentsFor(memberId, schoolYear, months);
    forall m | m in months
      ensures m in MonthSet(r)
    {
      var i :| 0 <= i < |months| && months[i] == m;
      assert r[i].month == m;
    }
  }

  /** The code as written pushes school months only. */
  lemma ListedAsWrittenAreSchoolMonths(monthsPart: string)
    ensures forall i :: 0 <= i < |ListedMonthsAsWritten(monthsPart)| ==> IsSchoolMonth(ListedMonthsAsWritten(monthsPart)[i])
  {
    var r := ListedMonthsAsWritten(monthsPart);
    SchoolYearMonthsShape();
    MonthKeysAreSchoolMonths();
    forall i | 0 <= i < |r|
      ensures IsSchoolMonth(r[i])
    {
      assert r[i] in r;
    }
  }

  /** The payments the code as written pushes for a months part: one monthly
      fee of `memberId` for each month it reads, repeats included. */
  function PayListedAsWritten(memberId: MemberId, schoolYear: string, monthsPart: string): (r: seq<Payment>)
    ensures forall i :: 0 <= i < |r| ==>
      r[i].memberId == memberId && r[i].schoolYear == schoolYear
      && r[i].amount == MonthlyFee && IsSchoolMonth(r[i].month)
    ensures MentionsWholeYear(monthsPart) ==> forall m :: m in MonthSet(r) <==> IsSchoolMonth(m)
    ensures !MentionsWholeYear(monthsPart) ==> forall m :: m in MonthSet(r) <==>
      exists i :: 0 <= i < |MonthKeys| && MonthKeys[i].1 == m && Contains(monthsPart, MonthKeys[i].0)
  {
    var months := ListedMonthsAsWritten(monthsPart);
    ListedAsWrittenAreSchoolMonths(monthsPart);
    PaymentsForMonthSet(memberId, schoolYear, months);
    SchoolYearMonthsShape();
    Payments.PaymentsFor(memberId, schoolYear, months)
  }

  /** The payments of a line as written: those of the first member whose
      name matches, an empty name matching everybody. */
  function PaymentsOfLineAsWritten(members: seq<Member>, schoolYear: string, search: string, monthsPart: string)
    : (r: seq<Payment>)
    ensures FeesOfMembers(members, schoolYear, r)
    ensures FindMemberAsWritten(members, search).None? ==> r == []
    ensures FindMemberAsWritten(members, search).Some? ==>
      forall i :: 0 <= i < |r| ==> r[i].memberId == FindMemberAsWritten(members, search).value.id
  {
    var found := FindMemberAsWritten(members, search);
    if found.None? then []
    else
      var r := PayListedAsWritten(found.value.id, schoolYear, monthsPart);
      assert FeesOfMembers(members, schoolYear, r) by {
        forall p | p in r
          ensures exists m :: m in members && m.id == p.memberId
        {
          assert found.value in members;
        }
      }
      r
  }

  /** One line of the payment import as the code is written: the member the
      name part finds first, paying one monthly fee for each month key found
      anywhere in the months part. */
  function ParsePaymentLineAsWritten(members: seq<Member>, schoolYear: string, line: string): (r: seq<Payment>)
    ensures FeesOfMembers(members, schoolYear, r)
    ensures SeparatorIndex(line) <= 0 ==> r == []
    ensures var sep := SeparatorIndex(line);
      sep > 0 ==>
        var found := FindMemberAsWritten(members, SearchName(line, sep));
        && (found.None? ==> r == [])
        && (found.Some? ==> r == PayListedAsWritten(found.value.id, schoolYear, MonthsPart(line, sep)))
        && (found.Some? ==> forall i :: 0 <= i < |r| ==> r[i].memberId == found.value.id)
  {
    var sep := SeparatorIndex(line);
    if sep <= 0 then []
    else PaymentsOfLineAsWritten(members, schoolYear, SearchName(line, sep), MonthsPart(line, sep))
  }

  /** `parsePaymentsFromText` as written: the payments of every non-blank
      line, in line order. */
  function ParsePaymentsAsWritten(members: seq<Member>, schoolYear: string, text: string): (r: seq<Payment>)
    ensures FeesOfMembers(members, schoolYear, r)
    ensures forall p :: p in r <==>
      exists i :: 0 <= i < |NonBlankLines(text)| && p in ParsePaymentLineAsWritten(members, schoolYear, NonBlankLines(text)[i])
  {
    var lines := NonBlankLines(text);
    var perLine := PayEachLineAsWritten(members, schoolYear, lines);
    assert forall i :: 0 <= i < |perLine| ==> FeesOfMembers(members, schoolYear, perLine[i]);
    ConcatKeepsFees(members, schoolYear, perLine);
    Concat(perLine)
  }

  /* ---------------------------------------------------------------------- */
  /* The two readings compared                                              */
  /* ---------------------------------------------------------------------- */

  /** A whole word of the months part occurs in it. */
  lemma TokenOccurs(monthsPart: string, w: string)
    requires w in Tokens(monthsPart)
    ensures Contains(monthsPart, w)
  {
    var t := CommasToSpaces(monthsPart);
    WordsOccur(t);
    var j :| OccursAt(t, w, j);
    assert NoSpace(w);
    forall q | 0 <= q < |w|
      ensures monthsPart[j + q] == w[q]
    {
      assert t[j..j + |w|][q] == w[q];
      assert IsSpace(' ');
    }
    assert monthsPart[j..j + |w|] == w;
    assert OccursAt(monthsPart, w, j);
    ContainsIsOccurrence(monthsPart, w);
  }

  /** Every month the whole-word reading pays, the code as written pays too. */
  lemma ListedWithinAsWritten(monthsPart: string)
    ensures forall m :: m in ListedMonths(monthsPart) ==> m in ListedMonthsAsWritten(monthsPart)
  {
    SchoolYearMonthsShape();
    if !MentionsWholeYear(monthsPart) {
      forall m | m in ListedMonths(monthsPart)
        ensures m in ListedMonthsAsWritten(monthsPart)
      {
        var k :| 0 <= k < |MonthKeys| && MonthKeys[k].0 in Tokens(monthsPart) && MonthKeys[k].1 == m;
        TokenOccurs(monthsPart, MonthKeys[k].0);
      }
    }
  }

  /** Payments for some of the months of `b` are among the payments for `b`. */
  lemma PaymentsForWithin(memberId: MemberId, schoolYear: string, a: seq<int>, b: seq<int>)
    requires forall m :: m in a ==> m in b
    ensures forall p :: p in Payments.PaymentsFor(memberId, schoolYear, a) ==> p in Payments.PaymentsFor(memberId, schoolYear, b)
  {
    var ra := Payments.PaymentsFor(memberId, schoolYear, a);
    var rb := Payments.PaymentsFor(memberId, schoolYear, b);
    forall p | p in ra
      ensures p in rb
    {
      var i :| 0 <= i < |ra| && ra[i] == p;
      assert a[i] in a;
      var j :| 0 <= j < |b| && b[j] == a[i];
      assert rb[j] == p;
    }
  }

  /** Every payment the corrected reading takes from a line, the code as
      written takes too. */
  lemma LineWithinAsWritten(members: seq<Member>, schoolYear: string, line: string)
    ensures forall p :: p in ParsePaymentLine(members, schoolYear, line) ==> p in ParsePaymentLineAsWritten(members, schoolYear, line)
  {
    var sep := SeparatorIndex(line);
    if sep > 0 {
      var search := SearchName(line, sep);
      var part := MonthsPart(line, sep);
      var found := FindMember(members, search);
      if found.Some? {
        ListedWithinAsWritten(part);
        PaymentsForWithin(found.value.id, schoolYear, ListedMonths(part), ListedMonthsAsWritten(part));
      }
    }
  }

  /** Every payment the corrected reading takes from a text, the code as
      written takes too. */
  lemma PaymentsWithinAsWritten(members: seq<Member>, schoolYear: string, text: string)
    ensures forall p :: p in ParsePayments(members, schoolYear, text) ==> p in ParsePaymentsAsWritten(members, schoolYear, text)
  {
    var lines := NonBlankLines(text);
    var corrected := PayEachLine(members, schoolYear, lines);
    var asWritten := PayEachLineAsWritten(members, schoolYear, lines);
    forall p | p in Concat(corrected)
      ensures p in Concat(asWritten)
    {
      var i :| 0 <= i < |corrected| && p in corrected[i];
      LineWithinAsWritten(members, schoolYear, lines[i]);
      assert p in asWritten[i];
    }
  }

  /* ---------------------------------------------------------------------- */
  /* Payment lines written out                                              */
  /* ---------------------------------------------------------------------- */

  /** "Name: part" splits at its colon into the name's words, lower-cased,
      and the lower-cased part. */
  lemma PaymentLineParts(name: string, part: string)
    requires name != [] && Trimmed(name) && ':' !in name
    requires Trimmed(part)
    ensures SeparatorIndex(name + ": " + part) == |name|
    ensures SearchName(name + ": " + part, |name|) == ToLower(Join(Words(name), " "))
    ensures MonthsPart(name + ": " + part, |name|) == ToLower(part)
  {
    LineSeparator(name, part);
    LineName(name, part);
    LineMonths(name, part);
  }

  lemma LineSeparator(name: string, part: string)
    requires name != [] && ':' !in name
    ensures SeparatorIndex(name + ": " + part) == |name|
  {
    var line := name + ": " + part;
    assert line[..|name|] == name;
    assert line[|name|] == ':';
  }

  lemma LineName(name: string, part: string)
    requires Trimmed(name)
    ensures |name| < |name + ": " + part|
    ensures SearchName(name + ": " + part, |name|) == ToLower(Join(Words(name), " "))
  {
    var line := name + ": " + part;
    assert line[..|name|] == name;
    SearchNameOfTrimmed(line, |name|);
  }

  lemma SearchNameOfTrimmed(line: string, sep: int)
    requires 0 <= sep < |line| && Trimmed(line[..sep])
    ensures SearchName(line, sep) == ToLower(Join(Words(line[..sep]), " "))
  {
    TrimOfTrimmed(line[..sep]);
  }

  lemma LineMonths(name: string, part: string)
    requires Trimmed(part)
    ensures |name| < |name + ": " + part|
    ensures MonthsPart(name + ": " + part, |name|) == ToLower(part)
  {
    assert (name + ": " + part)[|name| + 1..] == " " + part;
    PaddedFieldIsTrimmed(part);
  }

  /** The line "Name: part" reads, in both readings, as the name's words and
      the lower-cased part. */
  lemma LineReads(members: seq<Member>, schoolYear: string, name: string, part: string)
    requires name != [] && Trimmed(name) && ':' !in name
    requires Trimmed(part)
    ensures var search := ToLower(Join(Words(name), " "));
      && ParsePaymentLine(members, schoolYear, name + ": " + part)
           == PaymentsOfLine(members, schoolYear, search, ToLower(part))
      && ParsePaymentLineAsWritten(members, schoolYear, name + ": " + part)
           == PaymentsOfLineAsWritten(members, schoolYear, search, ToLower(part))
  {
    PaymentLineParts(name, part);
  }

  /** Words a months part can list as "w1, w2, …": plain words in lower case. */
  predicate ListableWords(words: seq<string>) {
    |words| >= 1 && forall i :: 0 <= i < |words| ==> PlainWord(words[i]) && ToLower(words[i]) == words[i]
  }

  /** The months part written for listable words is trimmed, already lower
      case, and reads back as those words. */
  lemma MonthWordsText(words: seq<string>)
    requires ListableWords(words)
    ensures Trimmed(Join(words, ", "))
    ensures ToLower(Join(words, ", ")) == Join(words, ", ")
    ensures Tokens(Join(words, ", ")) == words
  {
    JoinEnds(words, ", ");
    var last := words[|words| - 1];
    assert !IsSpace(words[0][0]);
    assert !IsSpace(last[|last| - 1]);
    assert ToLower(", ") == ", " by {
      assert LowerChar(',') == ',' && LowerChar(' ') == ' ';
    }
    LowerJoin(words, ", ");
    CommasToSpacesJoin(words);
    assert AllSpace("  ") by {
      assert IsSpace(' ');
    }
    WordsOfSpacedJoin(words, "  ");
  }

  lemma CommasToSpacesConcat(a: string, b: string)
    ensures CommasToSpaces(a + b) == CommasToSpaces(a) + CommasToSpaces(b)
  {
    assert forall i :: 0 <= i < |a + b| ==> CommasToSpaces(a + b)[i] == (CommasToSpaces(a) + CommasToSpaces(b))[i];
  }

  /** Commas read as spaces turn ", " between comma-free words into two
      spaces. */
  lemma {:induction false} CommasToSpacesJoin(words: seq<string>)
    requires forall i :: 0 <= i < |words| ==> ',' !in words[i]
    ensures CommasToSpaces(Join(words, ", ")) == Join(words, "  ")
    decreases |words|
  {
    if |words| == 1 {
      assert CommasToSpaces(words[0]) == words[0];
    } else if |words| > 1 {
      CommasToSpacesJoin(words[1..]);
      var rest := Join(words[1..], ", ");
      assert Join(words, ", ") == (words[0] + ", ") + rest;
      CommasToSpacesConcat(words[0] + ", ", rest);
      CommasToSpacesConcat(words[0], ", ");
      assert CommasToSpaces(words[0]) == words[0];
      assert CommasToSpaces(", ") == "  ";
      assert Join(words, "  ") == (words[0] + "  ") + Join(words[1..], "  ");
    }
  }

  /** A line "Name: w1, w2, …" for a name that finds member `m` pays `m` one
      monthly fee for each month its words name, once each and in school-year
      order, or for all ten months when it mentions the whole year. */
  lemma PaymentLineRoundTrip(members: seq<Member>, schoolYear: string, name: string, words: seq<string>, m: Member)
    requires name != [] && Trimmed(name) && ':' !in name
    requires FindMember(members, ToLower(Join(Words(name), " "))) == Some(m)
    requires ListableWords(words)
    ensures var text := Join(words, ", ");
      ParsePaymentLine(members, schoolYear, name + ": " + text) == Payments.PaymentsFor(m.id, schoolYear,
        if MentionsWholeYear(text) then SchoolYearMonths else PaidMonthsInOrder(WordMonths(words)))
  {
    MonthWordsText(words);
    LineReads(members, schoolYear, name, Join(words, ", "));
  }

  /** As written, a line "Name: w1, w2, …" for a name found first as member
      `m` pays `m` one monthly fee for each month key found anywhere in the
      list, repeats included; in particular every listed word of the table
      gets its month paid. */
  lemma PaymentLineRoundTripAsWritten(members: seq<Member>, schoolYear: string, name: string, words: seq<string>,
                                      m: Member)
    requires name != [] && Trimmed(name) && ':' !in name
    requires FindMemberAsWritten(members, ToLower(Join(Words(name), " "))) == Some(m)
    requires ListableWords(words)
    ensures var text := Join(words, ", ");
      var r := ParsePaymentLineAsWritten(members, schoolYear, name + ": " + text);
      && r == Payments.PaymentsFor(m.id, schoolYear, ListedMonthsAsWritten(text))
      && forall i, k :: 0 <= i < |words| && 0 <= k < |MonthKeys| && MonthKeys[k].0 == words[i] ==>
           MonthKeys[k].1 in MonthSet(r)
  {
    MonthWordsText(words);
    FoundLineAsWritten(members, schoolYear, name, Join(words, ", "), m);
    ListedWordsPaidAsWritten(m.id, schoolYear, words);
  }

  /** As written, every listed word of the table gets its month paid. */
  lemma ListedWordsPaidAsWritten(memberId: MemberId, schoolYear: string, words: seq<string>)
    ensures var text := Join(words, ", ");
      var r := Payments.PaymentsFor(memberId, schoolYear, ListedMonthsAsWritten(text));
      forall i, k :: 0 <= i < |words| && 0 <= k < |MonthKeys| && MonthKeys[k].0 == words[i] ==>
        MonthKeys[k].1 in MonthSet(r)
  {
    var text := Join(words, ", ");
    var months := ListedMonthsAsWritten(text);
    PaymentsForMonthSet(memberId, schoolYear, months);
    SchoolYearMonthsShape();
    MonthKeysAreSchoolMonths();
    forall i, k | 0 <= i < |words| && 0 <= k < |MonthKeys| && MonthKeys[k].0 == words[i]
      ensures MonthKeys[k].1 in months
    {
      JoinHasParts(words, ", ", i);
      ContainsIsOccurrence(text, words[i]);
    }
  }

  /** A line "Name: part" for a name that finds member `m` pays `m` for the
      months the lower-cased part lists. */
  lemma FoundLine(members: seq<Member>, schoolYear: string, name: string, part: string, m: Member)
    requires name != [] && Trimmed(name) && ':' !in name
    requires Trimmed(part)
    requires FindMember(members, ToLower(Join(Words(name), " "))) == Some(m)
    ensures ParsePaymentLine(members, schoolYear, name + ": " + part)
      == Payments.PaymentsFor(m.id, schoolYear, ListedMonths(ToLower(part)))
  {
    LineReads(members, schoolYear, name, part);
  }

  /** As written, a line "Name: part" for a name found first as member `m`
      pays `m` for the months the lower-cased part lists as written. */
  lemma FoundLineAsWritten(members: seq<Member>, schoolYear: string, name: string, part: string, m: Member)
    requires name != [] && Trimmed(name) && ':' !in name
    requires Trimmed(part)
    requires FindMemberAsWritten(members, ToLower(Join(Words(name), " "))) == Some(m)
    ensures ParsePaymentLineAsWritten(members, schoolYear, name + ": " + part)
      == Payments.PaymentsFor(m.id, schoolYear, ListedMonthsAsWritten(ToLower(part)))
  {
    LineReads(members, schoolYear, name, part);
  }

  /** A line "Name: vše" pays all ten months of the member the name finds. */
  lemma WholeYearLine(members: seq<Member>, schoolYear: string, name: string, m: Member)
    requires name != [] && Trimmed(name) && ':' !in name
    requires FindMember(members, ToLower(Join(Words(name), " "))) == Some(m)
    ensures ParsePaymentLine(members, schoolYear, name + ": vše")
      == Payments.PaymentsFor(m.id, schoolYear, SchoolYearMonths)
  {
    WholeYearLineText(name);
    TrimVse();
    FoundLine(members, schoolYear, name, "vše", m);
    WholeYearWord();
  }

  lemma WholeYearLineText(name: string)
    ensures name + ": vše" == name + ": " + "vše"
  {
    assert ": vše" == ": " + "vše";
  }

  /** The months part " vše" reads as all ten months. */
  lemma WholeYearWord()
    ensures ToLower(Trim(" vše")) == "vše"
    ensures ToLower("vše") == "vše"
    ensures MentionsWholeYear("vše")
    ensures ListedMonths("vše") == SchoolYearMonths
  {
    TrimVse();
    LowerVse();
    assert StartsWith("vše", "vše");
  }

  lemma TrimVse()
    ensures Trim(" vše") == "vše"
    ensures Trimmed("vše")
  {
    var v := "vše";
    NotSpace(v[0]);
    NotSpace(v[2]);
    PaddedFieldIsTrimmed(v);
  }

  lemma LowerVse()
    ensures ToLower("vše") == "vše"
  {
    assert LowerChar('v') == 'v' && LowerChar('š') == 'š' && LowerChar('e') == 'e';
  }

  /* ---------------------------------------------------------------------- */
  /* Month words: as written and as intended                                */
  /* ---------------------------------------------------------------------- */

  /** As written, "10" pays January as well as October, because "1" occurs
      in it. */
  lemma TenAlsoPaysJanuaryAsWritten()
    ensures 1 in ListedMonthsAsWritten("10") && 10 in ListedMonthsAsWritten("10")
  {
    var w := "10";
    TenIsNotWholeYear();
    assert Contains(w, "1") by {
      assert StartsWith(w, "1");
    }
    assert Contains(w, "10") by {
      assert StartsWith(w, "10");
    }
    assert MonthKeys[0] == ("1", 1);
    assert MonthKeys[7] == ("10", 10);
  }

  lemma TenIsNotWholeYear()
    ensures !MentionsWholeYear("10")
  {
    ContainsNeedsRoom("10", "vše");
    ContainsNeedsRoom("10", "celý rok");
    ContainsNeedsRoom("10", "komplet");
  }

  /** `m` occurs at least twice in `r`. */
  predicate Twice(r: seq<int>, m: int) {
    exists p, q :: 0 <= p < q < |r| && r[p] == m && r[q] == m
  }

  /** Two entries for the same month whose words both occur in the text
      push that month twice. */
  lemma {:induction false} TwoHitsPushTwice(keys: seq<(string, int)>, monthsPart: string, i: nat, j: nat, m: int)
    requires i < j < |keys|
    requires keys[i].1 == m && Contains(monthsPart, keys[i].0)
    requires keys[j].1 == m && Contains(monthsPart, keys[j].0)
    ensures Twice(MonthsAsWritten(keys, monthsPart), m)
    decreases i
  {
    var r := MonthsAsWritten(keys, monthsPart);
    var rest := MonthsAsWritten(keys[1..], monthsPart);
    var head := if Contains(monthsPart, keys[0].0) then [keys[0].1] else [];
    assert r == head + rest;
    if i == 0 {
      MonthsAsWrittenHits(keys[1..], monthsPart);
      assert keys[1..][j - 1] == keys[j];
      assert m in rest;
      var q :| 0 <= q < |rest| && rest[q] == m;
      assert 0 < q + 1 < |r| && r[0] == m && r[q + 1] == m;
      assert Twice(r, m);
    } else {
      assert keys[1..][i - 1] == keys[i] && keys[1..][j - 1] == keys[j];
      TwoHitsPushTwice(keys[1..], monthsPart, i - 1, j - 1, m);
      var p, q :| 0 <= p < q < |rest| && rest[p] == m && rest[q] == m;
      assert q + |head| < |r| && r[p + |head|] == m && r[q + |head|] == m;
      assert Twice(r, m);
    }
  }

  /** "září" does not mention the whole year. */
  lemma SeptemberIsNotWholeYear()
    ensures !MentionsWholeYear("září")
  {
    var w := "září";
    var t := w[1..];
    assert t[1..] == w[2..];
    ContainsNeedsRoom(w[2..], "vše");
    assert !StartsWith(t, "vše") by {
      assert t[0] == 'á';
    }
    assert !StartsWith(w, "vše") by {
      assert w[0] == 'z';
    }
    ContainsNeedsRoom(w, "celý rok");
    ContainsNeedsRoom(w, "komplet");
  }

  /** As written, "září" pays September twice, because "zář" occurs in it. */
  lemma SeptemberPaidTwiceAsWritten()
    ensures Twice(ListedMonthsAsWritten("září"), 9)
  {
    SeptemberIsNotWholeYear();
    SeptemberKeys();
    TwoHitsPushTwice(MonthKeys, "září", 10, 11, 9);
  }

  /** Both September words of the table occur in "září". */
  lemma SeptemberKeys()
    ensures MonthKeys[10].1 == 9 && Contains("září", MonthKeys[10].0)
    ensures MonthKeys[11].1 == 9 && Contains("září", MonthKeys[11].0)
  {
    var w := "září";
    assert MonthKeys[10] == (w, 9) && StartsWith(w, w);
    assert MonthKeys[11] == ("zář", 9) && StartsWith(w, "zář");
  }

  /** A single word of a key reads as that word. */
  lemma OneToken(w: string)
    requires w != [] && NoSpace(w) && ',' !in w
    ensures Tokens(w) == [w]
  {
    assert CommasToSpaces(w) == w;
    assert Join([w], " ") == w;
    WordsOfJoin([w]);
  }

  /** A list in school-year order holding exactly one month is that month. */
  lemma OnlyMonth(r: seq<int>, m: int)
    requires InSchoolOrder(r)
    requires forall x :: x in r <==> x == m
    ensures r == [m]
  {
    InSchoolOrderDistinct(r);
    DistinctCardinality(r);
    assert (set x | x in r) == {m};
  }

  /** A months part that is one word of the table, standing for `m` alone,
      pays `m` once. */
  lemma OneWordListed(w: string, m: int)
    requires w != [] && NoSpace(w) && ',' !in w
    requires !MentionsWholeYear(w)
    requires exists i :: 0 <= i < |MonthKeys| && MonthKeys[i] == (w, m)
    requires forall i :: 0 <= i < |MonthKeys| && MonthKeys[i].0 == w ==> MonthKeys[i].1 == m
    ensures ListedMonths(w) == [m]
  {
    OneToken(w);
    assert NamedMonths(w) == {m};
    MonthKeysAreSchoolMonths();
    OnlyMonth(ListedMonths(w), m);
  }

  /** Read by whole words, "10" pays October only. */
  lemma TenPaysOctober()
    ensures ListedMonths("10") == [10]
  {
    var w := "10";
    NotSpace(w[0]);
    NotSpace(w[1]);
    TenIsNotWholeYear();
    assert MonthKeys[7] == (w, 10);
    TenWordIsOctober();
    OneWordListed(w, 10);
  }

  /** Every entry of the table for the word "10" is October. */
  lemma TenWordIsOctober()
    ensures forall i :: 0 <= i < |MonthKeys| && MonthKeys[i].0 == "10" ==> MonthKeys[i].1 == 10
  {
  }

  /** Read by whole words, "září" pays September once. */
  lemma SeptemberPaidOnce()
    ensures ListedMonths("září") == [9]
  {
    var w := "září";
    forall i | 0 <= i < |w| {
      NotSpace(w[i]);
    }
    SeptemberIsNotWholeYear();
    assert MonthKeys[10] == (w, 9);
    SeptemberWordIsSeptember();
    OneWordListed(w, 9);
  }

  /** Every entry of the table for the word "září" is September. */
  lemma SeptemberWordIsSeptember()
    ensures forall i :: 0 <= i < |MonthKeys| && MonthKeys[i].0 == "září" ==> MonthKeys[i].1 == 9
  {
  }

  /** As written, the line " : vše" (a colon past the first character and a
      blank name) credits the first member with the whole year; read
      correctly, it credits nobody. */
  lemma BlankNameLine(members: seq<Member>, schoolYear: string)
    requires members != []
    ensures ParsePaymentLineAsWritten(members, schoolYear, " : vše")
      == Payments.PaymentsFor(members[0].id, schoolYear, SchoolYearMonths)
    ensures ParsePaymentLine(members, schoolYear, " : vše") == []
  {
    BlankNameLineParts();
    BlankSearchLine(members, schoolYear, " : vše");
  }

  lemma BlankSearchLine(members: seq<Member>, schoolYear: string, line: string)
    requires members != []
    requires SeparatorIndex(line) == 1 && SearchName(line, 1) == [] && MonthsPart(line, 1) == "vše"
    ensures ParsePaymentLineAsWritten(members, schoolYear, line)
      == Payments.PaymentsFor(members[0].id, schoolYear, SchoolYearMonths)
    ensures ParsePaymentLine(members, schoolYear, line) == []
  {
    BlankSearchAsWritten(members, schoolYear, line);
    BlankSearchCorrected(members, schoolYear, line);
  }

  lemma BlankSearchAsWritten(members: seq<Member>, schoolYear: string, line: string)
    requires members != []
    requires SeparatorIndex(line) == 1 && SearchName(line, 1) == [] && MonthsPart(line, 1) == "vše"
    ensures ParsePaymentLineAsWritten(members, schoolYear, line)
      == Payments.PaymentsFor(members[0].id, schoolYear, SchoolYearMonths)
  {
    LineAsWrittenAtSeparator(members, schoolYear, line, 1);
    BlankSearchPaysWholeYear(members, schoolYear);
  }

  /** As written, a line with a separator past its start reads as its name
      part and its months part. */
  lemma LineAsWrittenAtSeparator(members: seq<Member>, schoolYear: string, line: string, sep: int)
    requires SeparatorIndex(line) == sep > 0
    ensures ParsePaymentLineAsWritten(members, schoolYear, line)
      == PaymentsOfLineAsWritten(members, schoolYear, SearchName(line, sep), MonthsPart(line, sep))
  {
  }

  lemma BlankSearchCorrected(members: seq<Member>, schoolYear: string, line: string)
    requires SeparatorIndex(line) == 1 && SearchName(line, 1) == []
    ensures ParsePaymentLine(members, schoolYear, line) == []
  {
    assert ParsePaymentLine(members, schoolYear, line) == PaymentsOfLine(members, schoolYear, [], MonthsPart(line, 1));
  }

  lemma BlankSearchPaysWholeYear(members: seq<Member>, schoolYear: string)
    requires members != []
    ensures PaymentsOfLineAsWritten(members, schoolYear, [], "vše")
      == Payments.PaymentsFor(members[0].id, schoolYear, SchoolYearMonths)
  {
    BlankNameFindsFirstMember(members);
    WholeYearWord();
    assert PaymentsOfLineAsWritten(members, schoolYear, [], "vše") == PayListedAsWritten(members[0].id, schoolYear, "vše");
  }

  lemma BlankNameLineParts()
    ensures SeparatorIndex(" : vše") == 1
    ensures SearchName(" : vše", 1) == []
    ensures MonthsPart(" : vše", 1) == "vše"
  {
    BlankNameSeparator();
    BlankNameSearch();
    BlankNameMonths();
  }

  lemma BlankNameSeparator()
    ensures SeparatorIndex(" : vše") == 1
  {
    var line := " : vše";
    assert line[0] == ' ' && line[1] == ':';
    assert ':' !in line[..1];
  }

  lemma BlankNameSearch()
    ensures SearchName(" : vše", 1) == []
  {
    var line := " : vše";
    assert line[..1] == " ";
    assert AllSpace(" ") by {
      assert IsSpace(' ');
    }
  }

  lemma BlankNameMonths()
    ensures MonthsPart(" : vše", 1) == "vše"
  {
    var line := " : vše";
    assert line[2..] == " vše";
    WholeYearWord();
  }

  /** As written, "Name: září" pays September twice, which breaks the one
      payment per month rule; read by whole words it pays September once. */
  lemma SeptemberLine(members: seq<Member>, schoolYear: string, name: string, m: Member)
    requires name != [] && Trimmed(name) && ':' !in name
    requires FindMember(members, ToLower(Join(Words(name), " "))) == Some(m)
    ensures !UniqueMonths(ParsePaymentLineAsWritten(members, schoolYear, name + ": září"))
    ensures ParsePaymentLine(members, schoolYear, name + ": září") == [Payments.MonthlyPayment(m.id, schoolYear, 9)]
  {
    SeptemberLineText(name);
    SeptemberWord();
    SeptemberTwiceAsWritten(members, schoolYear, name, m);
    SeptemberOnce(members, schoolYear, name, m);
  }

  lemma SeptemberTwiceAsWritten(members: seq<Member>, schoolYear: string, name: string, m: Member)
    requires name != [] && Trimmed(name) && ':' !in name
    requires FindMemberAsWritten(members, ToLower(Join(Words(name), " "))) == Some(m)
    ensures !UniqueMonths(ParsePaymentLineAsWritten(members, schoolYear, name + ": " + "září"))
  {
    SeptemberWord();
    FoundLineAsWritten(members, schoolYear, name, "září", m);
    SeptemberPaidTwiceAsWritten();
    TwiceNotUnique(m.id, schoolYear, ListedMonthsAsWritten("září"), 9);
  }

  lemma SeptemberOnce(members: seq<Member>, schoolYear: string, name: string, m: Member)
    requires name != [] && Trimmed(name) && ':' !in name
    requires FindMember(members, ToLower(Join(Words(name), " "))) == Some(m)
    ensures ParsePaymentLine(members, schoolYear, name + ": " + "září") == [Payments.MonthlyPayment(m.id, schoolYear, 9)]
  {
    SeptemberWord();
    FoundLine(members, schoolYear, name, "září", m);
    SeptemberPaidOnce();
  }

  /** Paying a month twice breaks the one payment per month rule. */
  lemma TwiceNotUnique(memberId: MemberId, schoolYear: string, months: seq<int>, month: int)
    requires Twice(months, month)
    ensures !UniqueMonths(Payments.PaymentsFor(memberId, schoolYear, months))
  {
    var r := Payments.PaymentsFor(memberId, schoolYear, months);
    var p, q :| 0 <= p < q < |months| && months[p] == month && months[q] == month;
    assert r[p] == r[q];
  }

  lemma SeptemberLineText(name: string)
    ensures name + ": září" == name + ": " + "září"
  {
    assert ": září" == ": " + "září";
  }

  lemma SeptemberWord()
    ensures Trimmed("září")
    ensures ToLower("září") == "září"
  {
    var w := "září";
    NotSpace(w[0]);
    NotSpace(w[3]);
    LowerZari();
  }

  lemma LowerZari()
    ensures ToLower("září") == "září"
  {
    assert LowerChar('z') == 'z' && LowerChar('á') == 'á' && LowerChar('ř') == 'ř' && LowerChar('í') == 'í';
  }

  /* ---------------------------------------------------------------------- */
  /* Import buttons                                                         */
  /* ---------------------------------------------------------------------- */

  /** What an import button does: shows an error toast, or submits a batch
      for insertion (after which the text is cleared and the dialog closed). */
  datatype Outcome<T> = ErrorToast(message: string) | Submit(batch: seq<T>)

  const NoMembersMessage: string := "Nebyli nalezeni žádní členové k importu"
  const NoPaymentsMessage: string :=
    "Nebyly nalezeny žádné platby k importu. Ujistěte se, že členové existují v systému."

  /** `handleImportMembers`: the members read from the text are submitted,
      unless there are none. */
  function ImportMembers(text: string): (r: Outcome<NewMember>)
    ensures r.ErrorToast? <==> ParseMembers(text) == []
    ensures r.ErrorToast? ==> r.message == NoMembersMessage
    ensures r.Submit? ==> r.batch != [] && forall m :: m in r.batch ==> m.isActive && m.firstName != [] && m.lastName != []
    ensures r.Submit? ==> r.batch == ParseMembers(text)
  {
    var members := ParseMembers(text);
    if |members| == 0 then ErrorToast(NoMembersMessage) else Submit(members)
  }

  /** Importing the member list written for importable members submits
      exactly those members. */
  lemma ImportMembersRoundTrip(ms: seq<NewMember>, lastWords: seq<seq<string>>)
    requires |ms| >= 1 && |lastWords| == |ms|
    requires forall i :: 0 <= i < |ms| ==> Importable(ms[i], lastWords[i])
    ensures ImportMembers(Join(MemberLines(ms), "\n")) == Submit(ms)
  {
    MemberListRoundTrip(ms, lastWords);
  }

  /** `handleImportPayments`: the payments read from the text are submitted,
      unless there are none. */
  function ImportPayments(members: seq<Member>, schoolYear: string, text: string): (r: Outcome<Payment>)
    ensures r.ErrorToast? <==> ParsePayments(members, schoolYear, text) == []
    ensures r.ErrorToast? ==> r.message == NoPaymentsMessage
    ensures r.Submit? ==> r.batch != [] && forall p :: p in r.batch ==>
      p.schoolYear == schoolYear && p.amount == MonthlyFee && IsSchoolMonth(p.month)
      && exists m :: m in members && m.id == p.memberId
    ensures r.Submit? ==> r.batch == ParsePayments(members, schoolYear, text)
  {
    var payments := ParsePayments(members, schoolYear, text);
    if |payments| == 0 then ErrorToast(NoPaymentsMessage) else Submit(payments)
  }

  /** `handleImportPayments` as written: the payments the code as written
      reads from the text are submitted, unless there are none. */
  function ImportPaymentsAsWritten(members: seq<Member>, schoolYear: string, text: string): (r: Outcome<Payment>)
    ensures r.ErrorToast? <==> ParsePaymentsAsWritten(members, schoolYear, text) == []
    ensures r.ErrorToast? ==> r.message == NoPaymentsMessage
    ensures r.Submit? ==> r.batch != [] && FeesOfMembers(members, schoolYear, r.batch)
    ensures r.Submit? ==> r.batch == ParsePaymentsAsWritten(members, schoolYear, text)
  {
    var payments := ParsePaymentsAsWritten(members, schoolYear, text);
    if |payments| == 0 then ErrorToast(NoPaymentsMessage) else Submit(payments)
  }

  /** Whenever the corrected import submits a batch, the import as written
      submits one too, holding every payment of the corrected batch. */
  lemma ImportWithinAsWritten(members: seq<Member>, schoolYear: string, text: string)
    ensures var corrected := ImportPayments(members, schoolYear, text);
      var asWritten := ImportPaymentsAsWritten(members, schoolYear, text);
      corrected.Submit? ==> asWritten.Submit? && forall p :: p in corrected.batch ==> p in asWritten.batch
  {
    PaymentsWithinAsWritten(members, schoolYear, text);
    var corrected := ParsePayments(members, schoolYear, text);
    if corrected != [] {
      assert corrected[0] in corrected;
    }
  }

  /** As written, importing the text " : vše" submits the whole year for the
      first member; the corrected import shows the error toast. */
  lemma BlankNameImport(members: seq<Member>, schoolYear: string)
    requires members != []
    ensures ImportPaymentsAsWritten(members, schoolYear, " : vše")
      == Submit(Payments.PaymentsFor(members[0].id, schoolYear, SchoolYearMonths))
    ensures ImportPayments(members, schoolYear, " : vše") == ErrorToast(NoPaymentsMessage)
  {
    var line := " : vše";
    assert line[1] == ':';
    assert !AllSpace(line) by {
      NotSpace(line[1]);
    }
    assert '\n' !in line;
    OneLineText(line);
    ParseOneLine(members, schoolYear, line);
    ParseOneLineAsWritten(members, schoolYear, line);
    BlankNameLine(members, schoolYear);
    SchoolYearMonthsShape();
  }

  /** Importing the one line "Name: vše" for a name that finds member `m`
      submits a monthly fee of `m` for each of the ten school months. */
  lemma ImportWholeYearLine(members: seq<Member>, schoolYear: string, name: string, m: Member)
    requires name != [] && Trimmed(name) && ':' !in name && '\n' !in name
    requires FindMember(members, ToLower(Join(Words(name), " "))) == Some(m)
    ensures ImportPayments(members, schoolYear, name + ": vše")
      == Submit(Payments.PaymentsFor(m.id, schoolYear, SchoolYearMonths))
  {
    var line := name + ": vše";
    assert line[0] == name[0];
    assert '\n' !in line;
    OneLineText(line);
    ParseOneLine(members, schoolYear, line);
    WholeYearLine(members, schoolYear, name, m);
    SchoolYearMonthsShape();
  }

  /** A text that is one non-blank line is read as that line. */
  lemma OneLineText(text: string)
    requires !AllSpace(text) && '\n' !in text
    ensures NonBlankLines(text) == [text]
  {
    assert Join([text], "\n") == text;
    LinesOfJoin([text]);
  }

  /** The payments of a text that is one line are those of the line. */
  lemma ParseOneLine(members: seq<Member>, schoolYear: string, line: string)
    requires NonBlankLines(line) == [line]
    ensures ParsePayments(members, schoolYear, line) == ParsePaymentLine(members, schoolYear, line)
  {
    var payments := ParsePaymentLine(members, schoolYear, line);
    var lines := NonBlankLines(line);
    var perLine := PayEachLine(members, schoolYear, lines);
    assert perLine == [payments];
    ConcatOne(payments);
  }

  /** As written, the payments of a text that is one line are those of the
      line. */
  lemma ParseOneLineAsWritten(members: seq<Member>, schoolYear: string, line: string)
    requires NonBlankLines(line) == [line]
    ensures ParsePaymentsAsWritten(members, schoolYear, line) == ParsePaymentLineAsWritten(members, schoolYear, line)
  {
    var payments := ParsePaymentLineAsWritten(members, schoolYear, line);
    var lines := NonBlankLines(line);
    var perLine := PayEachLineAsWritten(members, schoolYear, lines);
    assert perLine == [payments];
    ConcatOne(payments);
  }

  lemma ConcatOne(xs: seq<Payment>)
    ensures Concat([xs]) == xs
  {
    assert [xs][1..] == [];
  }

  /** With no members in the table nothing can be matched, so the payment
      import always ends in the error toast. */
  lemma NoMembersNoPayments(schoolYear: string, text: string)
    ensures ImportPayments([], schoolYear, text) == ErrorToast(NoPaymentsMessage)
  {
    var lines := NonBlankLines(text);
    var perLine := seq(|lines|, i requires 0 <= i < |lines| => ParsePaymentLine([], schoolYear, lines[i]));
    forall i | 0 <= i < |perLine|
      ensures perLine[i] == []
    {
      NoMembersLineEmpty(schoolYear, lines[i]);
    }
    ConcatOfEmpty(perLine);
  }

  lemma NoMembersLineEmpty(schoolYear: string, line: string)
    ensures ParsePaymentLine([], schoolYear, line) == []
  {
    var sep := SeparatorIndex(line);
    if sep > 0 {
      assert FindMember([], SearchName(line, sep)).None?;
    }
  }

  lemma {:induction false} ConcatOfEmpty(xss: seq<seq<Payment>>)
    requires forall i :: 0 <= i < |xss| ==> xss[i] == []
    ensures Concat(xss) == []
    decreases |xss|
  {
    if xss != [] {
      assert forall i :: 0 <= i < |xss[1..]| ==> xss[1..][i] == xss[i + 1];
      ConcatOfEmpty(xss[1..]);
    }
  }
}

=== FILE: ledger.dfy ===
/** The records of the dues ledger (`Member`, `Payment`, `Surplus`) and the
    queries over them that several views share: a member's paid months in a
    school year, the payments grouped by member, and money totals. Row ids and
    timestamps assigned by the database are not modelled. */
module Ledger {
  import opened Wrappers
  import opened GenderUtils

  type MemberId = string

  datatype Member = Member(
    id: MemberId,
    firstName: string,
    lastName: string,
    gender: Gender,
    email: Option<string>,
    phone: Option<string>,
    isActive: bool)

  /** One month of dues paid by one member in one school year. */
  datatype Payment = Payment(memberId: MemberId, schoolYear: string, month: int, amount: int)

  /** Money left over from a payment, kept per member with a free-text note. */
  datatype Surplus = Surplus(memberId: MemberId, amount: int, note: string)

  /** The ledger's uniqueness rule: at most one payment per member, school
      year and month. */
  predicate UniqueMonths(payments: seq<Payment>) {
    forall i, j :: 0 <= i < j < |payments| ==>
      !(payments[i].memberId == payments[j].memberId
        && payments[i].schoolYear == payments[j].schoolYear
        && payments[i].month == payments[j].month)
  }

  /** The months `id` has paid in `schoolYear`: the query for existing payments. */
  function PaidMonths(payments: seq<Payment>, id: MemberId, schoolYear: string): set<int> {
    set p | p in payments && p.memberId == id && p.schoolYear == schoolYear :: p.month
  }

  /** The distinct months among some payments, whatever their member and year. */
  function MonthSet(payments: seq<Payment>): set<int> {
    set p | p in payments :: p.month
  }

  /** The distinct months recorded for `id` among `payments`. */
  function MemberMonths(payments: seq<Payment>, id: MemberId): set<int> {
    set p | p in payments && p.memberId == id :: p.month
  }

  /** The payments of one school year: the `school_year` filter of a query. */
  function PaymentsOfYear(payments: seq<Payment>, schoolYear: string): (r: seq<Payment>)
    ensures forall p :: p in r <==> p in payments && p.schoolYear == schoolYear
    ensures |r| <= |payments|
  {
    if payments == [] then []
    else
      var rest := PaymentsOfYear(payments[1..], schoolYear);
      if payments[0].schoolYear == schoolYear then [payments[0]] + rest else rest
  }

  /** `forEach` over the payments, adding each month to its member's set: the
      grouping that the statistics and the exports build. */
  function MonthsByMember(payments: seq<Payment>): (r: map<MemberId, set<int>>)
    ensures forall id :: id in r <==> exists p :: p in payments && p.memberId == id
    ensures forall id :: id in r ==> r[id] == MemberMonths(payments, id)
    decreases |payments|
  {
    if payments == [] then map[]
    else
      var init := payments[..|payments| - 1];
      var p := payments[|payments| - 1];
      var m := MonthsByMember(init);
      assert payments == init + [p];
      var before := if p.memberId in m then m[p.memberId] else {};
      m[p.memberId := before + {p.month}]
  }

  /** The sum of the payments' amounts, in list order. */
  function TotalAmount(payments: seq<Payment>): int {
    if payments == [] then 0 else payments[0].amount + TotalAmount(payments[1..])
  }

  /** The sum of the surplus amounts, in list order. */
  function TotalSurplus(surplus: seq<Surplus>): int {
    if surplus == [] then 0 else surplus[0].amount + TotalSurplus(surplus[1..])
  }

  lemma {:induction false} TotalAmountAppend(a: seq<Payment>, b: seq<Payment>)
    ensures TotalAmount(a + b) == TotalAmount(a) + TotalAmount(b)
    decreases |a|
  {
    if a != [] {
      assert (a + b)[1..] == a[1..] + b;
      TotalAmountAppend(a[1..], b);
    } else {
      assert a + b == b;
    }
  }

  lemma {:induction false} TotalSurplusAppend(a: seq<Surplus>, b: seq<Surplus>)
    ensures TotalSurplus(a + b) == TotalSurplus(a) + TotalSurplus(b)
    decreases |a|
  {
    if a != [] {
      assert (a + b)[1..] == a[1..] + b;
      TotalSurplusAppend(a[1..], b);
    } else {
      assert a + b == b;
    }
  }

  /** Payments that all carry the same amount total that amount times their number. */
  lemma {:induction false} TotalOfEqualAmounts(payments: seq<Payment>, fee: int)
    requires forall i :: 0 <= i < |payments| ==> payments[i].amount == fee
    ensures TotalAmount(payments) == |payments| * fee
    decreases |payments|
  {
    if payments != [] {
      TotalOfEqualAmounts(payments[1..], fee);
    }
  }

  /** Every active member of the member table, in table order: the
      `is_active` filter of a query. */
  function ActiveMembers(members: seq<Member>): (r: seq<Member>)
    ensures forall m :: m in r <==> m in members && m.isActive
    ensures |r| <= |members|
  {
    if members == [] then []
    else
      var rest := ActiveMembers(members[1..]);
      if members[0].isActive then [members[0]] + rest else rest
  }
}

=== FILE: payment_actions.dfy ===
/** The payment actions of one member (`PaymentActions`): which month the
    quick-pay button offers, its label, the list of months still to pay, and
    what pressing the button records. The current month is a parameter. */
module Actions {
  import opened Wrappers
  import opened Strings
  import opened SchoolYear
  import opened Ledger
  import Payments

  datatype QuickPay = QuickPay(
    unpaidMonths: seq<int>,
    showPayThisMonth: bool,
    nextMonthToPay: Option<int>,
    allPaid: bool)

  /** The amounts offered by the "pay an amount" dialog. */
  const PresetAmounts: seq<int> := [100, 200, 500, 1000]

  /** The quick-pay state for a member whose months paid this school year are
      `paid`, at calendar month `currentMonth`: the current month when it is
      an unpaid school month, otherwise the first unpaid month, if any. */
  function QuickPayState(paid: set<int>, currentMonth: int): QuickPay {
    var unpaidMonths := UnpaidMonths(paid);
    var showPayThisMonth := IsSchoolMonth(currentMonth) && currentMonth !in paid;
    var firstUnpaid := if unpaidMonths == [] then None else Some(unpaidMonths[0]);
    QuickPay(unpaidMonths, showPayThisMonth,
      if showPayThisMonth then Some(currentMonth) else firstUnpaid, |unpaidMonths| == 0)
  }

  /** What the quick-pay state offers. */
  lemma QuickPayOffers(paid: set<int>, currentMonth: int)
    ensures var q := QuickPayState(paid, currentMonth);
      // the list of months still to pay
      && (forall m :: m in q.unpaidMonths <==> IsSchoolMonth(m) && m !in paid)
      && InSchoolOrder(q.unpaidMonths)
      // the current month is offered exactly when it is an unpaid school month
      && (q.showPayThisMonth <==> IsSchoolMonth(currentMonth) && currentMonth !in paid)
      && (q.showPayThisMonth ==> q.nextMonthToPay == Some(currentMonth))
      // otherwise the earliest unpaid month of the school year is offered
      && (!q.showPayThisMonth && q.nextMonthToPay.Some? ==>
            forall m :: IsSchoolMonth(m) && m !in paid ==> SchoolIndex(q.nextMonthToPay.value) <= SchoolIndex(m))
      // whatever is offered is an unpaid school month
      && (q.nextMonthToPay.Some? ==> IsSchoolMonth(q.nextMonthToPay.value) && q.nextMonthToPay.value !in paid)
      // nothing is offered exactly when everything is paid
      && (q.allPaid <==> SchoolMonthSet <= paid)
      && (q.nextMonthToPay.None? <==> q.allPaid)
  {
    var unpaidMonths := UnpaidMonths(paid);
    PaidUnpaidPartition(paid);
    EarliestFirst(unpaidMonths);
  }

  /** The first month of a list in school-year order comes earliest. */
  lemma EarliestFirst(s: seq<int>)
    requires InSchoolOrder(s)
    ensures forall i :: 0 <= i < |s| ==> SchoolIndex(s[0]) <= SchoolIndex(s[i])
  {
  }

  /** The quick-pay button label: "Zaplatit {month}" for the month offered,
      "Vše zaplaceno" when none is. No month is offered only when everything
      is paid, and then the card shows "Všechny měsíce jsou zaplaceny!"
      instead of the button, so the second label is never on screen. */
  function QuickPayLabel(paid: set<int>, currentMonth: int): (r: string)
    ensures var next := QuickPayState(paid, currentMonth).nextMonthToPay;
      && (next.Some? ==> r == "Zaplatit " + ToLower(MonthName(next.value)))
      && (next.None? ==> r == "Vše zaplaceno")
  {
    var q := QuickPayState(paid, currentMonth);
    if q.showPayThisMonth then "Zaplatit " + ToLower(MonthName(currentMonth))
    else if q.nextMonthToPay.Some? then "Zaplatit " + ToLower(MonthName(q.nextMonthToPay.value))
    else "Vše zaplaceno"
  }

  /** The "still to pay" line, shown only while something is unpaid. */
  function RemainingLine(q: QuickPay): (r: Option<string>)
    ensures r.Some? <==> !q.allPaid
  {
    if q.allPaid then None
    else Some("Zbývá zaplatit: " + Join(seq(|q.unpaidMonths|, i requires 0 <= i < |q.unpaidMonths| =>
      ToLower(MonthName(q.unpaidMonths[i]))), ", "))
  }

  /** The dialog's note: "{n} nezaplacených měsíců = {n * fee} Kč". */
  function DialogNote(q: QuickPay): string {
    IntToString(|q.unpaidMonths|) + " nezaplacených měsíců = "
      + IntToString(|q.unpaidMonths| * MonthlyFee) + " Kč"
  }

  /** The sum the dialog's note quotes, paid as one amount, pays exactly the
      months still to pay and leaves no surplus. */
  lemma DialogNoteSettlesAll(paid: set<int>, currentMonth: int, memberId: MemberId, schoolYear: string)
    ensures var q := QuickPayState(paid, currentMonth);
      var a := Payments.Allocate(memberId, schoolYear, |q.unpaidMonths| * 100, paid);
      && a.payments == Payments.PaymentsFor(memberId, schoolYear, q.unpaidMonths)
      && a.remaining == 0
      && (!q.allPaid ==> a.writes == [Payments.InsertPayments(a.payments)])
  {
    Payments.AllocationOfAllUnpaid(memberId, schoolYear, paid);
  }

  /** Pressing quick pay: records one monthly fee for the offered month, or
      nothing when no month is offered. */
  function QuickPayAction(ledger: seq<Payment>, memberId: MemberId, schoolYear: string, currentMonth: int)
    : seq<Payment>
  {
    match QuickPayState(PaidMonths(ledger, memberId, schoolYear), currentMonth).nextMonthToPay
    case None => ledger
    case Some(month) => ledger + [Payments.MonthlyPayment(memberId, schoolYear, month)]
  }

  /** Quick pay never pays a month twice: it keeps the uniqueness rule, it
      records nothing exactly when everything is paid, and otherwise it pays
      one more school month. */
  lemma QuickPayAddsOneMonth(ledger: seq<Payment>, memberId: MemberId, schoolYear: string, currentMonth: int)
    requires UniqueMonths(ledger)
    ensures var after := QuickPayAction(ledger, memberId, schoolYear, currentMonth);
      var before := PaidMonths(ledger, memberId, schoolYear);
      && UniqueMonths(after)
      && (SchoolMonthSet <= before <==> after == ledger)
      && (SchoolMonthSet <= before ==> PaidMonths(after, memberId, schoolYear) == before)
      && (!(SchoolMonthSet <= before) ==>
            |UnpaidMonths(PaidMonths(after, memberId, schoolYear))| == |UnpaidMonths(before)| - 1)
  {
    var before := PaidMonths(ledger, memberId, schoolYear);
    var q := QuickPayState(before, currentMonth);
    QuickPayOffers(before, currentMonth);
    if q.nextMonthToPay.Some? {
      var month := q.nextMonthToPay.value;
      Payments.PaySingleMonthAddsMonth(ledger, memberId, schoolYear, month);
      UnpaidShrinksByOne(before, month);
    }
  }

  /** Paying one unpaid school month shortens the unpaid list by one. */
  lemma UnpaidShrinksByOne(paid: set<int>, month: int)
    requires IsSchoolMonth(month) && month !in paid
    ensures |UnpaidMonths(paid + {month})| == |UnpaidMonths(paid)| - 1
  {
    PaidUnpaidPartition(paid);
    PaidUnpaidPartition(paid + {month});
    assert SchoolMonthSet - (paid + {month}) == (SchoolMonthSet - paid) - {month};
  }

  /** The number of school months `memberId` has still to pay in `schoolYear`. */
  function UnpaidCount(ledger: seq<Payment>, memberId: MemberId, schoolYear: string): nat {
    |UnpaidMonths(PaidMonths(ledger, memberId, schoolYear))|
  }

  /** `f` applied `n` times to `x`. */
  function Iterate<T>(f: T -> T, x: T, n: nat): T
    decreases n
  {
    if n == 0 then x else f(Iterate(f, x, n - 1))
  }

  /** A property every step keeps holds after any number of steps. */
  lemma {:induction false} IterateKeeps<T>(f: T -> T, P: T -> bool, x: T, n: nat)
    requires P(x)
    requires forall y :: P(y) ==> P(f(y))
    ensures P(Iterate(f, x, n))
    decreases n
  {
    if n > 0 {
      IterateKeeps(f, P, x, n - 1);
    }
  }

  /** A count that every step (within a kept property) lowers by one until it
      reaches zero is, after `n` steps, `n` lower or zero. */
  lemma {:induction false} IterateCountsDown<T>(f: T -> T, P: T -> bool, count: T -> nat, x: T, n: nat)
    requires P(x)
    requires forall y :: P(y) ==> P(f(y))
    requires forall y :: P(y) ==> count(f(y)) == if count(y) > 0 then count(y) - 1 else 0
    ensures count(Iterate(f, x, n)) == if n <= count(x) then count(x) - n else 0
    decreases n
  {
    if n > 0 {
      IterateCountsDown(f, P, count, x, n - 1);
      IterateKeeps(f, P, x, n - 1);
    }
  }

  /** Quick pay pressed `n` times in a row. */
  function RepeatQuickPay(ledger: seq<Payment>, memberId: MemberId, schoolYear: string, currentMonth: int, n: nat)
    : seq<Payment>
  {
    Iterate(l => QuickPayAction(l, memberId, schoolYear, currentMonth), ledger, n)
  }

  /** Pressing quick pay as often as there are unpaid months pays the whole
      school year, and never pays a month twice on the way. */
  lemma QuickPayRepeatedPaysAll(ledger: seq<Payment>, memberId: MemberId, schoolYear: string,
                                currentMonth: int, n: nat)
    requires UniqueMonths(ledger)
    requires n >= UnpaidCount(ledger, memberId, schoolYear)
    ensures UniqueMonths(RepeatQuickPay(ledger, memberId, schoolYear, currentMonth, n))
    ensures SchoolMonthSet <= PaidMonths(RepeatQuickPay(ledger, memberId, schoolYear, currentMonth, n), memberId,
                                         schoolYear)
  {
    var press := l => QuickPayAction(l, memberId, schoolYear, currentMonth);
    var unique := l => UniqueMonths(l);
    var left := l => UnpaidCount(l, memberId, schoolYear);
    forall y | unique(y)
      ensures unique(press(y))
      ensures left(press(y)) == if left(y) > 0 then left(y) - 1 else 0
    {
      QuickPayKeepsUnique(y, memberId, schoolYear, currentMonth);
      QuickPayStep(y, memberId, schoolYear, currentMonth);
    }
    IterateKeeps(press, unique, ledger, n);
    IterateCountsDown(press, unique, left, ledger, n);
    NothingLeftToPay(Iterate(press, ledger, n), memberId, schoolYear);
  }

  lemma QuickPayKeepsUnique(ledger: seq<Payment>, memberId: MemberId, schoolYear: string, currentMonth: int)
    requires UniqueMonths(ledger)
    ensures UniqueMonths(QuickPayAction(ledger, memberId, schoolYear, currentMonth))
  {
    QuickPayAddsOneMonth(ledger, memberId, schoolYear, currentMonth);
  }

  /** No school month left unpaid means every school month is paid. */
  lemma NothingLeftToPay(ledger: seq<Payment>, memberId: MemberId, schoolYear: string)
    requires UnpaidCount(ledger, memberId, schoolYear) == 0
    ensures SchoolMonthSet <= PaidMonths(ledger, memberId, schoolYear)
  {
    PaidUnpaidPartition(PaidMonths(ledger, memberId, schoolYear));
  }

  /** One press leaves one month fewer to pay, or none when none was left. */
  lemma QuickPayStep(ledger: seq<Payment>, memberId: MemberId, schoolYear: string, currentMonth: int)
    requires UniqueMonths(ledger)
    ensures var left := UnpaidCount(ledger, memberId, schoolYear);
      UnpaidCount(QuickPayAction(ledger, memberId, schoolYear, currentMonth), memberId, schoolYear)
        == if left > 0 then left - 1 else 0
  {
    QuickPayAddsOneMonth(ledger, memberId, schoolYear, currentMonth);
    PaidUnpaidPartition(PaidMonths(ledger, memberId, schoolYear));
  }
}

=== FILE: payment_status.dfy ===
/** The payment overview of one member (`PaymentStatus`): how many months are
    paid, the money paid and the surplus, the badge, and the grid of the ten
    school months with an undo action on each paid month. */
module Status {
  import opened Wrappers
  import opened Strings
  import opened SchoolYear
  import opened Ledger
  import Statistics

  /** One cell of the month grid. */
  datatype MonthCell = MonthCell(month: int, shortName: string, isPaid: bool, undo: Option<Payment>)

  datatype StatusView = StatusView(
    paidCount: int,
    totalMonths: int,
    totalPaid: int,
    totalSurplus: int,
    isPaidAll: bool,
    progressPercent: real,
    badge: string,
    cells: seq<MonthCell>,
    showSurplus: bool)

  /** The member's payments of one school year: the `member_id` and
      `school_year` filters of the payments query. */
  function MemberPayments(ledger: seq<Payment>, id: MemberId, schoolYear: string): (r: seq<Payment>)
    ensures forall p :: p in r <==> p in ledger && p.memberId == id && p.schoolYear == schoolYear
    ensures |r| <= |ledger|
  {
    if ledger == [] then []
    else
      var rest := MemberPayments(ledger[1..], id, schoolYear);
      if ledger[0].memberId == id && ledger[0].schoolYear == schoolYear then [ledger[0]] + rest else rest
  }

  lemma MemberPaymentsMonths(ledger: seq<Payment>, id: MemberId, schoolYear: string)
    ensures MonthSet(MemberPayments(ledger, id, schoolYear)) == PaidMonths(ledger, id, schoolYear)
  {
    var r := MemberPayments(ledger, id, schoolYear);
    forall m | m in PaidMonths(ledger, id, schoolYear)
      ensures m in MonthSet(r)
    {
      var p :| p in ledger && p.memberId == id && p.schoolYear == schoolYear && p.month == m;
      assert p in r;
    }
  }

  /** The member's surplus records, of every school year. */
  function SurplusOf(surplus: seq<Surplus>, id: MemberId): (r: seq<Surplus>)
    ensures forall s :: s in r <==> s in surplus && s.memberId == id
  {
    if surplus == [] then []
    else
      var rest := SurplusOf(surplus[1..], id);
      if surplus[0].memberId == id then [surplus[0]] + rest else rest
  }

  /** `payments.find`: the first payment for `month`, if any. */
  function FirstPaymentFor(payments: seq<Payment>, month: int): (r: Option<Payment>)
    ensures r.None? <==> forall p :: p in payments ==> p.month != month
    ensures r.Some? ==> r.value in payments && r.value.month == month
    ensures r.Some? ==> exists i :: 0 <= i < |payments| && payments[i] == r.value && NoneBefore(payments, month, i)
  {
    if payments == [] then None
    else if payments[0].month == month then
      assert NoneBefore(payments, month, 0);
      Some(payments[0])
    else
      var r := FirstPaymentFor(payments[1..], month);
      if r.Some? then
        var i :| 0 <= i < |payments[1..]| && payments[1..][i] == r.value && NoneBefore(payments[1..], month, i);
        assert payments[i + 1] == r.value && NoneBefore(payments, month, i + 1);
        r
      else r
  }

  /** No payment before position `i` is for `month`. */
  predicate NoneBefore(payments: seq<Payment>, month: int, i: int)
    requires 0 <= i <= |payments|
  {
    forall j :: 0 <= j < i ==> payments[j].month != month
  }

  function Cell(payments: seq<Payment>, paid: set<int>, month: int): MonthCell {
    var isPaid := month in paid;
    MonthCell(month, MonthNameShort(month), isPaid, if isPaid then FirstPaymentFor(payments, month) else None)
  }

  /** The badge: "Celý rok zaplacen" when all is paid, else "{n}/{total} měsíců". */
  function Badge(isPaidAll: bool, paidCount: int, totalMonths: int): string {
    if isPaidAll then "Celý rok zaplacen"
    else IntToString(paidCount) + "/" + IntToString(totalMonths) + " měsíců"
  }

  /** The month grid: one cell per school month, in school-year order. */
  function Grid(payments: seq<Payment>): (cells: seq<MonthCell>)
    ensures |cells| == |SchoolYearMonths|
    ensures forall i :: 0 <= i < |cells| ==>
      && cells[i].month == SchoolYearMonths[i]
      && cells[i].shortName == MonthNameShort(SchoolYearMonths[i])
      && (cells[i].isPaid <==> SchoolYearMonths[i] in MonthSet(payments))
    ensures forall i :: 0 <= i < |cells| ==> (cells[i].undo.Some? <==> cells[i].isPaid)
    ensures forall i :: 0 <= i < |cells| && cells[i].undo.Some? ==>
      cells[i].undo.value in payments && cells[i].undo.value.month == SchoolYearMonths[i]
  {
    var paid := MonthSet(payments);
    assert forall m :: m in paid ==> exists p :: p in payments && p.month == m;
    seq(|SchoolYearMonths|, i requires 0 <= i < |SchoolYearMonths| => Cell(payments, paid, SchoolYearMonths[i]))
  }

  /** The overview of `memberId` in `schoolYear`. */
  function PaymentStatus(ledger: seq<Payment>, surplus: seq<Surplus>, memberId: MemberId, schoolYear: string)
    : (v: StatusView)
    ensures v.paidCount == |PaidMonths(ledger, memberId, schoolYear)|
    ensures v.totalMonths == 10
    ensures v.totalPaid == v.paidCount * MonthlyFee
    ensures v.totalSurplus == TotalSurplus(SurplusOf(surplus, memberId))
    ensures v.isPaidAll <==> v.paidCount == v.totalMonths
    ensures v.progressPercent * 10.0 == (v.paidCount as real) * 100.0
    ensures v.badge == Badge(v.isPaidAll, v.paidCount, v.totalMonths)
    ensures v.showSurplus <==> v.totalSurplus > 0
    // the grid: the school months in order, each marked paid exactly when a payment exists
    ensures |v.cells| == |SchoolYearMonths|
    ensures forall i :: 0 <= i < |v.cells| ==>
      && v.cells[i].month == SchoolYearMonths[i]
      && v.cells[i].shortName == MonthNameShort(SchoolYearMonths[i])
      && (v.cells[i].isPaid <==> SchoolYearMonths[i] in PaidMonths(ledger, memberId, schoolYear))
    // every paid cell offers to undo one of its own payments, and no unpaid cell does
    ensures forall i :: 0 <= i < |v.cells| ==> (v.cells[i].undo.Some? <==> v.cells[i].isPaid)
    ensures forall i :: 0 <= i < |v.cells| && v.cells[i].undo.Some? ==>
      var p := v.cells[i].undo.value;
      p in ledger && p.memberId == memberId && p.schoolYear == schoolYear && p.month == SchoolYearMonths[i]
  {
    var payments := MemberPayments(ledger, memberId, schoolYear);
    MemberPaymentsMonths(ledger, memberId, schoolYear);
    var paidCount := |MonthSet(payments)|;
    var totalMonths := |SchoolYearMonths|;
    var totalSurplus := TotalSurplus(SurplusOf(surplus, memberId));
    var isPaidAll := paidCount == totalMonths;
    StatusView(paidCount, totalMonths, paidCount * MonthlyFee, totalSurplus, isPaidAll,
      (paidCount as real / totalMonths as real) * 100.0, Badge(isPaidAll, paidCount, totalMonths),
      Grid(payments), totalSurplus > 0)
  }

  /** For months that are all school months, ten paid months is the same as
      no school month left unpaid. */
  lemma TenOfTheSchoolMonths(months: set<int>)
    requires months <= SchoolMonthSet
    ensures |months| == 10 <==> UnpaidMonths(months) == []
    ensures |months| <= 10
  {
    assert SchoolMonthSet * months == months;
    PaidUnpaidPartition(months);
  }

  /** When the member has paid only school months, "whole year paid" means
      the quick actions have no unpaid month left to offer. */
  lemma PaidAllIffNothingUnpaid(ledger: seq<Payment>, surplus: seq<Surplus>, memberId: MemberId, schoolYear: string)
    requires forall p :: p in ledger && p.memberId == memberId && p.schoolYear == schoolYear ==> IsSchoolMonth(p.month)
    ensures PaymentStatus(ledger, surplus, memberId, schoolYear).isPaidAll
      <==> UnpaidMonths(PaidMonths(ledger, memberId, schoolYear)) == []
  {
    TenOfTheSchoolMonths(PaidMonths(ledger, memberId, schoolYear));
  }

  /** The member's overview and the choir statistics agree on who has paid the
      whole year, when the member has paid only school months. */
  lemma PaidAllAgreesWithStatistics(ledger: seq<Payment>, surplus: seq<Surplus>, memberId: MemberId, schoolYear: string)
    requires forall p :: p in ledger && p.memberId == memberId && p.schoolYear == schoolYear ==> IsSchoolMonth(p.month)
    ensures PaymentStatus(ledger, surplus, memberId, schoolYear).isPaidAll
      <==> Statistics.ClassOf(MemberMonths(PaymentsOfYear(ledger, schoolYear), memberId)) == Statistics.FullyPaid
  {
    var paid := PaidMonths(ledger, memberId, schoolYear);
    assert MemberMonths(PaymentsOfYear(ledger, schoolYear), memberId) == paid;
    TenOfTheSchoolMonths(paid);
    Statistics.SchoolYearMonthCount();
  }

  lemma UniqueCons(p: Payment, rest: seq<Payment>)
    requires UniqueMonths(rest)
    requires forall q :: q in rest ==> !(q.memberId == p.memberId && q.schoolYear == p.schoolYear && q.month == p.month)
    ensures UniqueMonths([p] + rest)
  {
    var s := [p] + rest;
    forall i, j | 0 <= i < j < |s|
      ensures !(s[i].memberId == s[j].memberId && s[i].schoolYear == s[j].schoolYear && s[i].month == s[j].month)
    {
      if i == 0 {
        assert s[j] in rest;
      } else {
        assert s[i] == rest[i - 1] && s[j] == rest[j - 1];
      }
    }
  }

  lemma {:induction false} MemberPaymentsUnique(ledger: seq<Payment>, id: MemberId, schoolYear: string)
    requires UniqueMonths(ledger)
    ensures UniqueMonths(MemberPayments(ledger, id, schoolYear))
    decreases |ledger|
  {
    if ledger != [] {
      var rest := MemberPayments(ledger[1..], id, schoolYear);
      TailUnique(ledger);
      MemberPaymentsUnique(ledger[1..], id, schoolYear);
      if ledger[0].memberId == id && ledger[0].schoolYear == schoolYear {
        forall q | q in rest
          ensures !(q.memberId == ledger[0].memberId && q.schoolYear == ledger[0].schoolYear && q.month == ledger[0].month)
        {
          var k :| 0 <= k < |ledger[1..]| && ledger[1..][k] == q;
          assert ledger[k + 1] == q;
        }
        UniqueCons(ledger[0], rest);
      }
    }
  }

  /** Dropping the first payment keeps the uniqueness rule. */
  lemma TailUnique(payments: seq<Payment>)
    requires UniqueMonths(payments) && payments != []
    ensures UniqueMonths(payments[1..])
  {
    var rest := payments[1..];
    forall i, j | 0 <= i < j < |rest|
      ensures !(rest[i].memberId == rest[j].memberId && rest[i].schoolYear == rest[j].schoolYear
                && rest[i].month == rest[j].month)
    {
      assert rest[i] == payments[i + 1] && rest[j] == payments[j + 1];
    }
  }

  lemma HeadMonthIsNew(payments: seq<Payment>, id: MemberId, schoolYear: string)
    requires UniqueMonths(payments) && payments != []
    requires forall p :: p in payments ==> p.memberId == id && p.schoolYear == schoolYear
    ensures payments[0].month !in MonthSet(payments[1..])
  {
  }

  /** Payments of one member and year with distinct months: as many months
      as payments. */
  lemma {:induction false} DistinctMonthsCount(payments: seq<Payment>, id: MemberId, schoolYear: string)
    requires UniqueMonths(payments)
    requires forall p :: p in payments ==> p.memberId == id && p.schoolYear == schoolYear
    ensures |MonthSet(payments)| == |payments|
    decreases |payments|
  {
    if payments != [] {
      var rest := payments[1..];
      TailUnique(payments);
      DistinctMonthsCount(rest, id, schoolYear);
      HeadMonthIsNew(payments, id, schoolYear);
      MonthSetCons(payments);
    }
  }

  lemma MonthSetCons(payments: seq<Payment>)
    requires payments != []
    ensures MonthSet(payments) == {payments[0].month} + MonthSet(payments[1..])
  {
    assert forall p :: p in payments <==> p == payments[0] || p in payments[1..];
  }

  /** Under the uniqueness rule, and when every payment is one monthly fee,
      the "paid" total shown equals the money recorded for the member. */
  lemma TotalPaidIsRecorded(ledger: seq<Payment>, surplus: seq<Surplus>, memberId: MemberId, schoolYear: string)
    requires UniqueMonths(ledger)
    requires forall p :: p in ledger ==> p.amount == MonthlyFee
    ensures PaymentStatus(ledger, surplus, memberId, schoolYear).totalPaid
      == TotalAmount(MemberPayments(ledger, memberId, schoolYear))
  {
    var payments := MemberPayments(ledger, memberId, schoolYear);
    MemberPaymentsUnique(ledger, memberId, schoolYear);
    MemberPaymentsMonths(ledger, memberId, schoolYear);
    DistinctMonthsCount(payments, memberId, schoolYear);
    TotalOfEqualAmounts(payments, MonthlyFee);
  }

  /** Under the uniqueness rule the payment a cell offers to undo is the one
      payment of that month. */
  lemma UndoIsTheMonthsPayment(ledger: seq<Payment>, surplus: seq<Surplus>, memberId: MemberId, schoolYear: string,
                               i: int, q: Payment)
    requires UniqueMonths(ledger)
    requires 0 <= i < |SchoolYearMonths|
    requires q in ledger && q.memberId == memberId && q.schoolYear == schoolYear && q.month == SchoolYearMonths[i]
    ensures PaymentStatus(ledger, surplus, memberId, schoolYear).cells[i].undo == Some(q)
  {
    var v := PaymentStatus(ledger, surplus, memberId, schoolYear);
    assert v.cells[i].isPaid;
    var p := v.cells[i].undo.value;
    var a :| 0 <= a < |ledger| && ledger[a] == p;
    var b :| 0 <= b < |ledger| && ledger[b] == q;
    assert a == b;
  }
}

=== FILE: payments.dfy ===
/** The payment hooks (`usePayments`): the allocation of a cash amount over
    the unpaid months of the school year with the remainder kept as surplus,
    the single-month payment, the "unpaid this month" list and the success
    message. Database reads become parameters and database writes become a
    list of `Write`s applied to an abstract `Store`. */
module Payments {
  import opened Strings
  import opened SchoolYear
  import opened Ledger

  /** A write issued to the store. */
  datatype Write = InsertSurplus(surplus: Surplus) | InsertPayments(batch: seq<Payment>)

  /** The payments and surplus tables. */
  datatype Store = Store(payments: seq<Payment>, surplus: seq<Surplus>)

  /** What the allocation reports: how many months it paid and the surplus. */
  datatype AllocationResult = AllocationResult(paidMonths: int, surplus: int)

  /** The outcome of one allocation: the payments created, the amount left
      over, the writes issued in order, and the reported result. */
  datatype Allocation = Allocation(
    payments: seq<Payment>,
    remaining: int,
    writes: seq<Write>,
    result: AllocationResult)

  function Min(a: int, b: int): int {
    if a < b then a else b
  }

  /** The payment record of one month at the monthly fee. */
  function MonthlyPayment(memberId: MemberId, schoolYear: string, month: int): Payment {
    Payment(memberId, schoolYear, month, MonthlyFee)
  }

  /** One monthly payment for each of `months`, in the same order. */
  function PaymentsFor(memberId: MemberId, schoolYear: string, months: seq<int>): (r: seq<Payment>)
    ensures |r| == |months|
    ensures forall i :: 0 <= i < |r| ==> r[i] == MonthlyPayment(memberId, schoolYear, months[i])
  {
    seq(|months|, i requires 0 <= i < |months| => MonthlyPayment(memberId, schoolYear, months[i]))
  }

  /** The note stored with a surplus: "Přebytek z platby {amount} Kč". */
  function SurplusNote(amount: int): string {
    "Přebytek z platby " + IntToString(amount) + " Kč"
  }

  /** The writes that follow the allocation loop, in the order they are issued. */
  function AllocationWrites(memberId: MemberId, amount: int, payments: seq<Payment>, remaining: int): seq<Write> {
    (if remaining > 0 then [InsertSurplus(Surplus(memberId, remaining, SurplusNote(amount)))] else [])
    + (if payments != [] then [InsertPayments(payments)] else [])
  }

  /* ---------------------------------------------------------------------- */
  /* Allocation                                                             */
  /* ---------------------------------------------------------------------- */

  /** The allocation of `amount` for a member whose months already paid this
      school year are `paid`: the earliest unpaid months are paid one fee at a
      time while the money lasts, and what is left is the surplus. */
  function Allocate(memberId: MemberId, schoolYear: string, amount: int, paid: set<int>): (a: Allocation)
    // no money is created or lost
    ensures |a.payments| * MonthlyFee + a.remaining == amount
    // the payments are the leading months of the unpaid list, at the monthly fee
    ensures |a.payments| <= |UnpaidMonths(paid)|
    ensures a.payments == PaymentsFor(memberId, schoolYear, UnpaidMonths(paid)[..|a.payments|])
    ensures forall p :: p in a.payments ==> IsSchoolMonth(p.month) && p.month !in paid
    // the walk stops only when the months or the money run out
    ensures a.remaining >= MonthlyFee ==> |a.payments| == |UnpaidMonths(paid)|
    ensures amount >= 0 ==> a.remaining >= 0
    // a surplus record is written exactly when something is left, and before the payments
    ensures |a.writes| <= 2
    ensures a.remaining > 0 <==>
      (a.writes != [] && a.writes[0] == InsertSurplus(Surplus(memberId, a.remaining, SurplusNote(amount))))
    ensures a.payments != [] <==>
      (a.writes != [] && a.writes[|a.writes| - 1] == InsertPayments(a.payments))
    ensures a.result == AllocationResult(|a.payments|, a.remaining)
  {
    var unpaid := UnpaidMonths(paid);
    var k := MonthsAffordable(amount, |unpaid|);
    var payments := PaymentsFor(memberId, schoolYear, unpaid[..k]);
    var remaining := amount - k * MonthlyFee;
    PrefixPaymentsMonths(memberId, schoolYear, unpaid, k);
    AllocationWritesOrder(memberId, amount, payments, remaining);
    Allocation(payments, remaining, AllocationWrites(memberId, amount, payments, remaining),
      AllocationResult(k, remaining))
  }

  /** How many of `n` unpaid months `amount` pays: as many whole fees as it
      holds, at most `n`. */
  function MonthsAffordable(amount: int, n: nat): (k: nat)
    ensures k <= n
    ensures amount >= 0 ==> amount - k * MonthlyFee >= 0
    ensures amount - k * MonthlyFee >= MonthlyFee ==> k == n
  {
    if amount < MonthlyFee then 0 else Min(n, amount / MonthlyFee)
  }

  /** The payments for a prefix of `months` are for months of `months`. */
  lemma PrefixPaymentsMonths(memberId: MemberId, schoolYear: string, months: seq<int>, k: nat)
    requires k <= |months|
    ensures forall p :: p in PaymentsFor(memberId, schoolYear, months[..k]) ==> p.month in months
  {
    var payments := PaymentsFor(memberId, schoolYear, months[..k]);
    forall p | p in payments
      ensures p.month in months
    {
      var i :| 0 <= i < |payments| && payments[i] == p;
      assert p.month == months[..k][i] == months[i];
    }
  }

  /** The surplus record comes first, when there is a surplus, and the
      payment batch last, when there are payments. */
  lemma AllocationWritesOrder(memberId: MemberId, amount: int, payments: seq<Payment>, remaining: int)
    ensures var w := AllocationWrites(memberId, amount, payments, remaining);
      && |w| <= 2
      && (remaining > 0 <==> (w != [] && w[0] == InsertSurplus(Surplus(memberId, remaining, SurplusNote(amount)))))
      && (payments != [] <==> (w != [] && w[|w| - 1] == InsertPayments(payments)))
  {
  }

  /** `useCreatePayment`: reads the member's months already paid from the
      ledger, walks the unpaid months in school-year order paying one monthly
      fee each until the money runs short, and returns the writes and result. */
  method CreatePayment(memberId: MemberId, schoolYear: string, amount: int, ledger: seq<Payment>)
    returns (a: Allocation)
    ensures a == Allocate(memberId, schoolYear, amount, PaidMonths(ledger, memberId, schoolYear))
  {
    var paid := PaidMonths(ledger, memberId, schoolYear);
    var unpaid := UnpaidMonths(paid);
    var remaining := amount;
    var payments: seq<Payment> := [];
    var i := 0;
    while i < |unpaid|
      invariant 0 <= i <= |unpaid|
      invariant payments == PaymentsFor(memberId, schoolYear, unpaid[..i])
      invariant remaining == amount - i * MonthlyFee
      invariant i > 0 ==> remaining >= 0
    {
      if remaining >= MonthlyFee {
        assert unpaid[..i + 1] == unpaid[..i] + [unpaid[i]];
        payments := payments + [MonthlyPayment(memberId, schoolYear, unpaid[i])];
        remaining := remaining - MonthlyFee;
        i := i + 1;
      } else {
        break;
      }
    }
    assert i == |unpaid| || remaining < MonthlyFee;
    a := Allocation(payments, remaining, AllocationWrites(memberId, amount, payments, remaining),
      AllocationResult(|payments|, remaining));
    StoppedWalkIsAllocation(memberId, schoolYear, amount, paid, i, a);
  }

  /** Where the walk stops, with the money short or the months exhausted,
      its state is the closed-form allocation. */
  lemma StoppedWalkIsAllocation(memberId: MemberId, schoolYear: string, amount: int, paid: set<int>, i: int, a: Allocation)
    requires 0 <= i <= |UnpaidMonths(paid)|
    requires i == |UnpaidMonths(paid)| || a.remaining < MonthlyFee
    requires i > 0 ==> a.remaining >= 0
    requires a.remaining == amount - i * MonthlyFee
    requires a.payments == PaymentsFor(memberId, schoolYear, UnpaidMonths(paid)[..i])
    requires a.writes == AllocationWrites(memberId, amount, a.payments, a.remaining)
    requires a.result == AllocationResult(|a.payments|, a.remaining)
    ensures a == Allocate(memberId, schoolYear, amount, paid)
  {
    var unpaid := UnpaidMonths(paid);
    WalkStopsWhereAffordable(amount, |unpaid|, i);
    assert |a.payments| == i;
  }

  /** A walk that pays `i` of `n` months, each for one fee, and stops with the
      months exhausted or less than a fee left has paid what the amount affords. */
  lemma WalkStopsWhereAffordable(amount: int, n: nat, i: int)
    requires 0 <= i <= n
    requires i == n || amount - i * MonthlyFee < MonthlyFee
    requires i > 0 ==> amount - i * MonthlyFee >= 0
    ensures i == MonthsAffordable(amount, n)
  {
  }

  /** The number of months paid is the number of unpaid months or the number
      of whole fees in the amount, whichever is smaller. */
  lemma AllocationCount(memberId: MemberId, schoolYear: string, amount: int, paid: set<int>)
    requires amount >= 0
    ensures |Allocate(memberId, schoolYear, amount, paid).payments|
      == Min(|UnpaidMonths(paid)|, amount / MonthlyFee)
  {
  }

  /** Allocation never pays a month twice: the payments keep the ledger's
      uniqueness rule, and the member's paid months grow by exactly the months
      just paid. */
  lemma AllocationKeepsMonthsUnique(ledger: seq<Payment>, memberId: MemberId, schoolYear: string, amount: int)
    requires UniqueMonths(ledger)
    ensures var a := Allocate(memberId, schoolYear, amount, PaidMonths(ledger, memberId, schoolYear));
      && UniqueMonths(ledger + a.payments)
      && PaidMonths(ledger + a.payments, memberId, schoolYear)
         == PaidMonths(ledger, memberId, schoolYear) + MonthSet(a.payments)
  {
    var paid := PaidMonths(ledger, memberId, schoolYear);
    var a := Allocate(memberId, schoolYear, amount, paid);
    var unpaid := UnpaidMonths(paid);
    var k := |a.payments|;
    InSchoolOrderDistinct(unpaid);
    var all := ledger + a.payments;
    forall i, j | 0 <= i < j < |all|
      ensures !(all[i].memberId == all[j].memberId && all[i].schoolYear == all[j].schoolYear
                && all[i].month == all[j].month)
    {
      if j >= |ledger| {
        assert all[j] == a.payments[j - |ledger|];
        if i >= |ledger| {
          assert all[i] == a.payments[i - |ledger|];
          assert unpaid[i - |ledger|] != unpaid[j - |ledger|];
        } else if all[i].memberId == memberId && all[i].schoolYear == schoolYear {
          assert all[i] in ledger;
          assert all[i].month in paid;
          assert a.payments[j - |ledger|] in a.payments;
        }
      }
    }
    var before := PaidMonths(ledger, memberId, schoolYear);
    var after := PaidMonths(all, memberId, schoolYear);
    forall m | m in after
      ensures m in before + MonthSet(a.payments)
    {
      var p :| p in all && p.memberId == memberId && p.schoolYear == schoolYear && p.month == m;
      if p !in ledger {
        assert p in a.payments;
      }
    }
    forall m | m in MonthSet(a.payments)
      ensures m in after
    {
      var p :| p in a.payments && p.month == m;
      var i :| 0 <= i < k && a.payments[i] == p;
      assert p.memberId == memberId && p.schoolYear == schoolYear;
      assert p in all;
    }
  }

  /** Applies the writes to the store in order. */
  function Apply(store: Store, writes: seq<Write>): Store
    decreases |writes|
  {
    if writes == [] then store
    else
      var next := match writes[0]
        case InsertSurplus(s) => Store(store.payments, store.surplus + [s])
        case InsertPayments(batch) => Store(store.payments + batch, store.surplus);
      Apply(next, writes[1..])
  }

  /** Applying the allocation's writes appends the surplus record, when there
      is one, and the batch of payments. */
  lemma ApplyAllocationWrites(store: Store, memberId: MemberId, amount: int, payments: seq<Payment>, remaining: int)
    ensures Apply(store, AllocationWrites(memberId, amount, payments, remaining))
      == Store(store.payments + payments,
               store.surplus + (if remaining > 0 then [Surplus(memberId, remaining, SurplusNote(amount))] else []))
  {
    var s := Surplus(memberId, remaining, SurplusNote(amount));
    var writes := AllocationWrites(memberId, amount, payments, remaining);
    if remaining > 0 {
      var mid := Store(store.payments, store.surplus + [s]);
      assert Apply(store, writes) == Apply(mid, writes[1..]);
      if payments != [] {
        assert writes[1..] == [InsertPayments(payments)];
        assert Apply(mid, writes[1..]) == Apply(Store(store.payments + payments, mid.surplus), []);
      } else {
        assert writes[1..] == [];
        assert store.payments + payments == store.payments;
      }
    } else {
      assert store.surplus + [] == store.surplus;
      if payments != [] {
        assert writes == [InsertPayments(payments)];
        assert Apply(store, writes) == Apply(Store(store.payments + payments, store.surplus), []);
      } else {
        assert store.payments + payments == store.payments;
      }
    }
  }

  /** For a non-negative amount, the allocation records exactly the money
      received, split between payments and surplus, and keeps the
      uniqueness rule. */
  lemma AllocationConservesMoney(store: Store, memberId: MemberId, schoolYear: string, amount: int)
    requires amount >= 0
    requires UniqueMonths(store.payments)
    ensures var a := Allocate(memberId, schoolYear, amount, PaidMonths(store.payments, memberId, schoolYear));
      var after := Apply(store, a.writes);
      && TotalAmount(after.payments) + TotalSurplus(after.surplus)
         == TotalAmount(store.payments) + TotalSurplus(store.surplus) + amount
      && after.payments == store.payments + a.payments
      && UniqueMonths(after.payments)
  {
    var a := Allocate(memberId, schoolYear, amount, PaidMonths(store.payments, memberId, schoolYear));
    var s := Surplus(memberId, a.remaining, SurplusNote(amount));
    var added := if a.remaining > 0 then [s] else [];
    ApplyAllocationWrites(store, memberId, amount, a.payments, a.remaining);
    TotalAmountAppend(store.payments, a.payments);
    TotalOfEqualAmounts(a.payments, MonthlyFee);
    TotalSurplusAppend(store.surplus, added);
    assert TotalSurplus(added) == a.remaining;
    AllocationKeepsMonthsUnique(store.payments, memberId, schoolYear, amount);
  }

  /** A negative amount records nothing at all. */
  lemma NegativeAmountRecordsNothing(store: Store, memberId: MemberId, schoolYear: string, amount: int)
    requires amount < 0
    ensures var a := Allocate(memberId, schoolYear, amount, PaidMonths(store.payments, memberId, schoolYear));
      a.payments == [] && a.remaining == amount && Apply(store, a.writes) == store
  {
  }

  lemma {:induction false} FilterKeepsAll(s: seq<int>, months: set<int>)
    requires forall i :: 0 <= i < |s| ==> s[i] !in months
    ensures FilterBy(s, months, false) == s
    decreases |s|
  {
    if s != [] {
      FilterKeepsAll(s[1..], months);
    }
  }

  /** An amount of exactly `k` fees, `k` at most the number of unpaid months,
      pays the first `k` unpaid months and leaves nothing over. */
  lemma AllocationOfWholeFees(memberId: MemberId, schoolYear: string, paid: set<int>, k: int, amount: int)
    requires 0 <= k <= |UnpaidMonths(paid)| && amount == k * MonthlyFee
    ensures var a := Allocate(memberId, schoolYear, amount, paid);
      a.payments == PaymentsFor(memberId, schoolYear, UnpaidMonths(paid)[..k]) && a.remaining == 0
  {
    AllocationCount(memberId, schoolYear, amount, paid);
  }

  lemma NothingPaidLeavesAllUnpaid(paid: set<int>)
    requires forall m :: IsSchoolMonth(m) ==> m !in paid
    ensures UnpaidMonths(paid) == SchoolYearMonths
  {
    SchoolYearMonthsShape();
    forall i | 0 <= i < |SchoolYearMonths|
      ensures SchoolYearMonths[i] !in paid
    {
      assert IsSchoolMonth(SchoolYearMonths[i]);
    }
    FilterKeepsAll(SchoolYearMonths, paid);
  }

  lemma SeptemberPaidLeavesTheRest(paid: set<int>)
    requires 9 in paid
    requires forall m :: IsSchoolMonth(m) && m != 9 ==> m !in paid
    ensures UnpaidMonths(paid) == [10, 11, 12, 1, 2, 3, 4, 5, 6]
  {
    SchoolYearMonthsShape();
    var rest := SchoolYearMonths[1..];
    forall i | 0 <= i < |rest|
      ensures rest[i] !in paid
    {
      assert IsSchoolMonth(rest[i]) && rest[i] != 9;
    }
    FilterKeepsAll(rest, paid);
  }

  lemma ThreeFeesFromOctober(memberId: MemberId, schoolYear: string, paid: set<int>)
    requires UnpaidMonths(paid) == [10, 11, 12, 1, 2, 3, 4, 5, 6]
    ensures var a := Allocate(memberId, schoolYear, 300, paid);
      a.payments == PaymentsFor(memberId, schoolYear, [10, 11, 12]) && a.remaining == 0
  {
    assert UnpaidMonths(paid)[..3] == [10, 11, 12];
    AllocationOfWholeFees(memberId, schoolYear, paid, 3, 300);
  }

  lemma TenFeesFromSeptember(memberId: MemberId, schoolYear: string, paid: set<int>)
    requires UnpaidMonths(paid) == SchoolYearMonths
    ensures var a := Allocate(memberId, schoolYear, 1000, paid);
      a.payments == PaymentsFor(memberId, schoolYear, SchoolYearMonths) && a.remaining == 0
  {
    assert |UnpaidMonths(paid)| * MonthlyFee == 1000;
    AllocationOfAllUnpaid(memberId, schoolYear, paid);
  }

  /** The fees of all unpaid months pay exactly those months. */
  lemma AllocationOfAllUnpaid(memberId: MemberId, schoolYear: string, paid: set<int>)
    ensures var unpaid := UnpaidMonths(paid);
      var a := Allocate(memberId, schoolYear, |unpaid| * MonthlyFee, paid);
      a.payments == PaymentsFor(memberId, schoolYear, unpaid) && a.remaining == 0
  {
    var unpaid := UnpaidMonths(paid);
    AllocationOfWholeFees(memberId, schoolYear, paid, |unpaid|, |unpaid| * MonthlyFee);
    assert unpaid[..|unpaid|] == unpaid;
  }

  /** With only September paid, 300 pays October to December and leaves nothing. */
  lemma AllocationExampleThreeMonths(memberId: MemberId, schoolYear: string, paid: set<int>)
    requires 9 in paid
    requires forall m :: IsSchoolMonth(m) && m != 9 ==> m !in paid
    ensures var a := Allocate(memberId, schoolYear, 300, paid);
      a.payments == PaymentsFor(memberId, schoolYear, [10, 11, 12]) && a.remaining == 0
  {
    SeptemberPaidLeavesTheRest(paid);
    ThreeFeesFromOctober(memberId, schoolYear, paid);
  }

  /** With nothing paid, 1000 pays the whole school year and leaves nothing. */
  lemma AllocationExampleWholeYear(memberId: MemberId, schoolYear: string, paid: set<int>)
    requires forall m :: IsSchoolMonth(m) ==> m !in paid
    ensures var a := Allocate(memberId, schoolYear, 1000, paid);
      a.payments == PaymentsFor(memberId, schoolYear, SchoolYearMonths) && a.remaining == 0
  {
    NothingPaidLeavesAllUnpaid(paid);
    TenFeesFromSeptember(memberId, schoolYear, paid);
  }

  /** 50 is less than one fee: nothing is paid and all of it is surplus. */
  lemma AllocationExampleBelowFee(memberId: MemberId, schoolYear: string)
    ensures var a := Allocate(memberId, schoolYear, 50, {});
      a.payments == [] && a.remaining == 50
      && a.writes == [InsertSurplus(Surplus(memberId, 50, SurplusNote(50)))]
  {
  }

  /** When every month is paid, the whole amount becomes surplus. */
  lemma AllocationExampleAllPaid(memberId: MemberId, schoolYear: string)
    ensures var a := Allocate(memberId, schoolYear, 250, SchoolMonthSet);
      a.payments == [] && a.remaining == 250
  {
    PaidUnpaidPartition(SchoolMonthSet);
  }

  /* ---------------------------------------------------------------------- */
  /* Single-month payment                                                   */
  /* ---------------------------------------------------------------------- */

  /** `usePaySingleMonth`: one month at the monthly fee. The ledger stays
      within its uniqueness rule exactly when the month was not already paid
      (no check is made before inserting; the store must refuse the
      duplicate), and then the member's paid months grow by that month and
      the money recorded by one fee. */
  lemma PaySingleMonthAddsMonth(ledger: seq<Payment>, memberId: MemberId, schoolYear: string, month: int)
    requires UniqueMonths(ledger)
    ensures var after := ledger + [MonthlyPayment(memberId, schoolYear, month)];
      && (UniqueMonths(after) <==> month !in PaidMonths(ledger, memberId, schoolYear))
      && PaidMonths(after, memberId, schoolYear) == PaidMonths(ledger, memberId, schoolYear) + {month}
      && TotalAmount(after) == TotalAmount(ledger) + MonthlyFee
  {
    var p := MonthlyPayment(memberId, schoolYear, month);
    var after := ledger + [p];
    if month in PaidMonths(ledger, memberId, schoolYear) {
      var q :| q in ledger && q.memberId == memberId && q.schoolYear == schoolYear && q.month == month;
      var i :| 0 <= i < |ledger| && ledger[i] == q;
      assert after[i] == q && after[|ledger|] == p;
    }
    assert forall q :: q in after <==> q in ledger || q == p;
    TotalAmountAppend(ledger, [p]);
  }

  /* ---------------------------------------------------------------------- */
  /* Members who have not paid this month                                   */
  /* ---------------------------------------------------------------------- */

  /** The members whose id is not in `ids`, in their original order. */
  function WithoutIds(members: seq<Member>, ids: set<MemberId>): (r: seq<Member>)
    ensures forall m :: m in r <==> m in members && m.id !in ids
    ensures |r| <= |members|
  {
    if members == [] then []
    else
      var rest := WithoutIds(members[1..], ids);
      if members[0].id !in ids then [members[0]] + rest else rest
  }

  /** `useUnpaidMembers` at calendar month `month`: nobody in July and August;
      otherwise every active member without a payment for this month of the
      school year. */
  function UnpaidMembers(members: seq<Member>, ledger: seq<Payment>, schoolYear: string, month: int)
    : (r: seq<Member>)
    ensures !IsSchoolMonth(month) ==> r == []
    ensures IsSchoolMonth(month) ==>
      forall m :: m in r <==> m in members && m.isActive && month !in PaidMonths(ledger, m.id, schoolYear)
  {
    var paidIds := set p | p in ledger && p.schoolYear == schoolYear && p.month == month :: p.memberId;
    if !IsSchoolMonth(month) then []
    else
      var r := WithoutIds(ActiveMembers(members), paidIds);
      assert forall m: Member :: m.id in paidIds <==> month in PaidMonths(ledger, m.id, schoolYear) by {
        forall m: Member
          ensures m.id in paidIds <==> month in PaidMonths(ledger, m.id, schoolYear)
        {
          if month in PaidMonths(ledger, m.id, schoolYear) {
            var p :| p in ledger && p.memberId == m.id && p.schoolYear == schoolYear && p.month == month;
            assert p.memberId in paidIds;
          }
        }
      }
      r
  }

  /** Paying the current month takes the member off the unpaid list and leaves
      everyone else where they were. */
  lemma PayingLeavesUnpaidList(members: seq<Member>, ledger: seq<Payment>, schoolYear: string, month: int, who: Member)
    requires IsSchoolMonth(month)
    ensures var after := ledger + [MonthlyPayment(who.id, schoolYear, month)];
      forall m :: m in UnpaidMembers(members, after, schoolYear, month) <==>
        m in UnpaidMembers(members, ledger, schoolYear, month) && m.id != who.id
  {
    var p := MonthlyPayment(who.id, schoolYear, month);
    var after := ledger + [p];
    assert forall q :: q in after <==> q in ledger || q == p;
    forall m: Member
      ensures PaidMonths(after, m.id, schoolYear) ==
        PaidMonths(ledger, m.id, schoolYear) + (if m.id == who.id then {month} else {})
    {
    }
  }

  /* ---------------------------------------------------------------------- */
  /* Success message                                                        */
  /* ---------------------------------------------------------------------- */

  /** The ending of "měsíc" after a number, as the source writes it: none
      for 1, "e" below 5, "ů" otherwise. */
  function MonthWordEndingAsWritten(n: int): (r: string)
    ensures n == 1 <==> r == ""
    ensures (n != 1 && n < 5) <==> r == "e"
    ensures n >= 5 <==> r == "ů"
  {
    if n == 1 then "" else if n < 5 then "e" else "ů"
  }

  /** The ending of "měsíc" by Czech grammar: "měsíc" for 1, "měsíce" for
      2 to 4, "měsíců" for 0 and 5 or more. */
  function MonthWordEnding(n: int): (r: string)
    ensures n == 1 <==> r == ""
    ensures 2 <= n <= 4 <==> r == "e"
    ensures (n == 0 || n >= 5) ==> r == "ů"
  {
    if n == 1 then "" else if 2 <= n <= 4 then "e" else "ů"
  }

  /** The two endings agree on every positive count; for zero months paid
      the source reads "0 měsíce" where Czech needs "0 měsíců". */
  lemma MonthWordEndingAtZero()
    ensures forall n :: n >= 1 ==> MonthWordEndingAsWritten(n) == MonthWordEnding(n)
    ensures MonthWordEndingAsWritten(0) == "e" && MonthWordEnding(0) == "ů"
  {
  }

  /** The toast text with a given ending of "měsíc": "Zaplaceno {n}
      měsíc{ending}", followed by ", přebytek {s} Kč" when there is a
      surplus. */
  function ToastText(result: AllocationResult, ending: string): (r: string)
    requires ending == "" || ending == "e" || ending == "ů"
    ensures StartsWith(r, "Zaplaceno " + IntToString(result.paidMonths) + " měsíc" + ending)
    ensures result.surplus > 0 <==> EndsWith(r, " Kč")
    ensures result.surplus > 0 ==> EndsWith(r, ", přebytek " + IntToString(result.surplus) + " Kč")
  {
    var base := "Zaplaceno " + IntToString(result.paidMonths) + " měsíc" + ending;
    ToastBase(base, ending);
    if result.surplus > 0 then
      var tail := ", přebytek " + IntToString(result.surplus) + " Kč";
      ToastWithSurplus(base, tail, IntToString(result.surplus));
      base + tail
    else
      base
  }

  /** The toast with a surplus: the base text, then the surplus part. */
  lemma ToastWithSurplus(base: string, tail: string, amount: string)
    requires tail == ", přebytek " + amount + " Kč"
    ensures StartsWith(base + tail, base)
    ensures EndsWith(base + tail, tail) && EndsWith(base + tail, " Kč")
  {
    AppendEnds(base, tail);
    assert tail == (", přebytek " + amount) + " Kč";
    EndsWithTail(base + tail, ", přebytek " + amount, " Kč");
  }

  /** The toast without a surplus ends in the month word, never in " Kč". */
  lemma ToastBase(base: string, ending: string)
    requires ending == "" || ending == "e" || ending == "ů"
    requires |base| > |ending| && base[|base| - |ending| - 1] == 'c' && base[|base| - |ending|..] == ending
    ensures StartsWith(base, base)
    ensures !EndsWith(base, " Kč")
  {
    assert base[..|base|] == base;
    if EndsWith(base, " Kč") {
      EndsWithLast(base, " Kč");
      assert false;
    }
  }

  /** The success toast as the source writes it (with the source's ending of
      "měsíc", so "0 měsíce" when no month was paid). */
  function SuccessMessage(result: AllocationResult): (r: string)
    ensures StartsWith(r, "Zaplaceno " + IntToString(result.paidMonths) + " měsíc"
      + MonthWordEndingAsWritten(result.paidMonths))
    ensures result.surplus > 0 <==> EndsWith(r, " Kč")
    ensures result.surplus > 0 ==> EndsWith(r, ", přebytek " + IntToString(result.surplus) + " Kč")
    ensures result.surplus <= 0 ==> EndsWith(r, "měsíc" + MonthWordEndingAsWritten(result.paidMonths))
  {
    ToastText(result, MonthWordEndingAsWritten(result.paidMonths))
  }

  /** The success toast with the ending Czech grammar asks for. */
  function CorrectedSuccessMessage(result: AllocationResult): (r: string)
    ensures StartsWith(r, "Zaplaceno " + IntToString(result.paidMonths) + " měsíc"
      + MonthWordEnding(result.paidMonths))
    ensures result.surplus > 0 <==> EndsWith(r, " Kč")
    ensures result.surplus > 0 ==> EndsWith(r, ", přebytek " + IntToString(result.surplus) + " Kč")
  {
    ToastText(result, MonthWordEnding(result.paidMonths))
  }

  /** The two toasts agree whenever some month was paid, and differ when
      none was. */
  lemma SuccessMessagesAgree(result: AllocationResult)
    ensures result.paidMonths > 0 ==> SuccessMessage(result) == CorrectedSuccessMessage(result)
    ensures result.paidMonths == 0 ==> SuccessMessage(result) != CorrectedSuccessMessage(result)
  {
    MonthWordEndingAtZero();
    if result.paidMonths == 0 {
      var head := "Zaplaceno " + IntToString(result.paidMonths) + " měsíc";
      var a := SuccessMessage(result);
      var b := CorrectedSuccessMessage(result);
      assert StartsWith(a, head + "e");
      assert StartsWith(b, head + "ů");
      assert a[|head|] == (head + "e")[|head|];
      assert b[|head|] == (head + "ů")[|head|];
    }
  }

  /** The toast after an allocation quotes the number of payments created,
      and ends in the surplus exactly when something is left over. */
  lemma SuccessMessageOfAllocation(memberId: MemberId, schoolYear: string, amount: int, paid: set<int>)
    ensures var a := Allocate(memberId, schoolYear, amount, paid);
      var message := SuccessMessage(a.result);
      && StartsWith(message, "Zaplaceno " + IntToString(|a.payments|) + " měsíc")
      && (a.remaining > 0 <==> EndsWith(message, " Kč"))
      && (a.remaining > 0 ==> EndsWith(message, ", přebytek " + IntToString(a.remaining) + " Kč"))
  {
    var a := Allocate(memberId, schoolYear, amount, paid);
    var head := "Zaplaceno " + IntToString(|a.payments|) + " měsíc";
    var message := SuccessMessage(a.result);
    assert message[..|head|] == (head + MonthWordEndingAsWritten(|a.payments|))[..|head|];
  }

  /** 50 Kč pays no month: the source's toast reads "Zaplaceno 0 měsíce,
      přebytek 50 Kč", where Czech asks for "0 měsíců". */
  lemma BelowFeeToast(memberId: MemberId, schoolYear: string, paid: set<int>)
    ensures var result := Allocate(memberId, schoolYear, 50, paid).result;
      && StartsWith(SuccessMessage(result), "Zaplaceno 0 měsíce")
      && StartsWith(CorrectedSuccessMessage(result), "Zaplaceno 0 měsíců")
      && EndsWith(SuccessMessage(result), ", přebytek 50 Kč")
      && EndsWith(CorrectedSuccessMessage(result), ", přebytek 50 Kč")
  {
    var a := Allocate(memberId, schoolYear, 50, paid);
    assert |a.payments| == 0;
    assert a.result == AllocationResult(0, 50);
    BelowFeeTexts();
  }

  lemma BelowFeeTexts()
    ensures "Zaplaceno " + IntToString(0) + " měsíc" + MonthWordEndingAsWritten(0) == "Zaplaceno 0 měsíce"
    ensures "Zaplaceno " + IntToString(0) + " měsíc" + MonthWordEnding(0) == "Zaplaceno 0 měsíců"
    ensures ", přebytek " + IntToString(50) + " Kč" == ", přebytek 50 Kč"
  {
    assert IntToString(0) == "0";
    assert IntToString(50) == "50" by {
      assert NatToString(5) == "5";
    }
  }
}

=== FILE: school_year.dfy ===
/** The school-year calendar and fee schedule (`schoolYearUtils`): the ten
    dues-bearing months from September to June, the fixed monthly fee, the
    "YYYY/YY" label of the school year in progress, Czech month names and the
    payment summary of one member. The wall clock is a parameter. */
module SchoolYear {
  import opened Strings

  /** The dues-bearing months in the order the school year runs. */
  const SchoolYearMonths: seq<int> := [9, 10, 11, 12, 1, 2, 3, 4, 5, 6]

  /** The same months as a set. */
  const SchoolMonthSet: set<int> := {9, 10, 11, 12, 1, 2, 3, 4, 5, 6}

  /** The dues owed for every school month, in crowns. */
  const MonthlyFee: int := 100

  /* ---------------------------------------------------------------------- */
  /* School-year order                                                      */
  /* ---------------------------------------------------------------------- */

  /** Position of a month in the school year: September is 0, June is 9. */
  function SchoolIndex(m: int): int {
    if m >= 9 then m - 9 else m + 3
  }

  /** The months of `s` run strictly forward through the school year. */
  predicate InSchoolOrder(s: seq<int>) {
    forall i, j :: 0 <= i < j < |s| ==> SchoolIndex(s[i]) < SchoolIndex(s[j])
  }

  /** The month sequence is exactly the ten school months, each once, in
      school-year order, with July and August left out. */
  lemma SchoolYearMonthsShape()
    ensures |SchoolYearMonths| == 10
    ensures forall i :: 0 <= i < 10 ==> SchoolIndex(SchoolYearMonths[i]) == i
    ensures InSchoolOrder(SchoolYearMonths)
    ensures forall m :: m in SchoolYearMonths <==> m in SchoolMonthSet
    ensures 7 !in SchoolYearMonths && 8 !in SchoolYearMonths
    ensures forall m :: m in SchoolYearMonths ==> 1 <= m <= 12
  {
    SchoolIndexOfMonths();
    SchoolMonthsAsSet();
  }

  lemma SchoolIndexOfMonths()
    ensures forall i :: 0 <= i < 10 ==> SchoolIndex(SchoolYearMonths[i]) == i
  {
  }

  lemma SchoolMonthsAsSet()
    ensures forall m :: m in SchoolYearMonths <==> m in SchoolMonthSet
  {
  }

  /** A sequence in school-year order repeats no month. */
  lemma InSchoolOrderDistinct(s: seq<int>)
    requires InSchoolOrder(s)
    ensures forall i, j :: 0 <= i < j < |s| ==> s[i] != s[j]
  {
  }

  /** A repetition-free sequence has as many elements as its set. */
  lemma {:induction false} DistinctCardinality(s: seq<int>)
    requires forall i, j :: 0 <= i < j < |s| ==> s[i] != s[j]
    ensures |set x | x in s| == |s|
    decreases |s|
  {
    if s != [] {
      var rest := s[1..];
      DistinctCardinality(rest);
      assert (set x | x in s) == (set x | x in rest) + {s[0]};
      assert s[0] !in rest;
    }
  }

  /* ---------------------------------------------------------------------- */
  /* Calendar functions                                                     */
  /* ---------------------------------------------------------------------- */

  /** `isMonthInSchoolYear`. */
  function IsSchoolMonth(m: int): (r: bool)
    ensures r <==> (1 <= m <= 6 || 9 <= m <= 12)
    ensures r <==> m in SchoolMonthSet
  {
    m in SchoolYearMonths
  }

  /** `getTotalYearlyFee`: one monthly fee for each school month. */
  function TotalYearlyFee(): (r: int)
    ensures r == 10 * MonthlyFee == 1000
  {
    |SchoolYearMonths| * MonthlyFee
  }

  /** `getCurrentSchoolYear` at calendar `year` and `month` (1..12): from
      September on, the school year started this calendar year; before
      September, it started the year before. */
  function SchoolYearLabel(year: int, month: int): string {
    if month >= 9 then IntToString(year) + "/" + Last(IntToString(year + 1), 2)
    else IntToString(year - 1) + "/" + Last(IntToString(year), 2)
  }

  /** The calendar year in which the school year in progress began. */
  function StartYear(year: int, month: int): int {
    if month >= 9 then year else year - 1
  }

  /** For four-digit-era years the label is the start year, a slash, and the
      zero-padded last two digits of the following year. */
  lemma SchoolYearLabelFormat(year: int, month: int)
    requires year >= 10
    ensures var start := StartYear(year, month);
      SchoolYearLabel(year, month) == NatToString(start) + "/" + TwoDigits((start + 1) % 100)
  {
    var start := StartYear(year, month);
    LastTwoDigits(start + 1);
  }

  /** The label splits at its slash into two parts that read back as the
      start year and the last two digits of the year after it. */
  lemma SchoolYearLabelDecodes(year: int, month: int)
    requires year >= 10
    ensures var parts := Split(SchoolYearLabel(year, month), '/');
      && |parts| == 2
      && AllDigits(parts[0]) && DigitsValue(parts[0]) == StartYear(year, month)
      && AllDigits(parts[1]) && DigitsValue(parts[1]) == (StartYear(year, month) + 1) % 100
  {
    var start := StartYear(year, month);
    SchoolYearLabelFormat(year, month);
    var a := NatToString(start);
    var b := TwoDigits((start + 1) % 100);
    DigitsHaveNoSlash(a);
    DigitsHaveNoSlash(b);
    SplitPair(a, b, '/');
    NatToStringValue(start);
  }

  /** September to December of one calendar year and January to August of the
      next are labelled as the same school year. */
  lemma SchoolYearSpansSeptemberToAugust(year: int, autumn: int, spring: int)
    requires autumn >= 9 && spring < 9
    ensures SchoolYearLabel(year, autumn) == SchoolYearLabel(year + 1, spring)
  {
  }

  /** `getMonthName`: the Czech name, or "" outside 1..12. */
  function MonthName(m: int): (r: string)
    ensures r == "" <==> !(1 <= m <= 12)
    ensures r != "" ==> |r| >= 4
  {
    match m
    case 1 => "Leden"
    case 2 => "Únor"
    case 3 => "Březen"
    case 4 => "Duben"
    case 5 => "Květen"
    case 6 => "Červen"
    case 7 => "Červenec"
    case 8 => "Srpen"
    case 9 => "Září"
    case 10 => "Říjen"
    case 11 => "Listopad"
    case 12 => "Prosinec"
    case _ => ""
  }

  /** `getMonthNameShort`: the three-letter abbreviation, or "" outside 1..12. */
  function MonthNameShort(m: int): (r: string)
    ensures r == "" <==> !(1 <= m <= 12)
    ensures r != "" ==> |r| == 3
  {
    match m
    case 1 => "Led"
    case 2 => "Úno"
    case 3 => "Bře"
    case 4 => "Dub"
    case 5 => "Kvě"
    case 6 => "Čer"
    case 7 => "Čvc"
    case 8 => "Srp"
    case 9 => "Zář"
    case 10 => "Říj"
    case 11 => "Lis"
    case 12 => "Pro"
    case _ => ""
  }

  /** Every abbreviation is the first three letters of the full name except
      July's, which would otherwise clash with June's. */
  lemma ShortNameIsPrefix(m: int)
    requires 1 <= m <= 12
    ensures m != 7 <==> MonthNameShort(m) == MonthName(m)[..3]
  {
    var name := MonthName(m);
    if m == 7 {
      assert MonthNameShort(m)[1] != name[1];
    } else {
      assert |name| >= 4;
      assert forall i :: 0 <= i < 3 ==> MonthNameShort(m)[i] == name[i];
    }
  }

  /* ---------------------------------------------------------------------- */
  /* Filtering the school months                                            */
  /* ---------------------------------------------------------------------- */

  /** `s.filter(m => months.has(m) == wanted)`. */
  function FilterBy(s: seq<int>, months: set<int>, wanted: bool): (r: seq<int>)
    ensures forall x :: x in r <==> x in s && ((x in months) == wanted)
    ensures |r| <= |s|
    decreases |s|
  {
    if s == [] then []
    else
      var rest := FilterBy(s[1..], months, wanted);
      assert forall x :: x in s[1..] ==> x in s;
      if (s[0] in months) == wanted then [s[0]] + rest else rest
  }

  /** Filtering keeps the school-year order. */
  lemma {:induction false} FilterKeepsOrder(s: seq<int>, months: set<int>, wanted: bool)
    requires InSchoolOrder(s)
    ensures InSchoolOrder(FilterBy(s, months, wanted))
    decreases |s|
  {
    if s != [] {
      var rest := FilterBy(s[1..], months, wanted);
      FilterKeepsOrder(s[1..], months, wanted);
      if (s[0] in months) == wanted {
        forall j | 0 <= j < |rest|
          ensures SchoolIndex(s[0]) < SchoolIndex(rest[j])
        {
          assert rest[j] in s[1..];
          var k :| 0 <= k < |s[1..]| && s[1..][k] == rest[j];
          assert s[k + 1] == rest[j];
        }
        assert FilterBy(s, months, wanted) == [s[0]] + rest;
      }
    }
  }

  /** The school months not in `paid`, in school-year order. */
  function UnpaidMonths(paid: set<int>): (r: seq<int>)
    ensures forall m :: m in r <==> IsSchoolMonth(m) && m !in paid
    ensures InSchoolOrder(r)
  {
    SchoolYearMonthsShape();
    FilterKeepsOrder(SchoolYearMonths, paid, false);
    FilterBy(SchoolYearMonths, paid, false)
  }

  /** The school months in `paid`, in school-year order. */
  function PaidMonthsInOrder(paid: set<int>): (r: seq<int>)
    ensures forall m :: m in r <==> IsSchoolMonth(m) && m in paid
    ensures InSchoolOrder(r)
  {
    SchoolYearMonthsShape();
    FilterKeepsOrder(SchoolYearMonths, paid, true);
    FilterBy(SchoolYearMonths, paid, true)
  }

  lemma {:induction false} FilterBySplitsLength(s: seq<int>, months: set<int>)
    ensures |FilterBy(s, months, true)| + |FilterBy(s, months, false)| == |s|
    decreases |s|
  {
    if s != [] {
      FilterBySplitsLength(s[1..], months);
    }
  }

  /** The paid and unpaid lists split the ten school months between them, and
      the unpaid list is as long as the set of school months not yet paid. */
  lemma PaidUnpaidPartition(paid: set<int>)
    ensures |PaidMonthsInOrder(paid)| + |UnpaidMonths(paid)| == 10
    ensures |UnpaidMonths(paid)| == |SchoolMonthSet - paid|
    ensures |PaidMonthsInOrder(paid)| == |SchoolMonthSet * paid|
    ensures UnpaidMonths(paid) == [] <==> SchoolMonthSet <= paid
  {
    FilterBySplitsLength(SchoolYearMonths, paid);
    var u := UnpaidMonths(paid);
    var p := PaidMonthsInOrder(paid);
    OrderedListCounts(u, SchoolMonthSet - paid);
    OrderedListCounts(p, SchoolMonthSet * paid);
    if u != [] {
      assert u[0] in SchoolMonthSet - paid;
    }
  }

  /** A list in school-year order holding exactly the members of `months` is
      as long as `months` is large. */
  lemma OrderedListCounts(s: seq<int>, months: set<int>)
    requires InSchoolOrder(s)
    requires forall x :: x in s <==> x in months
    ensures |s| == |months|
  {
    InSchoolOrderDistinct(s);
    DistinctCardinality(s);
    assert (set x | x in s) == months;
  }

  /* ---------------------------------------------------------------------- */
  /* Payment summary                                                        */
  /* ---------------------------------------------------------------------- */

  datatype PaymentSummary = PaymentSummary(
    isPaidCurrentMonth: bool,
    unpaidMonths: seq<int>,
    paidCount: int,
    totalMonths: int)

  /** `calculatePaymentStatus`: the raw list of paid months is counted as
      given, without removing repetitions. */
  function CalculatePaymentStatus(paidMonths: seq<int>, currentMonth: int): (r: PaymentSummary)
    ensures r.isPaidCurrentMonth <==> currentMonth in paidMonths
    ensures forall m :: m in r.unpaidMonths <==> IsSchoolMonth(m) && m !in paidMonths
    ensures InSchoolOrder(r.unpaidMonths)
    ensures r.paidCount == |paidMonths| && r.totalMonths == 10
  {
    PaymentSummary(
      currentMonth in paidMonths,
      UnpaidMonths(set m | m in paidMonths),
      |paidMonths|,
      |SchoolYearMonths|)
  }

  /** Paid and unpaid counts add up to the ten school months when the paid
      list names school months without repetition. */
  lemma PaymentSummaryAddsUp(paidMonths: seq<int>, currentMonth: int)
    requires forall i, j :: 0 <= i < j < |paidMonths| ==> paidMonths[i] != paidMonths[j]
    requires forall i :: 0 <= i < |paidMonths| ==> IsSchoolMonth(paidMonths[i])
    ensures var r := CalculatePaymentStatus(paidMonths, currentMonth);
      r.paidCount + |r.unpaidMonths| == r.totalMonths
  {
    var paid := set m | m in paidMonths;
    DistinctCardinality(paidMonths);
    PaidUnpaidPartition(paid);
    assert SchoolMonthSet * paid == paid;
  }

  /** A repeated month is counted twice, so the counts no longer add up. */
  lemma PaymentSummaryCountsRepeats(m: int)
    requires IsSchoolMonth(m)
    ensures var r := CalculatePaymentStatus([m, m], m);
      r.paidCount + |r.unpaidMonths| == r.totalMonths + 1
  {
    var paid := set x | x in [m, m];
    assert paid == {m};
    PaidUnpaidPartition(paid);
    assert SchoolMonthSet * paid == {m};
  }
}

=== FILE: strings.dfy ===
/** The pieces of the JavaScript string library that the ledger code relies on:
    trimming, splitting and joining, substring search, lower-casing and the
    decimal rendering of numbers. Strings are sequences of characters. */
module Strings {

  /* ---------------------------------------------------------------------- */
  /* White space                                                            */
  /* ---------------------------------------------------------------------- */

  /** White space as `String.prototype.trim` and the regular-expression class
      `\s` see it: the WhiteSpace and LineTerminator characters of ECMAScript. */
  predicate IsSpace(c: char) {
    OneOf(c, SpaceChars)
  }

  const SpaceChars: seq<char> := [' ', '\t', '\n', '\r', '\U{000B}', '\U{000C}', '\U{00A0}', '\U{1680}',
    '\U{2000}', '\U{2001}', '\U{2002}', '\U{2003}', '\U{2004}', '\U{2005}', '\U{2006}', '\U{2007}',
    '\U{2008}', '\U{2009}', '\U{200A}', '\U{2028}', '\U{2029}', '\U{202F}', '\U{205F}', '\U{3000}', '\U{FEFF}']

  /** `c` occurs in `cs`. */
  predicate OneOf(c: char, cs: seq<char>) {
    cs != [] && (c == cs[0] || OneOf(c, cs[1..]))
  }

  /** Every white-space character is a control character or the space, the
      no-break space, or lies at or above U+1680: the printable Latin letters,
      digits and punctuation in between are not white space. */
  lemma NotSpace(c: char)
    requires ' ' < c < '\U{00A0}' || '\U{00A0}' < c < '\U{1680}'
    ensures !IsSpace(c)
  {
    SpaceCharsBound(c, SpaceChars);
  }

  lemma {:induction false} SpaceCharsBound(c: char, cs: seq<char>)
    requires forall i :: 0 <= i < |cs| ==> cs[i] <= ' ' || cs[i] == '\U{00A0}' || cs[i] >= '\U{1680}'
    requires ' ' < c < '\U{00A0}' || '\U{00A0}' < c < '\U{1680}'
    ensures !OneOf(c, cs)
    decreases |cs|
  {
    if cs != [] {
      SpaceCharsBound(c, cs[1..]);
    }
  }

  predicate AllSpace(s: string) {
    forall i :: 0 <= i < |s| ==> IsSpace(s[i])
  }

  predicate NoSpace(s: string) {
    forall i :: 0 <= i < |s| ==> !IsSpace(s[i])
  }

  /* ---------------------------------------------------------------------- */
  /* Trimming                                                               */
  /* ---------------------------------------------------------------------- */

  /** Drops the leading white space: the result is the suffix of `s` that
      starts at its first non-space character. */
  function TrimStart(s: string): (r: string)
    ensures |r| <= |s| && r == s[|s| - |r|..]
    ensures AllSpace(s[..|s| - |r|])
    ensures r == [] || !IsSpace(r[0])
    decreases |s|
  {
    if s != [] && IsSpace(s[0]) then
      var r := TrimStart(s[1..]);
      assert s[..|s| - |r|] == [s[0]] + s[1..][..|s| - 1 - |r|];
      r
    else s
  }

  /** Drops the trailing white space: the result is the prefix of `s` that
      ends at its last non-space character. */
  function TrimEnd(s: string): (r: string)
    ensures |r| <= |s| && r == s[..|r|]
    ensures AllSpace(s[|r|..])
    ensures r == [] || !IsSpace(r[|r| - 1])
    decreases |s|
  {
    if s != [] && IsSpace(s[|s| - 1]) then
      var r := TrimEnd(s[..|s| - 1]);
      assert s[|r|..] == s[..|s| - 1][|r|..] + [s[|s| - 1]];
      r
    else s
  }

  /** `s.trim()`: empty exactly when `s` is all white space, and otherwise
      starting and ending with a non-space character. */
  function Trim(s: string): (r: string)
    ensures r == [] || (!IsSpace(r[0]) && !IsSpace(r[|r| - 1]))
    ensures r == [] <==> AllSpace(s)
  {
    TrimmedEmptyIffAllSpace(s);
    TrimEnd(TrimStart(s))
  }

  /** What `Trim` drops from either end is white space only. */
  lemma TrimIsSlice(s: string)
    ensures var a := |s| - |TrimStart(s)|; var r := Trim(s);
      && a + |r| <= |s| && r == s[a..a + |r|]
      && AllSpace(s[..a]) && AllSpace(s[a + |r|..])
  {
    var t := TrimStart(s);
    var r := TrimEnd(t);
    var a := |s| - |t|;
    assert t[|r|..] == s[a + |r|..];
  }

  lemma TrimmedEmptyIffAllSpace(s: string)
    ensures TrimEnd(TrimStart(s)) == [] <==> AllSpace(s)
  {
    var t := TrimStart(s);
    var r := TrimEnd(t);
    if t == [] {
      assert s[..|s|] == s;
    } else {
      assert t[0] == s[|s| - |t|];
    }
  }

  /** Trimming twice is trimming once. */
  lemma TrimIdempotent(s: string)
    ensures Trim(Trim(s)) == Trim(s)
  {
  }

  /** Leading white space never survives `TrimStart`. */
  lemma {:induction false} TrimStartSkipsSpace(p: string, s: string)
    requires AllSpace(p)
    ensures TrimStart(p + s) == TrimStart(s)
    decreases |p|
  {
    if p != [] {
      var ps := p + s;
      assert ps[0] == p[0];
      assert ps[1..] == p[1..] + s;
      assert TrimStart(ps) == TrimStart(p[1..] + s);
      TrimStartSkipsSpace(p[1..], s);
    } else {
      assert p + s == s;
    }
  }

  /** Trailing white space never survives `TrimEnd`. */
  lemma {:induction false} TrimEndSkipsSpace(s: string, q: string)
    requires AllSpace(q)
    ensures TrimEnd(s + q) == TrimEnd(s)
    decreases |q|
  {
    if q != [] {
      var sq := s + q;
      assert sq[|sq| - 1] == q[|q| - 1];
      assert sq[..|sq| - 1] == s + q[..|q| - 1];
      assert TrimEnd(sq) == TrimEnd(s + q[..|q| - 1]);
      TrimEndSkipsSpace(s, q[..|q| - 1]);
    } else {
      assert s + q == s;
    }
  }

  /** When `s` has a non-space character, `TrimStart` keeps whatever follows it. */
  lemma {:induction false} TrimStartKeepsTail(s: string, q: string)
    requires !AllSpace(s)
    ensures TrimStart(s + q) == TrimStart(s) + q
    decreases |s|
  {
    if IsSpace(s[0]) {
      assert (s + q)[1..] == s[1..] + q;
      assert !AllSpace(s[1..]) by {
        var i :| 0 <= i < |s| && !IsSpace(s[i]);
        assert s[1..][i - 1] == s[i];
      }
      TrimStartKeepsTail(s[1..], q);
    }
  }

  /** Surrounding white space never changes the result of `Trim`. */
  lemma PaddingIsTrimmed(p: string, s: string, q: string)
    requires AllSpace(p) && AllSpace(q)
    ensures Trim(p + s + q) == Trim(s)
  {
    assert p + s + q == p + (s + q);
    TrimStartSkipsSpace(p, s + q);
    if AllSpace(s) {
      assert AllSpace(s + q);
      assert Trim(s + q) == [];
    } else {
      TrimStartKeepsTail(s, q);
      TrimEndSkipsSpace(TrimStart(s), q);
    }
  }

  /* ---------------------------------------------------------------------- */
  /* Searching                                                              */
  /* ---------------------------------------------------------------------- */

  /** `s.indexOf(c)`: the position of the first `c`, or -1 when there is none. */
  function IndexOf(s: string, c: char): (r: int)
    ensures -1 <= r < |s|
    ensures r == -1 <==> c !in s
    ensures 0 <= r ==> s[r] == c && c !in s[..r]
  {
    if s == [] then -1
    else if s[0] == c then 0
    else
      var k := IndexOf(s[1..], c);
      assert s[1..] == s[..|s|][1..];
      if k < 0 then -1
      else
        assert s[..k + 1] == [s[0]] + s[1..][..k];
        k + 1
  }

  predicate StartsWith(s: string, prefix: string) {
    |prefix| <= |s| && s[..|prefix|] == prefix
  }

  predicate EndsWith(s: string, suffix: string) {
    |suffix| <= |s| && s[|s| - |suffix|..] == suffix
  }

  /** A string starts with its first part and ends with its last. */
  lemma AppendEnds(a: string, b: string)
    ensures StartsWith(a + b, a) && EndsWith(a + b, b)
  {
    assert (a + b)[..|a|] == a;
    assert (a + b)[|a|..] == b;
  }

  /** What a string starts with, it starts with after more is appended. */
  lemma StartsWithAppend(s: string, prefix: string, more: string)
    requires StartsWith(s, prefix)
    ensures StartsWith(s + more, prefix)
  {
    assert (s + more)[..|prefix|] == s[..|prefix|];
  }

  /** A string ending in `t + u` ends in `u`. */
  lemma EndsWithTail(s: string, t: string, u: string)
    requires EndsWith(s, t + u)
    ensures EndsWith(s, u)
  {
    assert s[|s| - |u|..] == s[|s| - |t + u|..][|t|..];
    assert (t + u)[|t|..] == u;
  }

  /** A string ends in `suffix` only if their last characters agree. */
  lemma EndsWithLast(s: string, suffix: string)
    requires suffix != [] && EndsWith(s, suffix)
    ensures s[|s| - 1] == suffix[|suffix| - 1]
  {
    assert s[|s| - |suffix|..][|suffix| - 1] == s[|s| - 1];
  }

  /** `sub` occurs in `s` starting at position `i`. */
  predicate OccursAt(s: string, sub: string, i: int) {
    0 <= i <= |s| - |sub| && s[i..i + |sub|] == sub
  }

  /** `s.includes(sub)`, searched from the left one position at a time. */
  predicate Contains(s: string, sub: string)
    decreases |s|
  {
    StartsWith(s, sub) || (s != [] && Contains(s[1..], sub))
  }

  /** The search agrees with the definition of a substring: `sub` occurs in
      `s` at some position. */
  lemma {:induction false} ContainsIsOccurrence(s: string, sub: string)
    ensures Contains(s, sub) <==> exists i :: OccursAt(s, sub, i)
    decreases |s|
  {
    if StartsWith(s, sub) {
      assert OccursAt(s, sub, 0);
    }
    if s != [] {
      ContainsIsOccurrence(s[1..], sub);
      if Contains(s[1..], sub) {
        var i :| OccursAt(s[1..], sub, i);
        assert s[i + 1..i + 1 + |sub|] == s[1..][i..i + |sub|];
        assert OccursAt(s, sub, i + 1);
      }
      if exists i :: OccursAt(s, sub, i) {
        var i :| OccursAt(s, sub, i);
        if i > 0 {
          assert s[1..][i - 1..i - 1 + |sub|] == s[i..i + |sub|];
          assert OccursAt(s[1..], sub, i - 1);
        }
      }
    } else if exists i :: OccursAt(s, sub, i) {
      var i :| OccursAt(s, sub, i);
      assert sub == [];
    }
  }

  /** Only a string at least as long as `sub` can contain it. */
  lemma {:induction false} ContainsNeedsRoom(s: string, sub: string)
    ensures Contains(s, sub) ==> |sub| <= |s|
    decreases |s|
  {
    if s != [] {
      ContainsNeedsRoom(s[1..], sub);
    }
  }

  /** Every string contains the empty string. */
  lemma ContainsEmpty(s: string)
    ensures Contains(s, "")
  {
  }

  /** A string contains each of its slices. */
  lemma ContainsSlice(s: string, i: nat, j: nat)
    requires i <= j <= |s|
    ensures Contains(s, s[i..j])
  {
    ContainsIsOccurrence(s, s[i..j]);
    assert OccursAt(s, s[i..j], i);
  }

  /* ---------------------------------------------------------------------- */
  /* Splitting and joining                                                  */
  /* ---------------------------------------------------------------------- */

  /** `parts.join(sep)`; the empty list joins to the empty string. */
  function Join(parts: seq<string>, sep: string): string
  {
    if |parts| == 0 then []
    else if |parts| == 1 then parts[0]
    else parts[0] + sep + Join(parts[1..], sep)
  }

  /** A join is at least as long as its first part. */
  lemma JoinStartsWithFirst(parts: seq<string>, sep: string)
    requires |parts| >= 1
    ensures |Join(parts, sep)| >= |parts[0]|
  {
  }

  /** `s.split(c)` for a one-character separator: the pieces between the
      occurrences of `c`, never an empty list. */
  function Split(s: string, c: char): (r: seq<string>)
    ensures |r| >= 1
    ensures forall i :: 0 <= i < |r| ==> c !in r[i]
    decreases |s|
  {
    var k := IndexOf(s, c);
    if k < 0 then [s]
    else
      var rest := Split(s[k + 1..], c);
      assert forall i :: 1 <= i <= |rest| ==> ([s[..k]] + rest)[i] == rest[i - 1];
      [s[..k]] + rest
  }

  /** Joining the pieces with the separator gives back the string. */
  lemma {:induction false} JoinSplit(s: string, c: char)
    ensures Join(Split(s, c), [c]) == s
    decreases |s|
  {
    var k := IndexOf(s, c);
    if k >= 0 {
      var rest := Split(s[k + 1..], c);
      JoinSplit(s[k + 1..], c);
      JoinCons(s[..k], rest, [c]);
      assert s == s[..k] + [c] + s[k + 1..];
    }
  }

  lemma JoinCons(first: string, rest: seq<string>, sep: string)
    requires |rest| >= 1
    ensures Join([first] + rest, sep) == first + sep + Join(rest, sep)
  {
    assert ([first] + rest)[1..] == rest;
  }

  /** Splitting a join of separator-free pieces gives back the pieces. */
  lemma {:induction false} SplitJoin(parts: seq<string>, c: char)
    requires |parts| >= 1
    requires forall i :: 0 <= i < |parts| ==> c !in parts[i]
    ensures Split(Join(parts, [c]), c) == parts
    decreases |parts|
  {
    if |parts| > 1 {
      var s := Join(parts, [c]);
      var rest := Join(parts[1..], [c]);
      assert s == parts[0] + [c] + rest;
      assert s[..|parts[0]|] == parts[0];
      assert IndexOf(s, c) == |parts[0]| by {
        assert c !in s[..|parts[0]|];
        assert s[|parts[0]|] == c;
      }
      assert s[|parts[0]| + 1..] == rest;
      SplitJoin(parts[1..], c);
    }
  }

  /** Two pieces free of `c` joined by `c` split back into those pieces. */
  lemma SplitPair(a: string, b: string, c: char)
    requires c !in a && c !in b
    ensures Split(a + [c] + b, c) == [a, b]
  {
    assert Join([a, b], [c]) == a + [c] + b;
    SplitJoin([a, b], c);
  }

  /** Joining pieces free of `c` with a separator free of `c` gives a string
      free of `c`. */
  lemma {:induction false} JoinKeepsOut(parts: seq<string>, sep: string, c: char)
    requires c !in sep
    requires forall i :: 0 <= i < |parts| ==> c !in parts[i]
    ensures c !in Join(parts, sep)
    decreases |parts|
  {
    if |parts| > 1 {
      JoinKeepsOut(parts[1..], sep, c);
    }
  }
  /** Every part of a join occurs in it. */
  lemma {:induction false} JoinHasParts(parts: seq<string>, sep: string, i: nat)
    requires i < |parts|
    ensures exists j :: OccursAt(Join(parts, sep), parts[i], j)
    decreases |parts|
  {
    var s := Join(parts, sep);
    if |parts| == 1 {
      assert OccursAt(s, parts[i], 0);
    } else if i == 0 {
      assert s[..|parts[0]|] == parts[0];
      assert OccursAt(s, parts[0], 0);
    } else {
      var front := parts[0] + sep;
      assert s == front + Join(parts[1..], sep);
      JoinHasParts(parts[1..], sep, i - 1);
      var j :| OccursAt(Join(parts[1..], sep), parts[1..][i - 1], j);
      assert s[|front| + j..|front| + j + |parts[i]|] == Join(parts[1..], sep)[j..j + |parts[i]|];
      assert OccursAt(s, parts[i], |front| + j);
    }
  }

  /** A join of non-empty parts starts with the first part's first character
      and ends with the last part's last character. */
  lemma {:induction false} JoinEnds(parts: seq<string>, sep: string)
    requires |parts| >= 1
    requires forall i :: 0 <= i < |parts| ==> parts[i] != []
    ensures var s := Join(parts, sep); var last := parts[|parts| - 1];
      |s| > 0 && s[0] == parts[0][0] && s[|s| - 1] == last[|last| - 1]
    decreases |parts|
  {
    if |parts| > 1 {
      JoinEnds(parts[1..], sep);
      assert parts[1..][|parts[1..]| - 1] == parts[|parts| - 1];
    }
  }

  /** A join of lower-case parts with a lower-case separator is lower case. */
  lemma {:induction false} LowerJoin(parts: seq<string>, sep: string)
    requires ToLower(sep) == sep
    requires forall i :: 0 <= i < |parts| ==> ToLower(parts[i]) == parts[i]
    ensures ToLower(Join(parts, sep)) == Join(parts, sep)
    decreases |parts|
  {
    if |parts| > 1 {
      LowerJoin(parts[1..], sep);
      ToLowerConcat(parts[0], sep);
      ToLowerConcat(parts[0] + sep, Join(parts[1..], sep));
    }
  }


  /** Length of the run of non-space characters at the start of `s`. */
  function SpanNonSpace(s: string): (n: nat)
    ensures n <= |s| && NoSpace(s[..n])
    ensures n < |s| ==> IsSpace(s[n])
    decreases |s|
  {
    if s == [] || IsSpace(s[0]) then 0
    else
      var n := SpanNonSpace(s[1..]);
      assert s[..n + 1] == [s[0]] + s[1..][..n];
      n + 1
  }

  /** `s.split(/\s+/).filter(p => p)`: the maximal runs of non-space characters. */
  function Words(s: string): (r: seq<string>)
    ensures forall i :: 0 <= i < |r| ==> r[i] != [] && NoSpace(r[i])
    decreases |s|
  {
    if s == [] then []
    else if IsSpace(s[0]) then Words(s[1..])
    else
      var n := SpanNonSpace(s);
      [s[..n]] + Words(s[n..])
  }

  lemma {:induction false} SpanOfWord(w: string, rest: string)
    requires NoSpace(w)
    requires rest == [] || IsSpace(rest[0])
    ensures SpanNonSpace(w + rest) == |w|
    decreases |w|
  {
    if w != [] {
      assert (w + rest)[1..] == w[1..] + rest;
      SpanOfWord(w[1..], rest);
    }
  }

  /** Words joined by single spaces are read back as the same words. */
  lemma {:induction false} WordsOfJoin(ws: seq<string>)
    requires forall i :: 0 <= i < |ws| ==> ws[i] != [] && NoSpace(ws[i])
    ensures Words(Join(ws, " ")) == ws
  {
    assert IsSpace(" "[0]);
    WordsOfSpacedJoin(ws, " ");
  }

  /** Leading white space does not change the words. */
  lemma {:induction false} WordsSkipSpace(p: string, s: string)
    requires AllSpace(p)
    ensures Words(p + s) == Words(s)
    decreases |p|
  {
    if p != [] {
      assert (p + s)[0] == p[0] && IsSpace(p[0]);
      assert (p + s)[1..] == p[1..] + s;
      WordsSkipSpace(p[1..], s);
    } else {
      assert p + s == s;
    }
  }

  /** Words joined by any non-empty run of white space are read back as the
      same words. */
  lemma {:induction false} WordsOfSpacedJoin(ws: seq<string>, sep: string)
    requires sep != [] && AllSpace(sep)
    requires forall i :: 0 <= i < |ws| ==> ws[i] != [] && NoSpace(ws[i])
    ensures Words(Join(ws, sep)) == ws
    decreases |ws|
  {
    if |ws| == 1 {
      SpanOfWord(ws[0], []);
      assert ws[0] + [] == ws[0];
      assert ws[0][|ws[0]|..] == [];
    } else if |ws| > 1 {
      var rest := Join(ws[1..], sep);
      var s := ws[0] + sep + rest;
      assert s == ws[0] + (sep + rest);
      SpanOfWord(ws[0], sep + rest);
      assert s[..|ws[0]|] == ws[0];
      assert s[|ws[0]|..] == sep + rest;
      WordsSkipSpace(sep, rest);
      WordsOfSpacedJoin(ws[1..], sep);
    }
  }

  /** Every word of `s` occurs in `s`. */
  lemma {:induction false} WordsOccur(s: string)
    ensures forall w :: w in Words(s) ==> exists j :: OccursAt(s, w, j)
    decreases |s|
  {
    if s != [] {
      if IsSpace(s[0]) {
        WordsOccur(s[1..]);
        forall w | w in Words(s)
          ensures exists j :: OccursAt(s, w, j)
        {
          var j :| OccursAt(s[1..], w, j);
          assert s[j + 1..j + 1 + |w|] == s[1..][j..j + |w|];
          assert OccursAt(s, w, j + 1);
        }
      } else {
        var n := SpanNonSpace(s);
        WordsOccur(s[n..]);
        forall w | w in Words(s)
          ensures exists j :: OccursAt(s, w, j)
        {
          if w == s[..n] {
            assert OccursAt(s, w, 0);
          } else {
            var j :| OccursAt(s[n..], w, j);
            assert s[j + n..j + n + |w|] == s[n..][j..j + |w|];
            assert OccursAt(s, w, j + n);
          }
        }
      }
    }
  }

  /* ---------------------------------------------------------------------- */
  /* Lower case                                                             */
  /* ---------------------------------------------------------------------- */

  /** `toLowerCase` for ASCII letters and the upper-case letters of Czech;
      every other character is its own lower case. */
  function LowerChar(c: char): char {
    if 'A' <= c <= 'Z' then (c as int + 32) as char
    else match c
      case 'Á' => 'á'
      case 'Č' => 'č'
      case 'Ď' => 'ď'
      case 'É' => 'é'
      case 'Ě' => 'ě'
      case 'Í' => 'í'
      case 'Ň' => 'ň'
      case 'Ó' => 'ó'
      case 'Ř' => 'ř'
      case 'Š' => 'š'
      case 'Ť' => 'ť'
      case 'Ú' => 'ú'
      case 'Ů' => 'ů'
      case 'Ý' => 'ý'
      case 'Ž' => 'ž'
      case _ => c
  }

  function ToLower(s: string): (r: string)
    ensures |r| == |s|
  {
    seq(|s|, i requires 0 <= i < |s| => LowerChar(s[i]))
  }

  /** Lower-casing is idempotent and leaves white space alone. */
  lemma LowerCharFacts(c: char)
    ensures LowerChar(LowerChar(c)) == LowerChar(c)
    ensures IsSpace(LowerChar(c)) <==> IsSpace(c)
  {
    LowerCharMovesLettersOnly(c);
    if LowerChar(c) != c {
      NotSpace(c);
      NotSpace(LowerChar(c));
    }
  }

  /** Only Latin letters change under lower-casing, into Latin letters. */
  lemma LowerCharMovesLettersOnly(c: char)
    ensures LowerChar(c) != c ==>
      && ('A' <= c <= 'Z' || '\U{00C0}' <= c < '\U{0180}')
      && ('a' <= LowerChar(c) <= 'z' || '\U{00C0}' <= LowerChar(c) < '\U{0180}')
      && LowerChar(LowerChar(c)) == LowerChar(c)
  {
  }

  lemma ToLowerIdempotent(s: string)
    ensures ToLower(ToLower(s)) == ToLower(s)
  {
    forall i | 0 <= i < |s| {
      LowerCharFacts(s[i]);
    }
  }

  lemma ToLowerConcat(a: string, b: string)
    ensures ToLower(a + b) == ToLower(a) + ToLower(b)
  {
  }

  /* ---------------------------------------------------------------------- */
  /* Numbers                                                                */
  /* ---------------------------------------------------------------------- */

  predicate IsDigit(c: char) {
    '0' <= c <= '9'
  }

  predicate AllDigits(s: string) {
    forall i :: 0 <= i < |s| ==> IsDigit(s[i])
  }

  lemma DigitsHaveNoSlash(s: string)
    requires AllDigits(s)
    ensures '/' !in s
  {
    assert forall i :: 0 <= i < |s| ==> IsDigit(s[i]);
  }

  function DigitChar(d: int): (c: char)
    requires 0 <= d <= 9
  {
    ('0' as int + d) as char
  }

  /** The value of a string of decimal digits, most significant first. */
  function DigitsValue(s: string): nat
    requires AllDigits(s)
  {
    if s == [] then 0
    else DigitsValue(s[..|s| - 1]) * 10 + (s[|s| - 1] as int - '0' as int)
  }

  /** `n.toString()` for a non-negative integer: decimal digits, most
      significant first, without leading zeros. */
  function NatToString(n: nat): (r: string)
    ensures r != [] && AllDigits(r)
    ensures r[0] == '0' ==> n == 0
    decreases n
  {
    if n < 10 then [DigitChar(n)] else NatToString(n / 10) + [DigitChar(n % 10)]
  }

  /** Reading the digits back gives the number. */
  lemma {:induction false} NatToStringValue(n: nat)
    ensures DigitsValue(NatToString(n)) == n
    decreases n
  {
    if n >= 10 {
      NatToStringValue(n / 10);
      var s := NatToString(n);
      assert s[..|s| - 1] == NatToString(n / 10);
    }
  }

  /** Distinct numbers are rendered differently. */
  lemma NatToStringInjective(m: nat, n: nat)
    requires NatToString(m) == NatToString(n)
    ensures m == n
  {
    NatToStringValue(m);
    NatToStringValue(n);
  }

  /** `i.toString()` for any integer. */
  function IntToString(i: int): string {
    if i < 0 then "-" + NatToString(-i) else NatToString(i)
  }

  /** `s.slice(-n)`: the last `n` characters, or all of `s` when it is shorter. */
  function Last(s: string, n: nat): (r: string)
    ensures |r| == if |s| < n then |s| else n
    ensures r == s[|s| - |r|..]
  {
    if |s| <= n then s else s[|s| - n..]
  }

  /** The two-digit, zero-padded rendering of a number below 100. */
  function TwoDigits(k: int): (r: string)
    requires 0 <= k < 100
    ensures |r| == 2 && AllDigits(r) && DigitsValue(r) == k
  {
    var r := [DigitChar(k / 10), DigitChar(k % 10)];
    assert r[..1] == [DigitChar(k / 10)];
    assert r[..1][..0] == [];
    assert DigitsValue(r[..1]) == k / 10;
    assert DigitsValue(r) == DigitsValue(r[..1]) * 10 + k % 10;
    r
  }

  lemma LastDigit(n: nat)
    ensures var s := NatToString(n); s[|s| - 1] == DigitChar(n % 10)
  {
  }

  lemma TensDigit(n: nat)
    ensures (n / 10) % 10 == (n % 100) / 10
  {
    var q := n / 100;
    var r := n % 100;
    assert n == 100 * q + r;
    assert n / 10 == 10 * q + r / 10;
  }

  /** The last two characters of a number of at least two digits are its
      value modulo 100, zero-padded. */
  lemma LastTwoDigits(n: nat)
    requires n >= 10
    ensures Last(NatToString(n), 2) == TwoDigits(n % 100)
  {
    var h := NatToString(n / 10);
    var s := h + [DigitChar(n % 10)];
    assert NatToString(n) == s;
    LastDigit(n / 10);
    TensDigit(n);
    UnitsDigit(n);
    assert TwoDigits(n % 100) == [DigitChar((n % 100) / 10), DigitChar((n % 100) % 10)];
    assert s[|s| - 2..] == [h[|h| - 1], DigitChar(n % 10)];
  }

  lemma UnitsDigit(n: nat)
    ensures (n % 100) % 10 == n % 10
  {
    var q := n / 100;
    var r := n % 100;
    assert n == 100 * q + r;
    assert n == 10 * (10 * q + r / 10) + r % 10;
  }
}

=== FILE: wrappers.dfy ===
/** The optional value that stands for JavaScript's `undefined` and `null`. */
module Wrappers {

  datatype Option<+T> = None | Some(value: T) {

    /** Returns the value in Some, or the default when None. */
    function GetOr(default: T): T {
      match this
      case Some(v) => v
      case None => default
    }
  }

  /** The values present in `xs`, in order: the `if (x) push(x)` pattern. */
  function Somes<T(!new)>(xs: seq<Option<T>>): (r: seq<T>)
    ensures |r| <= |xs|
    ensures forall y :: y in r <==> Some(y) in xs
  {
    if xs == [] then []
    else
      var rest := Somes(xs[1..]);
      assert forall x :: x in xs[1..] ==> x in xs;
      if xs[0].Some? then [xs[0].value] + rest else rest
  }

  /** When every entry is present, the values are the entries themselves. */
  lemma {:induction false} SomesOfPresent<T(!new)>(xs: seq<Option<T>>, ys: seq<T>)
    requires |xs| == |ys|
    requires forall i :: 0 <= i < |xs| ==> xs[i] == Some(ys[i])
    ensures Somes(xs) == ys
    decreases |xs|
  {
    if xs != [] {
      SomesOfPresent(xs[1..], ys[1..]);
    }
  }
}
